=== FILE: README.md ===
# nLPD compliance questionnaire: a Dafny model

This project models the core of a web questionnaire that rates how well a small
Swiss organisation complies with the revised Federal Act on Data Protection
(nLPD). The visitor answers fifteen multiple-choice questions in five sections,
leaves contact details in a lead form, and gets a score out of 10 with a risk
level (red, orange or green). An AI assistant writes a short teaser about the
result, and a hard-wired fallback takes over when the assistant is missing or
fails. The model covers:

- the scoring engine (`calculateScore`, `getTopPriorities`) over the shipped
  catalogue (modules `Catalog`, `Scoring`);
- the questionnaire flow: navigation, answers, the payload sent for analysis
  and the fallback on failure (`FormFlow`);
- the section indicators of the progress bar (`ProgressBar`);
- the validation of the lead form, including an exact reading of its email
  pattern (`LeadForm`);
- the analysis request, with the status updates it reports, the code-fence
  extraction of the reply and the fallback teasers and lead temperatures
  (`Analysis`);
- the loading screen that follows those updates (`AnalysisScreen`);
- the results page: the score message, the risk card and the gauge
  (`ResultsPreview`, `ScoreGauge`);
- the debug-log records and their redaction (`DebugLogger`);
- the debug-log store, with its cap, age cut-off and filters (`DebugStore`);
- the cookie-consent record (`CookieConsent`).

Shared helpers live in `Wrappers` (Option), `Seqs` (filter, subsequence, take),
`Text` (JavaScript whitespace and `trim`, decimal rendering of numbers) and
`Json` (parsed JSON values, truthiness, `||`).

Numbers are exact: the score is computed in rationals and kept in tenths, so
`normalized` 9.1 is `normalizedTenths` 91. Rounding is written out as
JavaScript's `Math.round`, which rounds halves up. Several things become
parameters of the functions that need them:

- the network outcome of the assistant call (`Analysis.Remote`);
- `JSON.parse` (`Analysis.Parsed`);
- the clock;
- generated ids;
- the contents of local storage.

Two observations came out of the proofs; both are stated as lemmas.

- The score message and the gauge switch colour at 31% and 70%, but the risk
  level switches at a score of 4.0 and 7.0. A raw sum of 28 out of 45 is
  therefore a red level, shown with the middle ("orange") message and an
  orange gauge (`ResultsPreview.RedLevelWithCautionMessage`).
- When the analysis throws, the submit handler stores the lead as `WARM`
  whatever the level (`Analysis.FallbackSaveAgreesOnlyForOrange`).

## Model

| member | source | states |
|---|---|---|
| Catalog.CatalogWellFormed | frontend/src/data/questionsData.js:2-597 | The shipped catalogue has 5 sections with distinct ids whose weights sum to 100%, and 15 questions numbered 1..15 with ids `q1`..`q15`. Each question names a known section and offers options with distinct non-empty values, scores in 0..3, at least one score-0 and one score-3 option, and never success feedback at a score of 2 or more. |
| Catalog.QuestionIdsDistinct | frontend/src/data/questionsData.js:40-597 | In a well-formed catalogue no two questions share an id, so an answer map key names at most one question. |
| Catalog.SectionTitle | frontend/src/data/questionsData.js:692 | `sections.find(...)?.title` yields a title exactly when some section has the id, and that title belongs to a section with that id. |
| Scoring.FindOption | frontend/src/data/questionsData.js:654 | `options.find` gives none exactly when no option has the value, and otherwise an option of the list carrying that value. |
| Scoring.FindDistinct | frontend/src/data/questionsData.js:654 | With distinct option values, looking up an option's own value finds that option. |
| Scoring.Selected | frontend/src/data/questionsData.js:652-655 | A question selects an option exactly when its answer is present and non-empty and matches an option; the option is one of the question's own and carries the answered value. |
| Scoring.WellFormedScoresInRange | frontend/src/data/questionsData.js:656-660 | In a well-formed catalogue every option score lies between 0 and the per-question maximum of 3. |
| Scoring.RawScore | frontend/src/data/questionsData.js:651-661 | With option scores in 0..3 the raw sum over `n` questions lies in 0..3n. |
| Scoring.RiskFor | frontend/src/data/questionsData.js:667-672 | The level is red exactly below 4, orange exactly from 4 up to below 7, and green exactly from 7 up. |
| Scoring.RoundToTenths | frontend/src/data/questionsData.js:676 | The tenths are the integer nearest to ten times the score, halves rounded up. |
| Scoring.ResultBounds | frontend/src/data/questionsData.js:664-676 | A raw sum between 0 and the maximum gives a normalized score between 0.0 and 10.0. |
| Scoring.ResultMonotone | frontend/src/data/questionsData.js:664-676 | A higher raw sum never gives a higher normalized score. It never turns a red level into a better one, nor reaches green where a lower sum did not. |
| Scoring.ScoreWith | frontend/src/data/questionsData.js:647-679 | Over any non-empty question list, `raw` is the sum of selected scores and the normalized score stays in 0..10 when scores are in range. |
| Scoring.Score | frontend/src/data/questionsData.js:647-679 | Over the catalogue, `raw` lies in 0..45 and the normalized score in 0.0..10.0. The level is red iff raw is at least 28, orange iff raw is 14..27, and green iff raw is at most 13. |
| Scoring.CalculateScoreOver | frontend/src/data/questionsData.js:647-679 | The accumulating loop over the questions computes the same result as the score's definition. |
| Scoring.CalculateScore | frontend/src/data/questionsData.js:647-679 | `calculateScore` over the catalogue rounds `((45 - raw) / 45) * 10` to tenths. |
| Scoring.RawScoreCongruent | frontend/src/data/questionsData.js:651-658 | The raw sum depends only on the option each question selects. |
| Scoring.RawScoreMonotone | frontend/src/data/questionsData.js:651-661 | Raising the contributions of questions pointwise never lowers the raw sum. |
| Scoring.RawScoreNone | frontend/src/data/questionsData.js:651-661 | When no question contributes, the raw sum is 0. |
| Scoring.RawScoreFull | frontend/src/data/questionsData.js:651-661 | When every question contributes 3, the raw sum is three times the number of questions. |
| Scoring.ForeignKeyIgnoredWith | frontend/src/data/questionsData.js:652 | Adding, changing or removing a key that is no question's id leaves the raw sum unchanged. |
| Scoring.ForeignKeyIgnored | frontend/src/data/questionsData.js:647-679 | Over the catalogue, a key that is no question's id never changes the score. |
| Scoring.EmptyAnswersScoreGreen | frontend/src/data/questionsData.js:647-679 | With no answers at all the result is raw 0, normalized 10.0 and green, because unanswered questions count as compliant. |
| Scoring.AllCompliantScoresGreen | frontend/src/data/questionsData.js:647-679 | Answering every question with a score-0 option gives raw 0, 10.0, green. |
| Scoring.AllSevereScoresRed | frontend/src/data/questionsData.js:647-679 | Answering every question with a score-3 option gives raw 45, 0.0, red. |
| Scoring.RaiseOneAnswerWith | frontend/src/data/questionsData.js:651-661 | Replacing one answer by an option that scores at least as much never lowers the raw sum. |
| Scoring.RaiseOneAnswer | frontend/src/data/questionsData.js:647-679 | Over the catalogue, a riskier answer never lowers `raw`, never raises the normalized score, and keeps a red level red. |
| Scoring.PushedBy | frontend/src/data/questionsData.js:685-697 | A question pushes one priority exactly when its selected option scores 2 or more. The priority is built from that question and option. |
| Scoring.QualifyingSound | frontend/src/data/questionsData.js:683-698 | Every collected priority is yielded by some question of the list. |
| Scoring.QualifyingComplete | frontend/src/data/questionsData.js:683-698 | Every question whose selected option scores 2 or more has its priority collected. |
| Scoring.Insert | frontend/src/data/questionsData.js:701 | One insertion step of the stable descending sort adds exactly the inserted item. |
| Scoring.InsertKeepsSorted | frontend/src/data/questionsData.js:701 | Inserting into a list sorted by descending score keeps it sorted. |
| Scoring.SortByScore | frontend/src/data/questionsData.js:701 | The sort is a permutation of its input, ordered by descending score. |
| Scoring.InsertWithScore | frontend/src/data/questionsData.js:701 | Insertion into a sorted list changes the items of a given score only by putting the new item in front. |
| Scoring.SortIsStable | frontend/src/data/questionsData.js:701 | For every score, the items with that score keep their original relative order, as a stable `Array.prototype.sort` does. |
| Scoring.InsertAfterHigher | frontend/src/data/questionsData.js:701 | An item lands after every strictly higher-scoring item and before the rest. |
| Scoring.SortTwoBands | frontend/src/data/questionsData.js:701 | When all scores are 2 or 3, the sort gives the 3s in original order, then the 2s in original order. |
| Scoring.InsertIntoBands | frontend/src/data/questionsData.js:701 | Inserting a 3 or a 2 into a list of 3s followed by 2s puts it at the head of its band. |
| Scoring.TakeSorted | frontend/src/data/questionsData.js:701 | `slice(0, n)` of the sorted list keeps min(n, length) items, still sorted, all from the input. |
| Scoring.TopPrioritiesWith | frontend/src/data/questionsData.js:682-702 | At most three priorities: exactly min(3, number of qualifying questions). They are sorted by descending score, each scores 2 or more and is yielded by some question. |
| Scoring.YieldedValid | frontend/src/data/questionsData.js:689-694 | In a well-formed catalogue a yielded priority has score 2 or 3, non-success feedback and a section title. |
| Scoring.TopPriorities | frontend/src/data/questionsData.js:682-702 | Over the catalogue, at most three priorities, sorted, each from a question, scoring 2 or more with a non-success feedback and a section title. |
| Scoring.TopPrioritiesReferenceWith | frontend/src/data/questionsData.js:682-702 | The result equals the first three of: the score-3 items in question order, then the score-2 items in question order. |
| Scoring.TopPrioritiesReference | frontend/src/data/questionsData.js:682-702 | The same reference characterisation over the shipped catalogue. |
| Scoring.SectionWeightsIgnored | frontend/src/data/questionsData.js:682-702 | Section weights never influence the priorities: sections with the same ids and titles give the same result. |
| Scoring.SameTitles | frontend/src/data/questionsData.js:692 | Section lists with equal ids and titles resolve every id to the same title. |
| Scoring.QualifyingSameTitles | frontend/src/data/questionsData.js:685-698 | Section lists that resolve every id to the same title collect the same priorities. |
| FormFlow.Start | frontend/src/components/FormFlow.jsx:36-39 | Starting shows the first question and keeps the answers. |
| FormFlow.Answer | frontend/src/components/FormFlow.jsx:42-47 | Answering sets exactly one key of the answer map and keeps every other key and the position. |
| FormFlow.Next | frontend/src/components/FormFlow.jsx:50-57 | Next advances by one before the last question and opens the lead form from the last one, keeping the answers. |
| FormFlow.Previous | frontend/src/components/FormFlow.jsx:60-67 | Previous goes back one question, or from the first question to the landing page, keeping the answers. |
| FormFlow.IndexStaysInRange | frontend/src/components/FormFlow.jsx:36-67 | No handler moves the question index outside the question list. |
| FormFlow.NextThenPrevious | frontend/src/components/FormFlow.jsx:50-67 | Away from the last question, Next then Previous returns to the same state. |
| FormFlow.PreviousThenNext | frontend/src/components/FormFlow.jsx:50-67 | Away from the first question, Previous then Next returns to the same state. |
| FormFlow.InitialInvariant | frontend/src/components/FormFlow.jsx:36-39 | The initial state satisfies the flow invariant. |
| FormFlow.AnswerKeepsInvariant | frontend/src/components/QuestionCard.jsx:245 | Picking an offered option keeps the flow invariant. |
| FormFlow.NextKeepsInvariant | frontend/src/components/QuestionCard.jsx:245 | Since Next is offered only once the current question is answered, pressing it keeps every earlier question answered and reaches the lead form only with all of them answered. |
| FormFlow.StepKeepsInvariant | frontend/src/components/QuestionCard.jsx:235-245 | Every event the question card offers keeps the flow invariant. |
| FormFlow.RunKeepsInvariant | frontend/src/components/FormFlow.jsx:36-67 | Any sequence of offered events from an invariant state ends in an invariant state. |
| FormFlow.RunKeepsAnswers | frontend/src/components/FormFlow.jsx:42-47 | An answered question stays answered through any sequence of offered events. |
| FormFlow.LeadCaptureAllAnswered | frontend/src/components/FormFlow.jsx:50-57 | Whatever the user does, the lead form shows only once every catalogue question is answered. |
| FormFlow.AnswerText | frontend/src/components/FormFlow.jsx:75-76 | The text sent for an answer is the selected option's label, or the raw value when no option matches. |
| FormFlow.AnswerTexts | frontend/src/components/FormFlow.jsx:70-80 | The answer-text map has a key exactly for each question with a truthy answer. |
| FormFlow.AnswerTextsValue | frontend/src/components/FormFlow.jsx:70-80 | The entry of a question whose id no later question repeats is that question's answer text. |
| FormFlow.CatalogAnswerTexts | frontend/src/components/FormFlow.jsx:70-80 | Over the catalogue, every answered question's entry is its own answer text. |
| FormFlow.OrNull | frontend/src/components/FormFlow.jsx:102-106 | `s \|\| null` is null exactly for the empty string, and otherwise `s`. |
| FormFlow.BuildPayload | frontend/src/components/FormFlow.jsx:98-115 | The payload carries the score's raw value, normalized score and level name, the answer-text map, and `has_email` true exactly when an email was given. First name, last name and company are copied as typed; email, size, industry and canton become null when empty. |
| FormFlow.PayloadConsistent | frontend/src/components/FormFlow.jsx:98-115 | The payload's level agrees with its raw value: red iff at least 28, orange iff 14..27, green iff at most 13. `has_email` agrees with the email field. |
| FormFlow.FallbackTeaser | frontend/src/components/FormFlow.jsx:147-153 | The failure teaser starts with the score out of 10 as the template prints it. The message right after it is `Vous êtes sur la bonne voie!` for green, `Des améliorations sont nécessaires.` for orange and `Action urgente requise.` for red. It ends with the pointer to the email. |
| FormFlow.FallbackTeaserSeparatesLevels | frontend/src/components/FormFlow.jsx:147-153 | With the same score, different levels give different failure teasers. |
| FormFlow.FallbackSave | frontend/src/components/FormFlow.jsx:160 | The record saved after a failure carries the failure teaser and a `WARM` lead, and no emails. |
| FormFlow.Submit | frontend/src/components/FormFlow.jsx:83-170 | Submitting ends on the thank-you page with the answers kept and the score and priorities of those answers. It sends the built payload. Given the analysis record, it shows that record's teaser and saves it; when the analysis throws it shows the failure teaser and saves exactly the failure record: that teaser, a `WARM` lead and no emails. |
| FormFlow.SubmitScoreAgrees | frontend/src/components/FormFlow.jsx:91-115 | The score sent for analysis is the score shown on the thank-you page. |
| ProgressBar.Numbers | frontend/src/components/ProgressBar.jsx:28 | `Array.from({length: total}, (_, i) => i + 1)` is the list 1..total. |
| ProgressBar.FilterInterval | frontend/src/components/ProgressBar.jsx:28-36 | Filtering 1..total by a band test keeps exactly the consecutive numbers of the band, cut at total. |
| ProgressBar.SectionQuestionsConsecutive | frontend/src/components/ProgressBar.jsx:28-36 | A known section's questions are the consecutive question numbers of its hard-wired band. |
| ProgressBar.UnknownSectionEmpty | frontend/src/components/ProgressBar.jsx:35 | An id the bar does not know has no questions. |
| ProgressBar.BandsPartition | frontend/src/components/ProgressBar.jsx:30-34 | Every question index belongs to the band of exactly one known section. |
| ProgressBar.CatalogSectionSizes | frontend/src/components/ProgressBar.jsx:28-36 | With 15 questions the indicators count 3, 3, 2, 3 and 4 questions. |
| ProgressBar.SectionTotalsSum | frontend/src/components/ProgressBar.jsx:28-36 | Whatever the number of questions, the five indicators together count each question exactly once. |
| ProgressBar.BandsMatchCatalog | frontend/src/components/ProgressBar.jsx:30-34 | The hard-wired bands agree with the section each catalogue question names. |
| ProgressBar.GetSectionProgress | frontend/src/components/ProgressBar.jsx:27-56 | An indicator counts its section's questions and the answered ones among them. The answered count is the number of its questions that hold an answer. It is complete exactly when all of them are answered, and current exactly when the shown question lies in its band; an unknown id is current on questions 12 to 15. |
| ProgressBar.CurrentSectionIsQuestionsSection | frontend/src/components/ProgressBar.jsx:46-54 | For each catalogue question, the section it names is the one and only known section marked current. |
| ProgressBar.UnknownSectionShowsComplete | frontend/src/components/ProgressBar.jsx:35-45 | An unknown section id shows 0 of 0 questions and therefore counts as complete. It is current exactly on questions 12 to 15, where the band lookup falls through. |
| LeadForm.EmailRegexIff | frontend/src/components/LeadCaptureForm.jsx:46 | The pattern accepts exactly the strings with no whitespace, exactly one `@` after at least one character, and a `.` in the domain with at least one character on each side. |
| LeadForm.RegexGivesShape | frontend/src/components/LeadCaptureForm.jsx:46 | Every string the pattern accepts has that shape. |
| LeadForm.ShapeGivesRegex | frontend/src/components/LeadCaptureForm.jsx:46 | Every string of that shape is accepted by the pattern. |
| LeadForm.TestEmail | frontend/src/components/LeadCaptureForm.jsx:46 | The scanning test answers yes exactly when the pattern matches. |
| LeadForm.RegexNotBlank | frontend/src/components/LeadCaptureForm.jsx:44-48 | An accepted email is never blank, so the two email errors never compete. |
| LeadForm.PaddedEmailRejected | frontend/src/components/LeadCaptureForm.jsx:44-48 | The pattern is tested on the untrimmed text, so an address with leading or trailing whitespace is invalid. |
| LeadForm.FirstNameError | frontend/src/components/LeadCaptureForm.jsx:41-43 | The first name is flagged exactly when it is blank after trimming. |
| LeadForm.EmailError | frontend/src/components/LeadCaptureForm.jsx:44-48 | The email is flagged when blank or not matching the pattern. `Email requis` is given exactly when it is blank. |
| LeadForm.ConsentError | frontend/src/components/LeadCaptureForm.jsx:49-51 | The consent box is flagged exactly when unchecked. |
| LeadForm.Validate | frontend/src/components/LeadCaptureForm.jsx:38-55 | The error map holds exactly the errors of the three rules, under their fields, and nothing else. |
| LeadForm.ValidIff | frontend/src/components/LeadCaptureForm.jsx:38-55 | A form is valid exactly when the first name is not blank, the email has the accepted shape and consent is given. |
| LeadForm.OptionalFieldsIgnored | frontend/src/components/LeadCaptureForm.jsx:38-55 | Last name, company, size, industry and canton never affect validation. |
| LeadForm.Get | frontend/src/components/LeadCaptureForm.jsx:24-33 | Every field holds the kind of value its input produces: text, or the checkbox state. |
| LeadForm.Set | frontend/src/components/LeadCaptureForm.jsx:65 | Setting a field changes that field only. |
| LeadForm.HandleChange | frontend/src/components/LeadCaptureForm.jsx:64-69 | A change sets the field and clears its shown error. It leaves every other field and error as it was, and the error map untouched when the field had none. |
| LeadForm.HandleSubmit | frontend/src/components/LeadCaptureForm.jsx:57-62 | Submit shows exactly the validation errors, and hands the form on exactly when it is valid. |
| LeadForm.SubmittedFormValid | frontend/src/components/LeadCaptureForm.jsx:57-62 | A handed-on form has a non-blank first name, an email of the accepted shape and consent. |
| Text.TrimEmptyIff | frontend/src/components/LeadCaptureForm.jsx:41 | `trim()` gives the empty string exactly for all-whitespace text. |
| Analysis.ClassifyLead | frontend/src/lib/openai.js:132-139 | Red is `HOT`, green is `COLD`, and any other level is `WARM`. |
| Analysis.ClassifyLeadMonotone | frontend/src/lib/openai.js:132-139 | A riskier level never gives a colder lead, and different levels give different temperatures. |
| Analysis.FallbackSaveAgreesOnlyForOrange | frontend/src/components/FormFlow.jsx:160 | The record saved after a failure has the lead temperature the classifier would give exactly when the level is orange. |
| Analysis.TeaserLevel | frontend/src/lib/openai.js:115 | A level without its own teaser uses orange's, and each of the three levels uses its own. |
| Analysis.FallbackResponse | frontend/src/lib/openai.js:105-120 | The fallback classifies the lead from the level and has no emails. |
| Analysis.TemplateShows | frontend/src/lib/openai.js:108-112 | A filled-in template contains the first name, the company and the score, each at its place. |
| Analysis.FallbackTeaserOpening | frontend/src/lib/openai.js:108-116 | The teaser is picked by level: green opens `Bravo <name>! Votre organisation`, red `Attention <name>! Votre organisation`, and any other level `<name>, votre organisation`. |
| Analysis.FallbackTeaserShows | frontend/src/lib/openai.js:105-120 | The fallback teaser names the person and the company and shows the score. |
| Analysis.FallbackUnknownLevelIsOrange | frontend/src/lib/openai.js:115-116 | An unknown level gets exactly the response of an orange level. |
| Analysis.FallbackTeaserTellsLevel | frontend/src/lib/openai.js:108-115 | Payloads whose levels use different teasers never get the same fallback teaser. |
| Analysis.FirstFenceFrom | frontend/src/lib/openai.js:66 | The search finds the first three-backtick fence at or after a position, or reports that none follows. |
| Analysis.ExtractJson | frontend/src/lib/openai.js:64-69 | The parsed text is the fenced body when the pattern matches, and the whole reply when no pair of fences exists. |
| Analysis.ExtractJsonIsMatch | frontend/src/lib/openai.js:64-69 | With no pair of fences the whole reply is parsed; otherwise the trimmed text of the leftmost match, past an optional `json` tag. |
| Analysis.FencedBody | frontend/src/lib/openai.js:66-68 | The pattern matches exactly when an opening fence is followed by a closing fence. |
| Analysis.FencedBodyIsLeftmostMatch | frontend/src/lib/openai.js:66-68 | The extracted text is the trimmed capture of the leftmost, shortest match, after an optional `json` tag. |
| Analysis.FencedBodyHasNoFence | frontend/src/lib/openai.js:66-68 | The extracted text never contains a fence. |
| Analysis.ShapeReply | frontend/src/lib/openai.js:75-80 | The teaser falls back from `teaser` to `summary` to the default teaser, and the lead from the reply's to the classified one. Emails are the reply's or null. |
| Analysis.RawResult | frontend/src/lib/openai.js:87-92 | An unparsable reply gives its first 500 characters as teaser (the whole text when shorter), a classified lead and no emails. |
| Analysis.UpdatesBefore | frontend/src/lib/openai.js:25-58 | A remote step that throws does so after one to four progress updates. |
| Analysis.StatusUpdates | frontend/src/lib/openai.js:18-100 | No updates when unconfigured. A throw gives the progress so far and the offline notice. A reply gives the four progress updates and then completion: five updates, or six when the reply parses to `null`. |
| Analysis.GenerateAnalysis | frontend/src/lib/openai.js:18-100 | Completion is reported exactly when the assistant replied, and then last. When it is not reported, the call resolves to the fallback response. |
| Analysis.AnalysisOf | frontend/src/lib/openai.js:18-100 | Unconfigured or failed calls resolve to the fallback. A reply resolves to the shaped parsed reply, or to the raw-text result when it does not parse to an object. |
| Analysis.UpdatesTellOutcome | frontend/src/lib/openai.js:18-100 | Completion is reported exactly when the assistant replied, the offline notice exactly when a step threw, and nothing exactly when unconfigured. |
| Analysis.ReportedStatuses | frontend/src/lib/openai.js:25-97 | Every update but the offline notice carries the status at its position in the order creating_thread, sending_data, analyzing, generating, complete. |
| Analysis.SavedFor | frontend/src/components/FormFlow.jsx:125-132 | The record saved for a resolved analysis carries its teaser, lead temperature and both emails. |
| Analysis.SavedWithoutReply | frontend/src/lib/openai.js:18-22 | Without a reply the saved record has the fallback teaser, the temperature classified from the payload's level, and no emails. |
| Analysis.SubmitWith | frontend/src/components/FormFlow.jsx:83-142 | When the analysis resolves, it runs on the payload the handler builds, and the submission shows and saves that analysis, emails included. |
| Analysis.SubmitWithoutReply | frontend/src/components/FormFlow.jsx:83-142 | Without a reply, the submission shows its own payload's fallback teaser and saves the classified temperature of its score, with no emails. |
| Analysis.LeadTemperatureOrigin | frontend/src/lib/openai.js:75-116 | The lead temperature is `HOT`, `WARM` or `COLD` unless the assistant's parsed reply supplied a non-empty one. |
| AnalysisScreen.FindIndex | frontend/src/components/AnalysisLoadingScreen.jsx:42 | `findIndex` gives -1 exactly when the id is absent, and otherwise its first position. |
| AnalysisScreen.CurrentStepIndexOf | frontend/src/components/AnalysisLoadingScreen.jsx:5-42 | Each step's id finds that step's position; any other status finds none. |
| AnalysisScreen.VisibleSteps | frontend/src/components/AnalysisLoadingScreen.jsx:44-48 | The shown steps are a prefix of the step list up to the current one, and none for an unknown status. |
| AnalysisScreen.ViewOf | frontend/src/components/AnalysisLoadingScreen.jsx:79-124 | A step is done exactly when it lies before the current one, and current exactly when its id is the status. Only the current step shows a non-empty status message instead of its description. |
| AnalysisScreen.Screen | frontend/src/components/AnalysisLoadingScreen.jsx:79-128 | The screen has one view per shown step, in order. |
| AnalysisScreen.ScreenMarks | frontend/src/components/AnalysisLoadingScreen.jsx:79-124 | On screen, every step but the last is done, the last is current, and only it may show the status message. |
| AnalysisScreen.EstimateUntilComplete | frontend/src/components/AnalysisLoadingScreen.jsx:134-143 | The time estimate shows exactly while the last step is not the current one. |
| AnalysisScreen.UpdatesMoveForward | frontend/src/components/AnalysisLoadingScreen.jsx:42-48 | Under the updates the analysis reports, the screen never moves back, except to the offline notice, which shows no step. |
| ResultsPreview.Percentage | frontend/src/components/ResultsPreview.jsx:21 | `Math.round(normalized * 10)` of a score with one decimal is exactly its number of tenths. |
| ResultsPreview.MessageBand | frontend/src/components/ResultsPreview.jsx:24-30 | Congratulation iff at least 70%, caution iff 31..69%, alarm iff below 31%. |
| ResultsPreview.NameSuffix | frontend/src/components/ResultsPreview.jsx:22 | The name part is empty exactly without a first name, and otherwise a space and the name. |
| ResultsPreview.ScoreMessageShows | frontend/src/components/ResultsPreview.jsx:20-31 | Every message shows the percentage followed by `%`. The congratulation and alarm messages open with `Bravo` or `Attention`, the name and `!`. The caution message does not depend on the name. |
| ResultsPreview.MessageTellsBand | frontend/src/components/ResultsPreview.jsx:20-31 | The band can be read back from the message's opening, so different bands never share a message. |
| ResultsPreview.ConfigFor | frontend/src/components/ResultsPreview.jsx:33-61 | The risk card is always one of the three configured cards. |
| ResultsPreview.ConfigMatchesLevel | frontend/src/components/ResultsPreview.jsx:33-61 | Green, orange and red get the success, warning and danger cards. Any other level gets the orange card, the same fallback the teaser uses. |
| ResultsPreview.ConfigDistinguishesLevels | frontend/src/components/ResultsPreview.jsx:33-58 | Two levels showing the same card are the same level. |
| ResultsPreview.ShownTeaser | frontend/src/components/ResultsPreview.jsx:134 | The teaser card is never empty; a non-empty teaser is shown as is. |
| ResultsPreview.GaugeInput | frontend/src/components/ResultsPreview.jsx:93 | The gauge receives the score in percent. |
| ResultsPreview.GaugeAgreesWithMessage | frontend/src/components/ResultsPreview.jsx:21-93 | The gauge shows the same percentage as the message, and its colour matches the message band. |
| ResultsPreview.LevelAndMessageBands | frontend/src/components/ResultsPreview.jsx:24-30 | Over raw sums 0..45, the green level coincides exactly with the congratulation message, and the alarm message implies a red level. |
| ResultsPreview.RedLevelWithCautionMessage | frontend/src/components/ResultsPreview.jsx:24-61 | A raw sum of 28 is a red level, yet it shows 38% with the caution message and an orange gauge. |
| ScoreGauge.JsRound | frontend/src/components/ScoreGauge.jsx:98 | `Math.round` gives the integer within half a unit, halves rounded up. |
| ScoreGauge.JsRoundMonotone | frontend/src/components/ScoreGauge.jsx:98 | Rounding preserves order. |
| ScoreGauge.Clamp | frontend/src/components/ScoreGauge.jsx:7 | The clamped value lies in 0..100: the input itself when in range, 0 below and 100 above. |
| ScoreGauge.ClampIdempotent | frontend/src/components/ScoreGauge.jsx:7 | Clamping twice is clamping once. |
| ScoreGauge.ClampMonotone | frontend/src/components/ScoreGauge.jsx:7 | Clamping preserves order. |
| ScoreGauge.ScoreColour | frontend/src/components/ScoreGauge.jsx:10-14 | Green iff at least 70, orange iff 31 up to below 70, red iff below 31. |
| ScoreGauge.HexInjective | frontend/src/components/ScoreGauge.jsx:11-13 | The three colours have different CSS values. |
| ScoreGauge.ColourMonotone | frontend/src/components/ScoreGauge.jsx:7-16 | A higher score never gets a worse colour. |
| ScoreGauge.ClampKeepsColour | frontend/src/components/ScoreGauge.jsx:7-16 | The colour of the clamped value is the colour of the raw input. |
| ScoreGauge.DisplayedValue | frontend/src/components/ScoreGauge.jsx:98 | The number shown lies in 0..100 and within half a unit of the clamped score. |
| ScoreGauge.IntegerInputShown | frontend/src/components/ScoreGauge.jsx:7-98 | For an integer score the number shown is the score clamped to 0..100, drawn in that number's colour. |
| ScoreGauge.RoundedNumberCanCrossBand | frontend/src/components/ScoreGauge.jsx:7-98 | 69.5 is shown as 70 but drawn orange, while 70 itself is green. |
| DebugLogger.NewRequest | frontend/src/lib/debugLogger.js:25-29 | The stored request takes endpoint and method with `''` as default. An object payload is kept and a falsy one stored as null. It has no headers. |
| DebugLogger.CreateLog | frontend/src/lib/debugLogger.js:17-34 | A new log is pending, without duration or response, with the given id, time, type and operation. A truthy `isHighlighted` or `highlightReason` is kept as given; a falsy one becomes `false` or null. |
| DebugLogger.RedactHeaders | frontend/src/lib/debugLogger.js:51-57 | Header names are kept and only a truthy `Authorization` value changes, to `[REDACTED]`. |
| DebugLogger.SanitizeRequest | frontend/src/lib/debugLogger.js:39-60 | Sanitizing keeps endpoint and method and drops exactly `apiKey` and `token` from the payload. Other payload entries are unchanged, and headers are redacted. |
| DebugLogger.SanitizeLog | frontend/src/lib/debugLogger.js:80-85 | Sanitizing a log changes its request and nothing else. |
| DebugLogger.SanitizedHoldsNoSecret | frontend/src/lib/debugLogger.js:39-60 | A sanitized request holds no `apiKey` or `token`, and no readable truthy authorization header. |
| DebugLogger.SanitizeLogIdempotent | frontend/src/lib/debugLogger.js:39-85 | Sanitizing twice is sanitizing once. |
| DebugLogger.CreateLogUpdate | frontend/src/lib/debugLogger.js:65-75 | The update's status defaults to `success`. Each response field keeps its value when truthy and is null otherwise. |
| DebugLogger.ApplyUpdate | frontend/src/context/DebugContext.jsx:68 | Merging an update sets status, duration and response and keeps every other field. |
| DebugLogger.UpdateCommutesWithSanitize | frontend/src/context/DebugContext.jsx:59-68 | Updating then sanitizing equals sanitizing then updating. |
| Seqs.FilterMultiset | frontend/src/context/DebugContext.jsx:24-26 | `filter` keeps every copy of an element that passes and none of one that fails. |
| DebugStore.LoadLogs | frontend/src/context/DebugContext.jsx:16-33 | Loading keeps, in order, exactly the stored logs younger than seven days, every copy of each and no copy of an older one. |
| DebugStore.SavedLogs | frontend/src/context/DebugContext.jsx:43 | The first hundred logs are written, or all of them when there are fewer. |
| DebugStore.SavedLogsReload | frontend/src/context/DebugContext.jsx:16-50 | A saved list of at most a hundred recent logs loads back unchanged. |
| DebugStore.AddLog | frontend/src/context/DebugContext.jsx:56-62 | With debug mode off nothing changes. With it on, the sanitized log goes first, followed by a prefix of the old list: one more log than before, or exactly 100. The log's id is returned either way. |
| DebugStore.UpdateLog | frontend/src/context/DebugContext.jsx:64-70 | With debug mode on, exactly the logs with the id take the update, in place. |
| DebugStore.UpdateLogKeepsIdentity | frontend/src/context/DebugContext.jsx:64-70 | An update never changes a log's id, time, type or request. |
| DebugStore.CapPreserved | frontend/src/context/DebugContext.jsx:7-70 | Adding and updating never take a list of at most 100 logs above 100. |
| DebugStore.ClearLogs | frontend/src/context/DebugContext.jsx:72-79 | Clearing empties the list and keeps mode and filters. |
| DebugStore.ToggleDebugMode | frontend/src/context/DebugContext.jsx:52-54 | Toggling flips debug mode and keeps logs and filters. |
| DebugStore.ToggleFilter | frontend/src/context/DebugContext.jsx:114-134 | `all` resets to `{all}`. Any other filter is flipped, `all` removed, the rest kept, and an empty set falls back to `{all}`. The set is never empty and holds `all` only alone. Toggling another filter gives `{all}` exactly when that filter was the only one selected. |
| DebugStore.ToggleTwice | frontend/src/context/DebugContext.jsx:114-134 | On a well-shaped filter set, toggling a filter other than `all` twice restores the set. |
| DebugStore.FilteredLogs | frontend/src/context/DebugContext.jsx:136-147 | Under `all` every log shows. Otherwise, in order, exactly the logs that are errors under the `errors` filter or whose type is active, each as many times as it is held. |
| DebugStore.FilterLogs | frontend/src/context/DebugContext.jsx:81-91 | `all` keeps every log, `errors` exactly the failed ones, and any other filter exactly the logs of that type, in order and with every copy kept. |
| DebugStore.SingleFilterAgrees | frontend/src/context/DebugContext.jsx:81-147 | With one active filter, the two filterings agree as long as no log's type is literally `errors`. |
| CookieConsent.LoadConsent | frontend/src/context/CookieConsentContext.jsx:15-31 | A stored record of the current version is merged over the defaults, its own fields winning. Anything else gives the defaults. |
| CookieConsent.LoadedVersionIsCurrent | frontend/src/context/CookieConsentContext.jsx:15-31 | A loaded record always has the current version. |
| CookieConsent.SetConsent | frontend/src/context/CookieConsentContext.jsx:40-55 | A choice overrides the current record, which overrides the defaults. The version and the time are set last. |
| CookieConsent.SetConsentRecorded | frontend/src/context/CookieConsentContext.jsx:15-55 | After a choice the banner is hidden, and the saved record loads back unchanged. |
| CookieConsent.AcceptAll | frontend/src/context/CookieConsentContext.jsx:57-59 | Accepting all grants statistics and hides the banner. |
| CookieConsent.AcceptEssentialOnly | frontend/src/context/CookieConsentContext.jsx:61-63 | Essential-only leaves statistics off and hides the banner. |
| CookieConsent.AcceptKeepsOtherFields | frontend/src/context/CookieConsentContext.jsx:40-63 | Either button keeps every field other than statistics, version and time. |
| CookieConsent.DefaultsAskForConsent | frontend/src/context/CookieConsentContext.jsx:6-38 | Without a stored record of the current version the banner shows and statistics are off. |
| CookieConsent.StoredTimestampDecidesBanner | frontend/src/context/CookieConsentContext.jsx:15-38 | A current stored record shows the banner exactly when its timestamp is null or missing. |

## Left out

- Rendering, animation, icons, React effect timing and the one-second delays are not modelled; only the state each handler computes is.
- The assistant client, thread creation, polling and the network are parameters: `Analysis.Remote` says whether the client is configured, after which step a call throws, or which text came back.
- `JSON.parse` is a parameter (`Analysis.Parsed`). Reply fields that are not strings are read as the empty string.
- `onStatusUpdate` throwing is not modelled. Such a throw would make `generateAnalysis` report the offline notice from a later point.
- Saving the submission to the database is an external call and is not part of this model. Its failures are caught and change nothing the user sees.
- FormFlow.Submit: the analysis record is an input, and `None` stands for a throw. `generateAnalysis` catches its own errors, so only a foreign failure reaches that branch. `Analysis.SubmitWith` ties the resolved case to the analysis of the built payload.
- DebugLogger.NewRequest: a truthy payload that is not an object (a string or a number) is stored as absent, while the code stores it as given, because the stored request holds only an object.
- Local storage, `Date.now()` and `Math.random()` are parameters. `generateLogId` and `exportLogs` (a file download) are left out.
- IEEE-754 floating point is replaced by exact rationals, and `normalized` is kept in tenths. With a maximum of 45 the exact score never lies on a half-tenth, so rounding sees no tie.
- JavaScript object-lookup quirks (`mapping['constructor']` being truthy) are left out; levels outside the three names fall back as the code intends.
- `undefined` and `null` are not told apart.
- Strings are sequences of Unicode scalar values, not of UTF-16 code units as in JavaScript. Lengths and positions count characters.
- Analysis.RawResult: the teaser keeps the first 500 characters, while `substring(0, 500)` keeps 500 UTF-16 code units. For a reply holding characters outside the Basic Multilingual Plane, such as emoji, the model keeps more text and never splits a surrogate pair.
- The overall percentage bar of the progress bar and its section icons are left out; only the section indicators are modelled.
- Section weights are data only; the scoring code never reads them.
- Scoring.ScoreWith: the normalized score's range is stated only when option scores lie in 0..3, which the shipped catalogue guarantees.
- DebugStore.ToggleTwice: toggling `all` twice gives `{all}` rather than the original set, as the code does.
- DebugStore.SingleFilterAgrees: stated only when no log's type is literally `errors`, where the two filterings of the code really differ.

=== FILE: analysis.dfy ===
/** The analysis request around the assistant: lead classification, the
    fallback response, extraction of a fenced JSON block from the reply, the
    shaping of the result and the status updates reported on the way.
    The remote calls and `JSON.parse` are parameters: the remote outcome is a
    datatype and the parser an arbitrary function. */
module Analysis {
  import opened Wrappers
  import opened Text
  import opened Seqs
  import opened Scoring
  import opened FormFlow
  import LeadForm

  // ---------------------------------------------------------------------
  // Lead classification

  /** `classifyLead(riskLevel)`: red is hot, green is cold, anything else warm. */
  function ClassifyLead(level: string): (t: string)
    ensures t in {"HOT", "WARM", "COLD"}
    ensures t == "HOT" <==> level == "red"
    ensures t == "COLD" <==> level == "green"
  {
    if level == "red" then "HOT"
    else if level == "orange" then "WARM"
    else if level == "green" then "COLD"
    else "WARM"
  }

  function Severity(level: RiskLevel): nat {
    match level
    case Green => 0
    case Orange => 1
    case Red => 2
  }

  function Heat(temperature: string): nat {
    if temperature == "HOT" then 2 else if temperature == "WARM" then 1 else 0
  }

  /** A riskier level never yields a colder lead, and the three levels give
      three different temperatures. */
  lemma ClassifyLeadMonotone(a: RiskLevel, b: RiskLevel)
    ensures Severity(a) <= Severity(b) ==> Heat(ClassifyLead(LevelName(a))) <= Heat(ClassifyLead(LevelName(b)))
    ensures a != b ==> ClassifyLead(LevelName(a)) != ClassifyLead(LevelName(b))
  {
  }

  /** The record saved by the submit handler when the analysis throws says
      `WARM`; classification agrees with it only for an orange score. */
  lemma FallbackSaveAgreesOnlyForOrange(score: ScoreResult)
    ensures FallbackSave(score).leadTemperature == ClassifyLead(LevelName(score.riskLevel)) <==> score.riskLevel == Orange
  {
  }

  // ---------------------------------------------------------------------
  // Fallback response

  /** What `generateAnalysis` resolves to; `None` is `null`. */
  datatype AnalysisResult = AnalysisResult(teaser: string, leadTemperature: string,
                                           emailUser: Option<string>, emailSales: Option<string>)

  /** The level whose teaser is used: a level without a teaser uses orange's. */
  function TeaserLevel(level: string): (l: string)
    ensures l in {"green", "orange", "red"}
    ensures level in {"green", "orange", "red"} ==> l == level
  {
    if level == "green" || level == "red" then level else "orange"
  }

  // Each teaser reads: opening, first name, joint, company, score lead,
  // score, "/10", then a body and a closing sentence fragment.

  function Opening(level: string): string {
    if level == "green" then "Bravo " else if level == "red" then "Attention " else ""
  }

  function Joint(level: string): string {
    if level == "orange" then ", votre organisation " else "! Votre organisation "
  }

  function ScoreLead(level: string): string {
    if level == "red" then " présente un score de " else " obtient un score de "
  }

  const GreenBody := ", ce qui indique une bonne maîtrise des exigences nLPD. Quelques ajustements mineurs pourraient renforcer encore votre conformité. Consultez votre email pour un rapport détaillé avec des recommandations "
  const OrangeBody := ". Des lacunes significatives ont été identifiées dans votre conformité nLPD. Sans action corrective, vous pourriez être exposé en cas d'audit du PFPDT ou d'incident de sécurité. Consultez votre email pour découvrir vos 3 priorités "
  const RedBody := ", révélant des failles critiques dans votre conformité nLPD. Un audit du PFPDT pourrait entraîner des sanctions allant jusqu'à CHF 250'000. Une mise en conformité urgente est recommandée. Consultez votre email pour un plan d'action "

  function Body(level: string): string {
    if level == "green" then GreenBody else if level == "red" then RedBody else OrangeBody
  }

  function Closing(level: string): string {
    if level == "green" then "personnalisées." else if level == "red" then "prioritaire." else "d'action."
  }

  /** The teaser template of a level, filled in. */
  function Teaser(level: string, firstName: string, company: string, score: string): string {
    Opening(level) + firstName + Joint(level) + company + ScoreLead(level) + (score + "/10") + (Body(level) + Closing(level))
  }

  /** `generateFallbackResponse(payload)`. */
  function FallbackResponse(p: Payload): (r: AnalysisResult)
    ensures r.leadTemperature == ClassifyLead(p.score.level)
    ensures r.emailUser.None? && r.emailSales.None?
  {
    AnalysisResult(Teaser(TeaserLevel(p.score.level), p.user.firstName, p.user.company, NumberText(p.score.normalizedTenths)),
                   ClassifyLead(p.score.level), None, None)
  }

  /** A filled-in template shows the name, the company and the score. */
  lemma TemplateShows(opening: string, firstName: string, joint: string, company: string,
                      lead: string, score: string, tail: string)
    ensures var t := opening + firstName + joint + company + lead + score + tail;
            && Contains(t, score) && Contains(t, firstName) && Contains(t, company)
  {
    OccursBetween(opening + firstName + joint + company + lead, score, tail);
    OccursBetween(opening, firstName, joint + company + lead + score + tail);
    assert opening + firstName + joint + company + lead + score + tail
        == opening + firstName + (joint + company + lead + score + tail);
    OccursBetween(opening + firstName + joint, company, lead + score + tail);
    assert opening + firstName + joint + company + lead + score + tail
        == opening + firstName + joint + company + (lead + score + tail);
  }

  /** The fallback teaser names the person and the company and shows the
      score out of ten. */
  lemma FallbackTeaserShows(p: Payload)
    ensures var t := FallbackResponse(p).teaser;
            && Contains(t, NumberText(p.score.normalizedTenths) + "/10")
            && Contains(t, p.user.firstName)
            && Contains(t, p.user.company)
  {
    var l := TeaserLevel(p.score.level);
    TemplateShows(Opening(l), p.user.firstName, Joint(l), p.user.company, ScoreLead(l),
                  NumberText(p.score.normalizedTenths) + "/10", Body(l) + Closing(l));
  }

  /** A filled-in template starts with its opening, the first name and the joint. */
  lemma TemplateHead(opening: string, firstName: string, joint: string, company: string,
                     lead: string, score: string, tail: string)
    ensures opening + firstName + joint <= opening + firstName + joint + company + lead + score + tail
  {
  }

  /** The fallback teaser is picked by the payload's level: green congratulates
      by name, red warns by name, and any other level opens with the name. */
  lemma FallbackTeaserOpening(p: Payload)
    ensures var t := FallbackResponse(p).teaser;
            && (p.score.level == "green" ==> "Bravo " + p.user.firstName + "! Votre organisation " <= t)
            && (p.score.level == "red" ==> "Attention " + p.user.firstName + "! Votre organisation " <= t)
            && (p.score.level != "green" && p.score.level != "red" ==> p.user.firstName + ", votre organisation " <= t)
  {
    var l := TeaserLevel(p.score.level);
    TemplateHead(Opening(l), p.user.firstName, Joint(l), p.user.company, ScoreLead(l),
                 NumberText(p.score.normalizedTenths) + "/10", Body(l) + Closing(l));
    if l == "orange" {
      assert Opening(l) + p.user.firstName == p.user.firstName;
    }
  }

  /** A level without a teaser of its own gets orange's teaser and a warm lead. */
  lemma FallbackUnknownLevelIsOrange(p: Payload)
    requires p.score.level !in {"green", "orange", "red"}
    ensures FallbackResponse(p) == FallbackResponse(p.(score := p.score.(level := "orange")))
  {
  }

  /** Strings whose endings differ in the second-to-last character differ. */
  lemma EndingsDiffer(x: string, m: string, a: string, y: string, n: string, b: string)
    requires |a| >= 2 && |b| >= 2 && a[|a| - 2] != b[|b| - 2]
    ensures x + (m + a) != y + (n + b)
  {
    var s, t := x + (m + a), y + (n + b);
    assert s[|s| - 2] == a[|a| - 2];
    assert t[|t| - 2] == b[|b| - 2];
  }

  /** Two payloads with different levels never get the same fallback teaser,
      whatever the names and scores: the closing words differ. */
  lemma FallbackTeaserTellsLevel(p: Payload, q: Payload)
    requires TeaserLevel(p.score.level) != TeaserLevel(q.score.level)
    ensures FallbackResponse(p).teaser != FallbackResponse(q).teaser
  {
    var lp, lq := TeaserLevel(p.score.level), TeaserLevel(q.score.level);
    var cp, cq := Closing(lp), Closing(lq);
    assert cp[|cp| - 2] != cq[|cq| - 2];
    EndingsDiffer(Opening(lp) + p.user.firstName + Joint(lp) + p.user.company + ScoreLead(lp)
                    + (NumberText(p.score.normalizedTenths) + "/10"), Body(lp), cp,
                  Opening(lq) + q.user.firstName + Joint(lq) + q.user.company + ScoreLead(lq)
                    + (NumberText(q.score.normalizedTenths) + "/10"), Body(lq), cq);
  }

  // ---------------------------------------------------------------------
  // Code-fence extraction

  /** A fence of three backticks starts at `i`. */
  predicate FenceAt(s: string, i: int) {
    0 <= i && i + 3 <= |s| && s[i] == '`' && s[i + 1] == '`' && s[i + 2] == '`'
  }

  /** The first fence at or after `from`. */
  function FirstFenceFrom(s: string, from: nat): (r: Option<nat>)
    ensures r.Some? ==> from <= r.value && FenceAt(s, r.value)
    ensures r.Some? ==> forall j :: from <= j < r.value ==> !FenceAt(s, j)
    ensures r.None? ==> forall j :: from <= j ==> !FenceAt(s, j)
    decreases |s| - from
  {
    if from + 3 > |s| then None
    else if FenceAt(s, from) then Some(from)
    else FirstFenceFrom(s, from + 1)
  }

  /** Where the captured text starts after the opening fence at `p`: past an
      optional `json` tag. */
  function BodyStart(s: string, p: nat): (start: nat)
    requires p + 3 <= |s|
    ensures start <= |s|
    ensures forall j :: p + 3 <= j < start ==> s[j] != '`'
  {
    if p + 7 <= |s| && s[p + 3..p + 7] == "json" then
      assert s[p + 3] == 'j' && s[p + 4] == 's' && s[p + 5] == 'o' && s[p + 6] == 'n';
      p + 7
    else p + 3
  }

  /** An opening fence at `p` with a closing fence at `e` after it. */
  predicate FencePair(s: string, p: int, e: int) {
    FenceAt(s, p) && FenceAt(s, e) && p + 3 <= e
  }

  /** The trimmed capture group of the fence pattern, if the pattern matches. */
  function FencedBody(s: string): (r: Option<string>)
    ensures r.Some? <==> exists p, e :: FencePair(s, p, e)
  {
    match FirstFenceFrom(s, 0)
    case None => None
    case Some(p) =>
      var start := BodyStart(s, p);
      match FirstFenceFrom(s, start)
      case None =>
        assert forall p', e' :: FencePair(s, p', e') ==> e' >= start;
        None
      case Some(e) =>
        assert FencePair(s, p, e);
        Some(Trim(s[start..e]))
  }

  /** The text handed to `JSON.parse`: the fenced body, else the whole reply. */
  function ExtractJson(s: string): (r: string)
    ensures FencedBody(s).Some? ==> r == FencedBody(s).value
    ensures (forall p, e :: !FencePair(s, p, e)) ==> r == s
  {
    FencedBody(s).GetOr(s)
  }

  /** The match the pattern finds: the leftmost opening fence that has a
      closing fence after it, closed by the nearest such fence. */
  ghost predicate LeftmostPair(s: string, p: int, e: int) {
    && FencePair(s, p, e)
    && (forall p', e' :: FencePair(s, p', e') ==> p <= p')
    && (forall e' :: p + 3 <= e' < e ==> !FenceAt(s, e'))
  }

  /** The extracted body is the trimmed text between the leftmost match's
      fences, past the optional `json` tag. */
  lemma FencedBodyIsLeftmostMatch(s: string, p: nat, e: nat)
    requires LeftmostPair(s, p, e)
    ensures FencedBody(s) == Some(Trim(s[BodyStart(s, p)..e]))
  {
    var p0 := FirstFenceFrom(s, 0);
    assert p0.Some? && p0.value <= p;
    if p0.value < p {
      assert FencePair(s, p0.value, e);
    }
    var start := BodyStart(s, p);
    assert s[e] == '`';
    var e0 := FirstFenceFrom(s, start);
    assert e0.Some? && e0.value <= e;
  }

  /** Without a pair of fences the whole reply is parsed; otherwise the
      trimmed text of the leftmost match is. */
  lemma ExtractJsonIsMatch(s: string, p: nat, e: nat)
    ensures (forall p', e' :: !FencePair(s, p', e')) ==> ExtractJson(s) == s
    ensures LeftmostPair(s, p, e) ==> ExtractJson(s) == Trim(s[BodyStart(s, p)..e])
  {
    if LeftmostPair(s, p, e) {
      FencedBodyIsLeftmostMatch(s, p, e);
    }
  }

  /** The extracted body never contains a fence. */
  lemma FencedBodyHasNoFence(s: string)
    requires FencedBody(s).Some?
    ensures forall k :: !FenceAt(FencedBody(s).value, k)
  {
    var p := FirstFenceFrom(s, 0).value;
    var start := BodyStart(s, p);
    var e := FirstFenceFrom(s, start).value;
    var piece := s[start..e];
    var lo, hi := TrimSlice(piece);
    var b := FencedBody(s).value;
    assert b == piece[lo..hi];
    forall k ensures !FenceAt(b, k) {
      if 0 <= k && k + 3 <= |b| {
        assert b[k] == s[start + lo + k] && b[k + 1] == s[start + lo + k + 1] && b[k + 2] == s[start + lo + k + 2];
        assert !FenceAt(s, start + lo + k);
      }
    }
  }

  // ---------------------------------------------------------------------
  // Result shaping

  /** A parsed reply's fields, `""` standing for a falsy or missing field.
      A JSON number, string or array parses to a value with no such fields. */
  datatype Reply = Reply(teaser: string, summary: string, leadTemperature: string,
                         emailUser: string, emailSales: string)

  /** What `JSON.parse` gives for the extracted text. */
  datatype Parsed = Unparseable | ParsedNull | ParsedValue(reply: Reply)

  /** The result built from a parsed reply, each field falling back in turn. */
  function ShapeReply(r: Reply, p: Payload): (a: AnalysisResult)
    ensures r.teaser != "" ==> a.teaser == r.teaser
    ensures r.teaser == "" && r.summary != "" ==> a.teaser == r.summary
    ensures r.teaser == "" && r.summary == "" ==> a.teaser == FallbackResponse(p).teaser
    ensures a.leadTemperature == if r.leadTemperature != "" then r.leadTemperature else ClassifyLead(p.score.level)
    ensures a.emailUser == OrNull(r.emailUser) && a.emailSales == OrNull(r.emailSales)
  {
    var teaser := if r.teaser != "" then r.teaser else if r.summary != "" then r.summary else FallbackResponse(p).teaser;
    var lead := if r.leadTemperature != "" then r.leadTemperature else ClassifyLead(p.score.level);
    AnalysisResult(teaser, lead, OrNull(r.emailUser), OrNull(r.emailSales))
  }

  const TeaserLimit := 500

  /** The result when the reply cannot be used as JSON: its first 500
      characters as teaser. */
  function RawResult(text: string, p: Payload): (a: AnalysisResult)
    ensures |a.teaser| <= TeaserLimit
    ensures |a.teaser| == if |text| < TeaserLimit then |text| else TeaserLimit
    ensures a.teaser <= text
    ensures |text| <= TeaserLimit ==> a.teaser == text
    ensures a.leadTemperature == ClassifyLead(p.score.level)
    ensures a.emailUser.None? && a.emailSales.None?
  {
    var t := Take(text, TeaserLimit);
    assert t == text[..|t|];
    AnalysisResult(t, ClassifyLead(p.score.level), None, None)
  }

  // ---------------------------------------------------------------------
  // The request and its status updates

  /** `onStatusUpdate(status, message)`. */
  datatype StatusUpdate = StatusUpdate(status: string, message: string)

  const CreatingThread := StatusUpdate("creating_thread", "Création du fil de discussion...")
  const SendingData := StatusUpdate("sending_data", "Envoi des données au conseiller IA...")
  const Analyzing := StatusUpdate("analyzing", "Analyse de vos réponses en cours...")
  const Generating := StatusUpdate("generating", "Génération des recommandations...")
  const Complete := StatusUpdate("complete", "Analyse terminée!")
  const Offline := StatusUpdate("error", "Utilisation du mode hors-ligne...")

  /** The four updates before the reply is read. */
  const Progress := [CreatingThread, SendingData, Analyzing, Generating]

  /** The step after whose update a remote call throws: creating the thread,
      sending the message, running the assistant (or a run that does not
      complete), reading the reply (or a reply without content). */
  datatype Stage = ThreadStage | MessageStage | RunStage | ReplyStage

  function UpdatesBefore(stage: Stage): (n: nat)
    ensures 1 <= n <= |Progress|
  {
    match stage
    case ThreadStage => 1
    case MessageStage => 2
    case RunStage => 3
    case ReplyStage => 4
  }

  /** How the remote side behaves: no client or assistant configured, a
      throw after some step, or the text of the assistant's reply. */
  datatype Remote = NotConfigured | FailedAfter(stage: Stage) | Replied(text: string)

  datatype Outcome = Outcome(updates: seq<StatusUpdate>, result: AnalysisResult)

  /** The status updates `generateAnalysis` reports. A parsed `null`
      reports completion, then throws reading `.teaser` and reports it again. */
  function StatusUpdates(remote: Remote, parse: string -> Parsed): (u: seq<StatusUpdate>)
    ensures remote.NotConfigured? ==> u == []
    ensures remote.FailedAfter? ==> u == Progress[..UpdatesBefore(remote.stage)] + [Offline]
    ensures remote.Replied? ==> |u| >= 5 && u[..4] == Progress && forall i :: 4 <= i < |u| ==> u[i] == Complete
    ensures remote.Replied? ==> |u| == if parse(ExtractJson(remote.text)).ParsedNull? then 6 else 5
  {
    match remote
    case NotConfigured => []
    case FailedAfter(stage) => Progress[..UpdatesBefore(stage)] + [Offline]
    case Replied(text) =>
      if parse(ExtractJson(text)).ParsedNull? then Progress + [Complete, Complete] else Progress + [Complete]
  }

  /** The value `generateAnalysis` resolves to. */
  function AnalysisOf(remote: Remote, parse: string -> Parsed, p: Payload): (a: AnalysisResult)
    ensures !remote.Replied? ==> a == FallbackResponse(p)
    ensures remote.Replied? && !parse(ExtractJson(remote.text)).ParsedValue? ==> a == RawResult(remote.text, p)
    ensures remote.Replied? && parse(ExtractJson(remote.text)).ParsedValue? ==>
              a == ShapeReply(parse(ExtractJson(remote.text)).reply, p)
  {
    match remote
    case NotConfigured => FallbackResponse(p)
    case FailedAfter(_) => FallbackResponse(p)
    case Replied(text) =>
      match parse(ExtractJson(text))
      case ParsedValue(reply) => ShapeReply(reply, p)
      case _ => RawResult(text, p)
  }

  /** `generateAnalysis(payload, onStatusUpdate)`: the updates reported and
      the value it resolves to. */
  function GenerateAnalysis(remote: Remote, parse: string -> Parsed, p: Payload): (o: Outcome)
    ensures Complete in o.updates <==> remote.Replied?
    ensures Complete in o.updates ==> o.updates[|o.updates| - 1] == Complete
    ensures Complete !in o.updates ==> o.result == FallbackResponse(p)
  {
    UpdatesTellOutcome(remote, parse);
    Outcome(StatusUpdates(remote, parse), AnalysisOf(remote, parse, p))
  }

  /** Completion is reported exactly when the assistant replied, the offline
      notice exactly when a remote step threw, and nothing at all when the
      client is not configured. */
  lemma UpdatesTellOutcome(remote: Remote, parse: string -> Parsed)
    ensures var u := StatusUpdates(remote, parse);
            && (Complete in u <==> remote.Replied?)
            && (Offline in u <==> remote.FailedAfter?)
            && (u == [] <==> remote.NotConfigured?)
  {
    var u := StatusUpdates(remote, parse);
    if remote.Replied? {
      assert u[4] == Complete;
      assert Offline !in Progress;
    } else if remote.FailedAfter? {
      var n := UpdatesBefore(remote.stage);
      assert u[n] == Offline;
      assert Complete !in Progress;
    }
  }

  /** The order in which the statuses are first reported on success. */
  const StatusOrder: seq<string> := ["creating_thread", "sending_data", "analyzing", "generating", "complete"]

  /** The `k`-th update, unless it is the offline notice, has the status at
      position `min(k, 4)` of that order. */
  lemma ReportedStatuses(remote: Remote, parse: string -> Parsed)
    ensures var u := StatusUpdates(remote, parse);
            forall k :: 0 <= k < |u| && u[k].status != "error" ==> u[k].status == StatusOrder[if k < 4 then k else 4]
  {
    var u := StatusUpdates(remote, parse);
    assert forall k :: 0 <= k < 4 ==> Progress[k].status == StatusOrder[k];
    if remote.FailedAfter? {
      var n := UpdatesBefore(remote.stage);
      assert forall k :: 0 <= k < n ==> u[k] == Progress[k];
      assert u[n] == Offline;
    }
  }

  /** The lead temperature is one of the three classes unless the assistant
      supplied its own. */
  lemma LeadTemperatureOrigin(remote: Remote, parse: string -> Parsed, p: Payload)
    ensures var a := AnalysisOf(remote, parse, p);
            || a.leadTemperature in {"HOT", "WARM", "COLD"}
            || (remote.Replied? && parse(ExtractJson(remote.text)).ParsedValue?
                && a.leadTemperature == parse(ExtractJson(remote.text)).reply.leadTemperature != "")
  {
  }

  // ---------------------------------------------------------------------
  // Submitting with the analysis

  /** The record `saveSubmission` receives when `generateAnalysis`
      resolves on payload `p`: the shown teaser, the lead temperature and
      both emails of that analysis. */
  function SavedFor(remote: Remote, parse: string -> Parsed, p: Payload): (r: SavedAnalysis)
    ensures var a := AnalysisOf(remote, parse, p);
            && r.teaser == a.teaser && r.leadTemperature == a.leadTemperature
            && r.emailUser == a.emailUser && r.emailSales == a.emailSales
  {
    var a := AnalysisOf(remote, parse, p);
    SavedAnalysis(a.teaser, a.leadTemperature, a.emailUser, a.emailSales)
  }

  /** Without a reply the saved record is the fallback's: its teaser, the
      temperature classified from the payload's level, and no emails. */
  lemma SavedWithoutReply(remote: Remote, parse: string -> Parsed, p: Payload)
    requires !remote.Replied?
    ensures var r := SavedFor(remote, parse, p);
            && r.teaser == FallbackResponse(p).teaser
            && r.leadTemperature == ClassifyLead(p.score.level)
            && r.emailUser.None? && r.emailSales.None?
  {
  }

  /** `handleSubmit` when `generateAnalysis` resolves: the analysis runs on
      the payload the handler builds, and its result is shown and saved,
      emails included. */
  function SubmitWith(f: Flow, form: LeadForm.FormData, remote: Remote, parse: string -> Parsed): (s: Submission)
    ensures s.flow.step == ThankYouStep && s.score == Score(f.answers)
    ensures s.payload == BuildPayload(form, f.answers)
    ensures s.saved == SavedFor(remote, parse, s.payload) && s.teaser == s.saved.teaser
  {
    Submit(f, form, Some(SavedFor(remote, parse, BuildPayload(form, f.answers))))
  }

  /** Without a reply from the assistant the submission shows the fallback
      teaser of its own payload and saves the classified temperature of its
      score, unlike the fixed `WARM` saved when the analysis throws. */
  lemma SubmitWithoutReply(f: Flow, form: LeadForm.FormData, remote: Remote, parse: string -> Parsed)
    requires !remote.Replied?
    ensures var s := SubmitWith(f, form, remote, parse);
            && s.teaser == FallbackResponse(s.payload).teaser
            && s.saved.leadTemperature == ClassifyLead(LevelName(s.score.riskLevel))
            && s.saved.emailUser.None? && s.saved.emailSales.None?
  {
  }
}

=== FILE: analysisscreen.dfy ===
/** The loading screen shown while the analysis runs: the five steps, which
    of them are shown, which one is current and which are done. */
module AnalysisScreen {
  import Analysis

  datatype StepInfo = StepInfo(id: string, title: string, description: string)

  /** `steps`, in display order. */
  const Steps: seq<StepInfo> := [
    StepInfo("creating_thread", "Connexion au conseiller IA", "Établissement de la connexion sécurisée..."),
    StepInfo("sending_data", "Transmission des données", "Envoi de vos réponses pour analyse..."),
    StepInfo("analyzing", "Analyse en cours", "Évaluation de votre conformité nLPD..."),
    StepInfo("generating", "Génération des recommandations", "Préparation de votre rapport personnalisé..."),
    StepInfo("complete", "Analyse terminée", "Vos résultats sont prêts!")
  ]

  /** The step ids alone. */
  const StepIds: seq<string> := ["creating_thread", "sending_data", "analyzing", "generating", "complete"]

  lemma StepIdsOfSteps()
    ensures |StepIds| == |Steps| && forall i :: 0 <= i < |Steps| ==> Steps[i].id == StepIds[i]
  {
  }

  /** `ids.findIndex(id => id === x)`: the first position of `x`, or -1. */
  function FindIndex(ids: seq<string>, x: string): (r: int)
    ensures -1 <= r < |ids|
    ensures r == -1 <==> x !in ids
    ensures r >= 0 ==> ids[r] == x && forall j :: 0 <= j < r ==> ids[j] != x
  {
    if ids == [] then -1
    else if ids[0] == x then 0
    else
      var k := FindIndex(ids[1..], x);
      assert x in ids[1..] ==> x in ids;
      assert forall j :: 1 <= j < |ids| ==> ids[j] == ids[1..][j - 1];
      if k == -1 then -1 else k + 1
  }

  /** `currentStepIndex`. */
  function CurrentStepIndex(status: string): int {
    FindIndex(StepIds, status)
  }

  /** The step ids are pairwise different, so a step's id gives its position. */
  lemma StepIdsDistinct()
    ensures forall i, j :: 0 <= i < j < |StepIds| ==> StepIds[i] != StepIds[j]
  {
  }

  /** Each step's own id finds that step; any other status finds none. */
  lemma CurrentStepIndexOf(status: string)
    ensures status in StepIds ==> 0 <= CurrentStepIndex(status) && StepIds[CurrentStepIndex(status)] == status
    ensures status !in StepIds ==> CurrentStepIndex(status) == -1
    ensures forall i :: 0 <= i < |StepIds| ==> CurrentStepIndex(StepIds[i]) == i
  {
    StepIdsDistinct();
  }

  /** The ids of the shown steps: `steps.slice(0, currentStepIndex + 1)`. */
  function VisibleSteps(status: string): (r: seq<string>)
    ensures |r| == CurrentStepIndex(status) + 1
    ensures r <= StepIds
    ensures r == [] <==> status !in StepIds
  {
    StepIds[..CurrentStepIndex(status) + 1]
  }

  /** One shown step: title, line under it, and its marks. */
  datatype StepView = StepView(id: string, title: string, text: string, isCurrent: bool, isComplete: bool)

  /** The view of step `i` for the given status and message. */
  function ViewOf(i: nat, status: string, message: string): (v: StepView)
    requires i < |Steps|
    ensures v.id == Steps[i].id && v.title == Steps[i].title
    ensures v.isComplete <==> i < CurrentStepIndex(status)
    ensures v.isCurrent <==> Steps[i].id == status
    ensures v.text == if v.isCurrent && message != "" then message else Steps[i].description
  {
    var current := Steps[i].id == status;
    StepView(Steps[i].id, Steps[i].title,
             if current && message != "" then message else Steps[i].description,
             current, CurrentStepIndex(status) > i)
  }

  /** The shown steps, in order. */
  function Screen(status: string, message: string): (r: seq<StepView>)
    ensures |r| == |VisibleSteps(status)|
    ensures forall i :: 0 <= i < |r| ==> r[i] == ViewOf(i, status, message)
  {
    seq(CurrentStepIndex(status) + 1, i requires 0 <= i < CurrentStepIndex(status) + 1 => ViewOf(i, status, message))
  }

  /** On the screen every step but the last is done, the last is current, and
      only the current step may show the status message. */
  lemma ScreenMarks(status: string, message: string)
    ensures var r := Screen(status, message);
            && (forall i :: 0 <= i < |r| ==> (r[i].isCurrent <==> i == |r| - 1))
            && (forall i :: 0 <= i < |r| ==> (r[i].isComplete <==> i < |r| - 1))
            && (forall i :: 0 <= i < |r| && !r[i].isCurrent ==> r[i].text == Steps[i].description)
  {
    CurrentStepIndexOf(status);
    StepIdsOfSteps();
    StepIdsDistinct();
  }

  /** `currentStatus !== 'complete'`: the estimated time shows. */
  predicate ShowsEstimate(status: string) {
    status != "complete"
  }

  /** The estimate shows on every screen but the last one. */
  lemma EstimateUntilComplete(status: string)
    ensures ShowsEstimate(status) <==> CurrentStepIndex(status) != |Steps| - 1
  {
    CurrentStepIndexOf(status);
  }

  /** Along a list of updates in which every status other than `error`
      at position `k` is the one at position `min(k, 4)` of the order the
      analysis reports them in, the screen only moves forward. */
  lemma {:induction false} ForwardAlong(u: seq<Analysis.StatusUpdate>)
    requires forall k :: 0 <= k < |u| && u[k].status != "error" ==>
               u[k].status == Analysis.StatusOrder[if k < 4 then k else 4]
    ensures forall i, j :: 0 <= i < j < |u| && u[j].status != "error" ==>
              CurrentStepIndex(u[i].status) <= CurrentStepIndex(u[j].status)
  {
    assert Analysis.StatusOrder == StepIds;
    CurrentStepIndexOf("error");
    forall i, j | 0 <= i < j < |u| && u[j].status != "error"
      ensures CurrentStepIndex(u[i].status) <= CurrentStepIndex(u[j].status)
    {
      CurrentStepIndexOf(u[j].status);
      CurrentStepIndexOf(u[i].status);
    }
  }

  /** The updates the analysis reports move the screen forward only: each
      status shows at least as many steps as any update before it; the
      completion shows all five steps and the offline notice none. */
  lemma UpdatesMoveForward(remote: Analysis.Remote, parse: string -> Analysis.Parsed)
    ensures var u := Analysis.StatusUpdates(remote, parse);
            forall i, j :: 0 <= i < j < |u| && u[j].status != "error" ==>
              CurrentStepIndex(u[i].status) <= CurrentStepIndex(u[j].status)
    ensures CurrentStepIndex("complete") == 4 && CurrentStepIndex("error") == -1
  {
    Analysis.ReportedStatuses(remote, parse);
    ForwardAlong(Analysis.StatusUpdates(remote, parse));
    CurrentStepIndexOf("complete");
    CurrentStepIndexOf("error");
  }
}

=== FILE: catalog.dfy ===
/** The static questionnaire: five sections and fifteen questions, each
    option carrying a penalty score in 0..3 (0 = compliant) and a feedback
    kind. Explanations, tooltips and icons are display text and are not
    part of the model. */
module Catalog {
  import opened Wrappers
  import Text

  datatype FeedbackType = Success | Warning | Danger

  datatype Feedback = Feedback(kind: FeedbackType, message: string)

  /** `caption` is the source's `label` (a reserved word here). */
  datatype AnswerOption = AnswerOption(value: string, caption: string, score: int, feedback: Feedback)

  datatype Question = Question(id: string, sectionId: string, number: int, text: string,
                               options: seq<AnswerOption>)

  /** `weightPercent` is the source's `weight` times 100. It is data only:
      nothing in the scoring reads it. */
  datatype Section = Section(id: string, title: string, weightPercent: int)

  /** The answer map `{questionId -> selected option value}`. */
  type Answers = map<string, string>

  const MaxOptionScore := 3

  const Sections: seq<Section> := [
    Section("access", "Accès aux données", 30),
    Section("protection", "Protection des données", 25),
    Section("subcontractors", "Sous-traitants", 20),
    Section("rights", "Droits des personnes", 15),
    Section("incidents", "Gestion des incidents", 10)
  ]

  const Q1: Question :=
    Question("q1", "access", 1,
      "Qui peut consulter les dossiers sensibles?",
      [
        AnswerOption("everyone", "Toute l'équipe peut tout voir", 3,
          Feedback(Danger, "Violation nLPD grave")),
        AnswerOption("no_control", "Je ne contrôle pas vraiment", 2,
          Feedback(Warning, "Point à améliorer rapidement")),
        AnswerOption("controlled", "Seules les personnes autorisées", 0,
          Feedback(Success, "Vous maîtrisez cet aspect"))
      ])

  const Q2: Question :=
    Question("q2", "access", 2,
      "Pouvez-vous prouver qui a consulté quels dossiers?",
      [
        AnswerOption("none", "Non, aucune trace", 3,
          Feedback(Danger, "Violation critique")),
        AnswerOption("partial", "Partiellement", 2,
          Feedback(Warning, "Lacune à combler")),
        AnswerOption("complete", "Oui, j'ai un historique complet", 0,
          Feedback(Success, "Conforme & rassurant"))
      ])

  const Q3: Question :=
    Question("q3", "access", 3,
      "Les dossiers peuvent-ils être consultés depuis des appareils personnels?",
      [
        AnswerOption("no_framework", "Oui, sans cadre précis", 3,
          Feedback(Danger, "Risque critique identifié")),
        AnswerOption("with_rules", "Oui, avec règles strictes et sécurité renforcée", 1,
          Feedback(Warning, "Acceptable mais fragile")),
        AnswerOption("professional_only", "Non, uniquement matériel professionnel sécurisé", 0,
          Feedback(Success, "Conforme & sécurisé"))
      ])

  const Q4: Question :=
    Question("q4", "protection", 4,
      "Si un laptop est volé, les données dedans sont-elles lisibles?",
      [
        AnswerOption("readable", "Oui, lisibles directement", 3,
          Feedback(Danger, "Violation grave")),
        AnswerOption("unknown", "Je ne sais pas", 2,
          Feedback(Warning, "Urgent à vérifier")),
        AnswerOption("protected", "Protégées", 0,
          Feedback(Success, "Conforme & protégé"))
      ])

  const Q5: Question :=
    Question("q5", "protection", 5,
      "Comment est organisée la sauvegarde des données sensibles?",
      [
        AnswerOption("no_backup", "Je ne sais pas", 3,
          Feedback(Danger, "Violation critique")),
        AnswerOption("never_tested", "Jamais testées", 2,
          Feedback(Danger, "Très risqué")),
        AnswerOption("tested_yearly", "Testées une fois par an", 1,
          Feedback(Warning, "Acceptable, mais risqué")),
        AnswerOption("tested_quarterly", "Organisées et testées tous les 3 mois", 0,
          Feedback(Success, "Excellent"))
      ])

  const Q6: Question :=
    Question("q6", "protection", 6,
      "Avez-vous un document listant les accès à quoi et comment ?",
      [
        AnswerOption("none", "Non, rien d'écrit", 3,
          Feedback(Danger, "Violation grave")),
        AnswerOption("partial", "Partiellement", 2,
          Feedback(Warning, "Lacune")),
        AnswerOption("documented", "Oui, document à jour", 0,
          Feedback(Success, "Conforme"))
      ])

  const Q7: Question :=
    Question("q7", "subcontractors", 7,
      "Vos prestataires (cloud, logiciels, hébergeurs, société informatique) sont-ils conformes à la nLPD ?",
      [
        AnswerOption("unknown", "Je ne sais pas", 3,
          Feedback(Danger, "Dangereux")),
        AnswerOption("trust", "Je leur fais confiance", 2,
          Feedback(Warning, "Juridiquement insuffisant")),
        AnswerOption("contract_signed", "Oui, avec contrat signé", 0,
          Feedback(Success, "Conforme"))
      ])

  const Q8: Question :=
    Question("q8", "subcontractors", 8,
      "Où sont stockées vos données sensibles?",
      [
        AnswerOption("unknown", "Aucune idée", 3,
          Feedback(Danger, "Très dangereux")),
        AnswerOption("outside_europe", "Hors Europe", 3,
          Feedback(Danger, "Compliqué légalement")),
        AnswerOption("europe", "En Europe", 1,
          Feedback(Warning, "Acceptable")),
        AnswerOption("switzerland", "En Suisse", 0,
          Feedback(Success, "Optimal"))
      ])

  const Q9: Question :=
    Question("q9", "rights", 9,
      "Vos patients/clients signent-ils un document sur l'utilisation de leurs données?",
      [
        AnswerOption("never", "Non, jamais", 3,
          Feedback(Danger, "Violation grave")),
        AnswerOption("sometimes", "Parfois, quand on y pense", 2,
          Feedback(Warning, "Lacune")),
        AnswerOption("systematic", "Oui, systématiquement dès le début", 0,
          Feedback(Success, "Conforme"))
      ])

  const Q10: Question :=
    Question("q10", "rights", 10,
      "Un patient/client demande ses données. Pouvez-vous les lui fournir en 48h?",
      [
        AnswerOption("impossible", "Compliqué, voire impossible", 3,
          Feedback(Danger, "Violation de droits")),
        AnswerOption("several_days", "Ça prendrait plusieurs jours", 1,
          Feedback(Warning, "Acceptable mais fragile")),
        AnswerOption("easily", "Oui, facilement", 0,
          Feedback(Success, "Excellent"))
      ])

  const Q11: Question :=
    Question("q11", "rights", 11,
      "Combien de temps conservez-vous les dossiers?",
      [
        AnswerOption("keep_everything", "On garde tout", 3,
          Feedback(Danger, "Violation nLPD")),
        AnswerOption("unknown", "Je ne sais pas", 2,
          Feedback(Warning, "Urgent à clarifier")),
        AnswerOption("legal_with_destruction", "Durée légale respectée + destruction sécurisée", 0,
          Feedback(Success, "Conforme"))
      ])

  const Q12: Question :=
    Question("q12", "incidents", 12,
      "En cas de violation de données, savez-vous qui prévenir et dans quel délai?",
      [
        AnswerOption("no_idea", "Aucune idée", 3,
          Feedback(Danger, "Dangereux")),
        AnswerOption("should_search", "Je trouverai le moment venu", 2,
          Feedback(Warning, "Pas prêt")),
        AnswerOption("clear_procedure", "Oui, procédure claire", 0,
          Feedback(Success, "Conforme & préparé"))
      ])

  const Q13: Question :=
    Question("q13", "incidents", 13,
      "Votre équipe est-elle sensibilisée aux risques de cyberattaque ?",
      [
        AnswerOption("never", "Jamais formés", 3,
          Feedback(Danger, "Très risqué")),
        AnswerOption("initial_only", "Sensibilisation initiale uniquement", 2,
          Feedback(Warning, "Fragile")),
        AnswerOption("regular_training", "Formation régulière", 0,
          Feedback(Success, "Excellent"))
      ])

  const Q14: Question :=
    Question("q14", "incidents", 14,
      "Qui est responsable de la protection des données chez vous?",
      [
        AnswerOption("nobody", "Aucune personne en particulier", 3,
          Feedback(Danger, "Violation grave")),
        AnswerOption("designated", "Une personne clairement désignée", 0,
          Feedback(Success, "Conforme"))
      ])

  const Q15: Question :=
    Question("q15", "incidents", 15,
      "Collectez-vous uniquement les données dont vous avez vraiment besoin?",
      [
        AnswerOption("never_thought", "Je n'y ai jamais réfléchi", 3,
          Feedback(Danger, "Opportunité manquée")),
        AnswerOption("probably_too_much", "Probablement trop, par habitude", 2,
          Feedback(Warning, "Exposition élevée")),
        AnswerOption("essential_only", "Oui, uniquement l'essentiel", 0,
          Feedback(Success, "Conforme"))
      ])

  /** The fifteen questions in display order. */
  const Questions: seq<Question> := [Q1, Q2, Q3, Q4, Q5, Q6, Q7, Q8,
                                      Q9, Q10, Q11, Q12, Q13, Q14, Q15]

  /** The id a question at (0-based) position `i` must carry: `q{i+1}`. */
  function QuestionId(number: nat): string {
    "q" + Text.NatToString(number)
  }

  function SectionIds(secs: seq<Section>): set<string> {
    set i | 0 <= i < |secs| :: secs[i].id
  }

  predicate DistinctValues(opts: seq<AnswerOption>) {
    forall i, j :: 0 <= i < j < |opts| ==> opts[i].value != opts[j].value
  }

  /** Some option of `opts` has score `s`. */
  predicate HasScore(opts: seq<AnswerOption>, s: int) {
    exists i :: 0 <= i < |opts| && opts[i].score == s
  }

  /** An option is well formed: a score in 0..3, a non-empty value, and
      feedback that is never `success` for a score of 2 or more. */
  predicate ValidOption(o: AnswerOption) {
    && 0 <= o.score <= MaxOptionScore
    && o.value != ""
    && (o.score >= 2 ==> o.feedback.kind != Success)
  }

  predicate ValidQuestion(q: Question, sectionIds: set<string>) {
    && q.sectionId in sectionIds
    && (forall i :: 0 <= i < |q.options| ==> ValidOption(q.options[i]))
    && DistinctValues(q.options)
    && HasScore(q.options, 0)
    && HasScore(q.options, MaxOptionScore)
  }

  /** What the rest of the program relies on: questions numbered by their
      position with ids `q1, q2, ...`, each well formed and in a known
      section, section ids distinct. */
  predicate WellFormed(qs: seq<Question>, secs: seq<Section>) {
    && (forall i :: 0 <= i < |qs| ==> qs[i].number == i + 1 && qs[i].id == QuestionId(i + 1))
    && (forall i :: 0 <= i < |qs| ==> ValidQuestion(qs[i], SectionIds(secs)))
    && (forall i, j :: 0 <= i < j < |secs| ==> secs[i].id != secs[j].id)
  }

  /** `sections.find(s => s.id === id)?.title`. */
  function SectionTitle(secs: seq<Section>, id: string): (r: Option<string>)
    ensures r.Some? <==> id in SectionIds(secs)
    ensures r.Some? ==> exists i :: 0 <= i < |secs| && secs[i].id == id && secs[i].title == r.value
  {
    if secs == [] then None
    else if secs[0].id == id then Some(secs[0].title)
    else
      var r := SectionTitle(secs[1..], id);
      assert SectionIds(secs) == {secs[0].id} + SectionIds(secs[1..]) by {
        forall x | x in SectionIds(secs) ensures x in {secs[0].id} + SectionIds(secs[1..]) {
          var i :| 0 <= i < |secs| && secs[i].id == x;
          if i > 0 { assert secs[1..][i - 1].id == x; }
        }
      }
      r
  }

  /** Ids built from distinct positions are distinct. */
  lemma QuestionIdsDistinct(qs: seq<Question>, secs: seq<Section>, i: int, j: int)
    requires WellFormed(qs, secs)
    requires 0 <= i < |qs| && 0 <= j < |qs| && i != j
    ensures qs[i].id != qs[j].id
  {
    Text.NatToStringInjective(i + 1, j + 1);
    assert QuestionId(i + 1)[1..] == Text.NatToString(i + 1);
    assert QuestionId(j + 1)[1..] == Text.NatToString(j + 1);
  }

  /** The section ids of the shipped catalog. */
  const CatalogSectionIds: set<string> := {"access", "protection", "subcontractors", "rights", "incidents"}

  lemma SectionIdsOfCatalog()
    ensures SectionIds(Sections) == CatalogSectionIds
  {
    assert Sections[0].id == "access" && Sections[1].id == "protection";
    assert Sections[2].id == "subcontractors" && Sections[3].id == "rights";
    assert Sections[4].id == "incidents";
  }

  /** The shipped catalog satisfies every well-formedness rule, has 15
      questions, 5 sections, and section weights totalling 100 percent. */
  lemma CatalogWellFormed()
    ensures |Questions| == 15 && |Sections| == 5
    ensures WellFormed(Questions, Sections)
    ensures Sections[0].weightPercent + Sections[1].weightPercent + Sections[2].weightPercent
            + Sections[3].weightPercent + Sections[4].weightPercent == 100
  {
    SectionIdsOfCatalog();
    var ids := SectionIds(Sections);
    QuestionsValid1To5(ids);
    QuestionsValid6To10(ids);
    QuestionsValid11To15(ids);
  }

  lemma QuestionsValid1To5(ids: set<string>)
    requires ids == CatalogSectionIds
    ensures forall i :: 0 <= i < 5 ==> 
              (Questions[i].number == i + 1 && Questions[i].id == QuestionId(i + 1) && ValidQuestion(Questions[i], ids))
  {
    forall i | 0 <= i < 5
      ensures Questions[i].number == i + 1 && Questions[i].id == QuestionId(i + 1)
      ensures ValidQuestion(Questions[i], ids)
    {
      if i == 0 { assert Questions[i] == Q1; Q1Valid(ids); }
      else if i == 1 { assert Questions[i] == Q2; Q2Valid(ids); }
      else if i == 2 { assert Questions[i] == Q3; Q3Valid(ids); }
      else if i == 3 { assert Questions[i] == Q4; Q4Valid(ids); }
      else { assert Questions[i] == Q5; Q5Valid(ids); }
    }
  }

  lemma QuestionsValid6To10(ids: set<string>)
    requires ids == CatalogSectionIds
    ensures forall i :: 5 <= i < 10 ==> 
              (Questions[i].number == i + 1 && Questions[i].id == QuestionId(i + 1) && ValidQuestion(Questions[i], ids))
  {
    forall i | 5 <= i < 10
      ensures Questions[i].number == i + 1 && Questions[i].id == QuestionId(i + 1)
      ensures ValidQuestion(Questions[i], ids)
    {
      if i == 5 { assert Questions[i] == Q6; Q6Valid(ids); }
      else if i == 6 { assert Questions[i] == Q7; Q7Valid(ids); }
      else if i == 7 { assert Questions[i] == Q8; Q8Valid(ids); }
      else if i == 8 { assert Questions[i] == Q9; Q9Valid(ids); }
      else { assert Questions[i] == Q10; Q10Valid(ids); }
    }
  }

  lemma QuestionsValid11To15(ids: set<string>)
    requires ids == CatalogSectionIds
    ensures forall i :: 10 <= i < 15 ==> 
              (Questions[i].number == i + 1 && Questions[i].id == QuestionId(i + 1) && ValidQuestion(Questions[i], ids))
  {
    forall i | 10 <= i < 15
      ensures Questions[i].number == i + 1 && Questions[i].id == QuestionId(i + 1)
      ensures ValidQuestion(Questions[i], ids)
    {
      if i == 10 { assert Questions[i] == Q11; Q11Valid(ids); }
      else if i == 11 { assert Questions[i] == Q12; Q12Valid(ids); }
      else if i == 12 { assert Questions[i] == Q13; Q13Valid(ids); }
      else if i == 13 { assert Questions[i] == Q14; Q14Valid(ids); }
      else { assert Questions[i] == Q15; Q15Valid(ids); }
    }
  }

  lemma Q1Valid(ids: set<string>)
    requires ids == CatalogSectionIds
    ensures Q1.number == 1 && Q1.id == QuestionId(1) && ValidQuestion(Q1, ids)
  {
    assert Q1.options[0].score == 3 && Q1.options[2].score == 0;
  }

  lemma Q2Valid(ids: set<string>)
    requires ids == CatalogSectionIds
    ensures Q2.number == 2 && Q2.id == QuestionId(2) && ValidQuestion(Q2, ids)
  {
    assert Q2.options[0].score == 3 && Q2.options[2].score == 0;
  }

  lemma Q3Valid(ids: set<string>)
    requires ids == CatalogSectionIds
    ensures Q3.number == 3 && Q3.id == QuestionId(3) && ValidQuestion(Q3, ids)
  {
    assert Q3.options[0].score == 3 && Q3.options[2].score == 0;
  }

  lemma Q4Valid(ids: set<string>)
    requires ids == CatalogSectionIds
    ensures Q4.number == 4 && Q4.id == QuestionId(4) && ValidQuestion(Q4, ids)
  {
    assert Q4.options[0].score == 3 && Q4.options[2].score == 0;
  }

  lemma Q5Valid(ids: set<string>)
    requires ids == CatalogSectionIds
    ensures Q5.number == 5 && Q5.id == QuestionId(5) && ValidQuestion(Q5, ids)
  {
    assert Q5.options[0].score == 3 && Q5.options[3].score == 0;
  }

  lemma Q6Valid(ids: set<string>)
    requires ids == CatalogSectionIds
    ensures Q6.number == 6 && Q6.id == QuestionId(6) && ValidQuestion(Q6, ids)
  {
    assert Q6.options[0].score == 3 && Q6.options[2].score == 0;
  }

  lemma Q7Valid(ids: set<string>)
    requires ids == CatalogSectionIds
    ensures Q7.number == 7 && Q7.id == QuestionId(7) && ValidQuestion(Q7, ids)
  {
    assert Q7.options[0].score == 3 && Q7.options[2].score == 0;
  }

  lemma Q8Valid(ids: set<string>)
    requires ids == CatalogSectionIds
    ensures Q8.number == 8 && Q8.id == QuestionId(8) && ValidQuestion(Q8, ids)
  {
    assert Q8.options[0].score == 3 && Q8.options[3].score == 0;
  }

  lemma Q9Valid(ids: set<string>)
    requires ids == CatalogSectionIds
    ensures Q9.number == 9 && Q9.id == QuestionId(9) && ValidQuestion(Q9, ids)
  {
    assert Q9.options[0].score == 3 && Q9.options[2].score == 0;
  }

  lemma Q10Valid(ids: set<string>)
    requires ids == CatalogSectionIds
    ensures Q10.number == 10 && Q10.id == QuestionId(10) && ValidQuestion(Q10, ids)
  {
    assert Q10.options[0].score == 3 && Q10.options[2].score == 0;
  }

  lemma Q11Valid(ids: set<string>)
    requires ids == CatalogSectionIds
    ensures Q11.number == 11 && Q11.id == QuestionId(11) && ValidQuestion(Q11, ids)
  {
    assert Q11.options[0].score == 3 && Q11.options[2].score == 0;
  }

  lemma Q12Valid(ids: set<string>)
    requires ids == CatalogSectionIds
    ensures Q12.number == 12 && Q12.id == QuestionId(12) && ValidQuestion(Q12, ids)
  {
    assert Q12.options[0].score == 3 && Q12.options[2].score == 0;
  }

  lemma Q13Valid(ids: set<string>)
    requires ids == CatalogSectionIds
    ensures Q13.number == 13 && Q13.id == QuestionId(13) && ValidQuestion(Q13, ids)
  {
    assert Q13.options[0].score == 3 && Q13.options[2].score == 0;
  }

  lemma Q14Valid(ids: set<string>)
    requires ids == CatalogSectionIds
    ensures Q14.number == 14 && Q14.id == QuestionId(14) && ValidQuestion(Q14, ids)
  {
    assert Q14.options[0].score == 3 && Q14.options[1].score == 0;
  }

  lemma Q15Valid(ids: set<string>)
    requires ids == CatalogSectionIds
    ensures Q15.number == 15 && Q15.id == QuestionId(15) && ValidQuestion(Q15, ids)
  {
    assert Q15.options[0].score == 3 && Q15.options[2].score == 0;
  }

}

=== FILE: cookieconsent.dfy ===
/** The cookie-consent record: how a stored record is accepted on load,
    when the banner shows, and how a choice is recorded. Storage and the
    clock are parameters; the record is a JSON object. */
module CookieConsent {
  import opened Wrappers
  import opened Json

  const ConsentVersion := 1

  /** `defaultConsent`. */
  const DefaultConsent: Object := map["version" := JNumber(1), "statistics" := JBool(false), "timestamp" := JNull]

  /** A parsed value that is an object carrying the current version. */
  predicate CurrentVersion(parsed: JsonValue) {
    parsed.JObject? && Get(parsed.fields, "version") == JNumber(ConsentVersion)
  }

  /** The initial consent: the stored record merged over the defaults if it
      parses to an object of the current version, else the defaults.
      `stored` is None when nothing is stored or the text does not parse. */
  function LoadConsent(stored: Option<JsonValue>): (c: Object)
    ensures stored.Some? && CurrentVersion(stored.value) ==>
              c.Keys == DefaultConsent.Keys + stored.value.fields.Keys
              && (forall k :: k in stored.value.fields ==> c[k] == stored.value.fields[k])
              && (forall k :: k in DefaultConsent && k !in stored.value.fields ==> c[k] == DefaultConsent[k])
    ensures !(stored.Some? && CurrentVersion(stored.value)) ==> c == DefaultConsent
  {
    if stored.Some? && CurrentVersion(stored.value) then DefaultConsent + stored.value.fields
    else DefaultConsent
  }

  /** A loaded record always has the current version. */
  lemma LoadedVersionIsCurrent(stored: Option<JsonValue>)
    ensures Get(LoadConsent(stored), "version") == JNumber(ConsentVersion)
  {
  }

  /** The banner shows while no choice is recorded: `timestamp` is null or missing. */
  predicate BannerVisible(c: Object) {
    Get(c, "timestamp") == JNull
  }

  /** `consent.statistics === true`. */
  predicate HasStatisticsConsent(c: Object) {
    Get(c, "statistics") == JBool(true)
  }

  /** `setConsent(choices)` at time `now`: the choices override the current
      record and the defaults, but the version and the time are set last. */
  function SetConsent(c: Object, choices: Object, now: int): (r: Object)
    ensures r.Keys == DefaultConsent.Keys + c.Keys + choices.Keys
    ensures r["version"] == JNumber(ConsentVersion) && r["timestamp"] == JNumber(now)
    ensures forall k :: k in choices && k != "version" && k != "timestamp" ==> r[k] == choices[k]
    ensures forall k :: k in c && k !in choices && k != "version" && k != "timestamp" ==> r[k] == c[k]
    ensures forall k :: k in DefaultConsent && k !in c && k !in choices && k != "version" && k != "timestamp" ==>
              r[k] == DefaultConsent[k]
  {
    DefaultConsent + c + choices + map["version" := JNumber(ConsentVersion), "timestamp" := JNumber(now)]
  }

  /** After a choice the banner is hidden, and the saved record loads back
      unchanged. */
  lemma SetConsentRecorded(c: Object, choices: Object, now: int)
    ensures !BannerVisible(SetConsent(c, choices, now))
    ensures LoadConsent(Some(JObject(SetConsent(c, choices, now)))) == SetConsent(c, choices, now)
  {
    var r := SetConsent(c, choices, now);
    assert DefaultConsent + r == r;
  }

  /** `acceptAll()`. */
  function AcceptAll(c: Object, now: int): (r: Object)
    ensures HasStatisticsConsent(r) && !BannerVisible(r)
  {
    SetConsent(c, map["statistics" := JBool(true)], now)
  }

  /** `acceptEssentialOnly()`. */
  function AcceptEssentialOnly(c: Object, now: int): (r: Object)
    ensures !HasStatisticsConsent(r) && !BannerVisible(r)
    ensures Get(r, "statistics") == JBool(false)
  {
    SetConsent(c, map["statistics" := JBool(false)], now)
  }

  /** Either button keeps every field other than statistics, version and time. */
  lemma AcceptKeepsOtherFields(c: Object, now: int, k: string)
    requires k in c && k != "statistics" && k != "version" && k != "timestamp"
    ensures AcceptAll(c, now)[k] == c[k] && AcceptEssentialOnly(c, now)[k] == c[k]
  {
  }

  /** Without a stored record of the current version the banner shows and
      statistics are off. */
  lemma DefaultsAskForConsent(stored: Option<JsonValue>)
    requires !(stored.Some? && CurrentVersion(stored.value))
    ensures BannerVisible(LoadConsent(stored)) && !HasStatisticsConsent(LoadConsent(stored))
  {
  }

  /** A stored record of the current version without a time also shows the
      banner; one with a non-null time hides it. */
  lemma StoredTimestampDecidesBanner(fields: Object)
    requires CurrentVersion(JObject(fields))
    ensures BannerVisible(LoadConsent(Some(JObject(fields)))) <==> Get(fields, "timestamp") == JNull
  {
  }
}

=== FILE: debuglogger.dfy ===
/** Debug-log records: creation, redaction of secrets before storage, and
    the update describing a response. The id and the clock are parameters. */
module DebugLogger {
  import opened Wrappers
  import opened Json

  /** The request part of a log. `payload` and `headers` are objects or absent. */
  datatype Request = Request(endpoint: JsonValue, httpMethod: JsonValue,
                             payload: Option<Object>, headers: Option<Object>)

  /** The response part written by an update. */
  datatype ResponseInfo = ResponseInfo(status: JsonValue, data: JsonValue, error: JsonValue)

  datatype Log = Log(id: string, timestamp: int, logType: string, operation: string,
                     status: string, duration: Option<int>, request: Request,
                     response: Option<ResponseInfo>, isHighlighted: JsonValue, highlightReason: JsonValue)

  /** The `request` argument of `createLog`, as an object. */
  function NewRequest(request: Object): (r: Request)
    ensures r.endpoint == Or(Get(request, "endpoint"), JString(""))
    ensures r.httpMethod == Or(Get(request, "method"), JString(""))
    ensures Get(request, "payload").JObject? ==> r.payload == Some(Get(request, "payload").fields)
    ensures !Truthy(Get(request, "payload")) ==> r.payload.None?
    ensures r.headers.None?
  {
    var payload := Get(request, "payload");
    Request(Or(Get(request, "endpoint"), JString("")), Or(Get(request, "method"), JString("")),
            if payload.JObject? then Some(payload.fields) else None, None)
  }

  /** `createLog(type, operation, request)` with the id and the time given. */
  function CreateLog(id: string, now: int, logType: string, operation: string, request: Object): (l: Log)
    ensures l.id == id && l.timestamp == now && l.logType == logType && l.operation == operation
    ensures l.status == "pending" && l.duration.None? && l.response.None?
    ensures l.request == NewRequest(request)
    ensures Truthy(l.isHighlighted) <==> Truthy(Get(request, "isHighlighted"))
    ensures !Truthy(Get(request, "isHighlighted")) ==> l.isHighlighted == JBool(false)
    ensures Truthy(Get(request, "isHighlighted")) ==> l.isHighlighted == Get(request, "isHighlighted")
    ensures Truthy(Get(request, "highlightReason")) ==> l.highlightReason == Get(request, "highlightReason")
    ensures !Truthy(Get(request, "highlightReason")) ==> l.highlightReason == JNull
  {
    Log(id, now, logType, operation, "pending", None, NewRequest(request), None,
        Or(Get(request, "isHighlighted"), JBool(false)), Or(Get(request, "highlightReason"), JNull))
  }

  /** The payload keys never stored. */
  const SecretKeys: set<string> := {"apiKey", "token"}

  const Redacted := JString("[REDACTED]")

  /** The headers with a truthy `Authorization` replaced. */
  function RedactHeaders(headers: Object): (h: Object)
    ensures h.Keys == headers.Keys
    ensures forall k :: k in h && k != "Authorization" ==> h[k] == headers[k]
    ensures "Authorization" in h ==>
              h["Authorization"] == if Truthy(headers["Authorization"]) then Redacted else headers["Authorization"]
  {
    if "Authorization" in headers && Truthy(headers["Authorization"]) then headers["Authorization" := Redacted]
    else headers
  }

  /** `sanitizeRequest(request)`. */
  function SanitizeRequest(r: Request): (s: Request)
    ensures s.endpoint == r.endpoint && s.httpMethod == r.httpMethod
    ensures s.payload.Some? <==> r.payload.Some?
    ensures s.payload.Some? ==> s.payload.value.Keys == r.payload.value.Keys - SecretKeys
    ensures s.payload.Some? ==> forall k :: k in s.payload.value ==> s.payload.value[k] == r.payload.value[k]
    ensures s.headers.Some? <==> r.headers.Some?
    ensures s.headers.Some? ==> s.headers.value == RedactHeaders(r.headers.value)
  {
    r.(payload := if r.payload.Some? then Some(r.payload.value - SecretKeys) else None,
       headers := if r.headers.Some? then Some(RedactHeaders(r.headers.value)) else None)
  }

  /** `sanitizeLog(log)`: only the request changes. */
  function SanitizeLog(l: Log): (s: Log)
    ensures s.request == SanitizeRequest(l.request)
    ensures s.(request := l.request) == l
  {
    l.(request := SanitizeRequest(l.request))
  }

  /** A stored request carries no secret and no readable authorization. */
  lemma SanitizedHoldsNoSecret(l: Log)
    ensures var r := SanitizeLog(l).request;
            && (r.payload.Some? ==> forall k :: k in SecretKeys ==> k !in r.payload.value)
            && (r.headers.Some? && "Authorization" in r.headers.value ==>
                  r.headers.value["Authorization"] == Redacted || !Truthy(r.headers.value["Authorization"]))
  {
  }

  /** Sanitizing twice is sanitizing once. */
  lemma SanitizeLogIdempotent(l: Log)
    ensures SanitizeLog(SanitizeLog(l)) == SanitizeLog(l)
  {
    var r := SanitizeLog(l).request;
    if r.payload.Some? {
      assert r.payload.value - SecretKeys == r.payload.value;
    }
    if r.headers.Some? {
      var h := r.headers.value;
      assert RedactHeaders(h) == h;
    }
  }

  /** What an update writes into a log. */
  datatype LogUpdate = LogUpdate(status: string, duration: int, response: ResponseInfo)

  /** `createLogUpdate(response, duration, status)`; an absent status is `success`. */
  function CreateLogUpdate(response: Object, duration: int, status: Option<string>): (u: LogUpdate)
    ensures u.status == status.GetOr("success") && u.duration == duration
    ensures Truthy(u.response.status) <==> Truthy(Get(response, "status"))
    ensures Truthy(u.response.data) <==> Truthy(Get(response, "data"))
    ensures Truthy(u.response.error) <==> Truthy(Get(response, "error"))
    ensures Truthy(Get(response, "status")) ==> u.response.status == Get(response, "status")
    ensures Truthy(Get(response, "data")) ==> u.response.data == Get(response, "data")
    ensures Truthy(Get(response, "error")) ==> u.response.error == Get(response, "error")
    ensures !Truthy(Get(response, "status")) ==> u.response.status == JNull
    ensures !Truthy(Get(response, "data")) ==> u.response.data == JNull
    ensures !Truthy(Get(response, "error")) ==> u.response.error == JNull
  {
    LogUpdate(status.GetOr("success"), duration,
              ResponseInfo(Or(Get(response, "status"), JNull), Or(Get(response, "data"), JNull),
                           Or(Get(response, "error"), JNull)))
  }

  /** `{ ...log, ...updates }`. */
  function ApplyUpdate(l: Log, u: LogUpdate): (m: Log)
    ensures m.status == u.status && m.duration == Some(u.duration) && m.response == Some(u.response)
    ensures m.(status := l.status, duration := l.duration, response := l.response) == l
  {
    l.(status := u.status, duration := Some(u.duration), response := Some(u.response))
  }

  /** Updating a log and sanitizing it commute: an update never touches the request. */
  lemma UpdateCommutesWithSanitize(l: Log, u: LogUpdate)
    ensures SanitizeLog(ApplyUpdate(l, u)) == ApplyUpdate(SanitizeLog(l), u)
  {
  }
}

=== FILE: debugstore.dfy ===
/** The debug-log store: the list of logs with its cap, the age cut-off on
    load, per-id updates, and the set of active filters with the filtering
    it drives. Storage and the clock are parameters. */
module DebugStore {
  import opened Wrappers
  import opened Seqs
  import opened DebugLogger

  const MaxLogs := 100
  /** Seven days in milliseconds. */
  const MaxAgeMs := 7 * 24 * 60 * 60 * 1000

  datatype Store = Store(debugMode: bool, logs: seq<Log>, filters: set<string>)

  const InitialStore := Store(false, [], {"all"})

  // ---------------------------------------------------------------------
  // The log list

  /** The logs kept on load: those younger than seven days at `now`. A
      missing or unreadable entry, or one without logs, loads nothing. */
  function LoadLogs(stored: Option<seq<Log>>, now: int): (r: seq<Log>)
    ensures IsSubsequence(r, stored.GetOr([]))
    ensures forall i :: 0 <= i < |r| ==> r[i].timestamp > now - 604800000
    ensures forall l :: l in stored.GetOr([]) && l.timestamp > now - 604800000 ==> l in r
    ensures forall l :: multiset(r)[l] == if l.timestamp > now - 604800000 then multiset(stored.GetOr([]))[l] else 0
  {
    var recent := (l: Log) => l.timestamp > now - MaxAgeMs;
    FilterMultiset(stored.GetOr([]), recent);
    Filter(stored.GetOr([]), recent)
  }

  /** What is written to storage: at most the first hundred logs. */
  function SavedLogs(logs: seq<Log>): (r: seq<Log>)
    ensures |r| <= MaxLogs && r <= logs
    ensures |r| == if |logs| < MaxLogs then |logs| else MaxLogs
    ensures |logs| <= MaxLogs ==> r == logs
  {
    var r := Take(logs, MaxLogs);
    assert r == logs[..|r|];
    r
  }

  /** Saved logs load back unchanged as long as none is older than seven days. */
  lemma SavedLogsReload(logs: seq<Log>, now: int)
    requires |logs| <= MaxLogs
    requires forall i :: 0 <= i < |logs| ==> logs[i].timestamp > now - MaxAgeMs
    ensures LoadLogs(Some(SavedLogs(logs)), now) == logs
  {
    FilterAll(logs, (l: Log) => l.timestamp > now - MaxAgeMs);
  }

  /** `addLog(log)`: with debug mode on, the sanitized log goes first and the
      list is cut to a hundred entries; the log's id is returned either way. */
  function AddLog(st: Store, l: Log): (r: (Store, string))
    ensures r.1 == l.id
    ensures !st.debugMode ==> r.0 == st
    ensures st.debugMode ==> r.0.filters == st.filters && r.0.debugMode
    ensures st.debugMode ==> 1 <= |r.0.logs| <= MaxLogs && r.0.logs[0] == SanitizeLog(l)
    ensures st.debugMode ==> |r.0.logs| == if |st.logs| < MaxLogs then |st.logs| + 1 else MaxLogs
    ensures st.debugMode ==> r.0.logs[1..] <= st.logs
    ensures st.debugMode && |st.logs| < MaxLogs ==> r.0.logs[1..] == st.logs
  {
    if !st.debugMode then (st, l.id)
    else
      var logs := Take([SanitizeLog(l)] + st.logs, MaxLogs);
      assert logs[1..] == st.logs[..|logs| - 1];
      (st.(logs := logs), l.id)
  }

  /** `updateLog(logId, updates)`: every log with that id takes the update. */
  function UpdateLog(st: Store, logId: string, u: LogUpdate): (r: Store)
    ensures !st.debugMode ==> r == st
    ensures r.debugMode == st.debugMode && r.filters == st.filters
    ensures |r.logs| == |st.logs|
    ensures st.debugMode ==> forall i :: 0 <= i < |st.logs| ==>
              r.logs[i] == if st.logs[i].id == logId then ApplyUpdate(st.logs[i], u) else st.logs[i]
  {
    if !st.debugMode then st
    else st.(logs := seq(|st.logs|, i requires 0 <= i < |st.logs| =>
                           if st.logs[i].id == logId then ApplyUpdate(st.logs[i], u) else st.logs[i]))
  }

  /** An update never changes a log's id, time, type or request. */
  lemma UpdateLogKeepsIdentity(st: Store, logId: string, u: LogUpdate)
    ensures var r := UpdateLog(st, logId, u);
            forall i :: 0 <= i < |r.logs| ==>
              && r.logs[i].id == st.logs[i].id && r.logs[i].timestamp == st.logs[i].timestamp
              && r.logs[i].logType == st.logs[i].logType && r.logs[i].request == st.logs[i].request
  {
  }

  /** No log stays above the cap once the store has started from a saved
      list: adding keeps the cap, updating keeps the length. */
  lemma CapPreserved(st: Store, l: Log, logId: string, u: LogUpdate)
    requires |st.logs| <= MaxLogs
    ensures |AddLog(st, l).0.logs| <= MaxLogs
    ensures |UpdateLog(st, logId, u).logs| <= MaxLogs
  {
  }

  /** `clearLogs()`. */
  function ClearLogs(st: Store): (r: Store)
    ensures r.logs == [] && r.debugMode == st.debugMode && r.filters == st.filters
  {
    st.(logs := [])
  }

  /** `toggleDebugMode()`. */
  function ToggleDebugMode(st: Store): (r: Store)
    ensures r.debugMode != st.debugMode && r.logs == st.logs && r.filters == st.filters
  {
    st.(debugMode := !st.debugMode)
  }

  // ---------------------------------------------------------------------
  // Filters

  /** The shape every active-filter set keeps: never empty, and `all` only alone. */
  predicate FiltersOk(fs: set<string>) {
    fs != {} && ("all" in fs ==> fs == {"all"})
  }

  /** `toggleFilter(filterType)`. */
  function ToggleFilter(fs: set<string>, x: string): (r: set<string>)
    ensures x == "all" ==> r == {"all"}
    ensures x != "all" ==> (r == {"all"} <==> fs - {"all"} == {x})
    ensures x != "all" && r != {"all"} ==> "all" !in r && (x in r <==> x !in fs)
    ensures x != "all" && r != {"all"} ==> forall y :: y != x && y != "all" ==> (y in r <==> y in fs)
    ensures FiltersOk(r)
  {
    if x == "all" then {"all"}
    else
      var rest := fs - {"all"};
      var toggled := if x in rest then rest - {x} else rest + {x};
      if toggled == {} then {"all"} else toggled
  }

  /** On a well-shaped set, toggling a filter other than `all` twice changes
      nothing; toggling `all` twice gives `{all}`. */
  lemma ToggleTwice(fs: set<string>, x: string)
    requires FiltersOk(fs)
    ensures x != "all" ==> ToggleFilter(ToggleFilter(fs, x), x) == fs
    ensures x == "all" ==> ToggleFilter(ToggleFilter(fs, x), x) == {"all"}
  {
    if x != "all" {
      var once := ToggleFilter(fs, x);
      var twice := ToggleFilter(once, x);
      if fs == {"all"} {
        assert once == {x};
      } else if once == {"all"} {
        assert fs == {x};
      } else {
        assert twice == fs;
      }
    }
  }

  /** Whether `getFilteredLogs` keeps a log under the filters `fs` (not `all`). */
  predicate Shown(fs: set<string>, l: Log) {
    ("errors" in fs && l.status == "error") || l.logType in fs
  }

  /** `getFilteredLogs()`. */
  function FilteredLogs(logs: seq<Log>, fs: set<string>): (r: seq<Log>)
    ensures "all" in fs ==> r == logs
    ensures IsSubsequence(r, logs)
    ensures "all" !in fs ==> forall i :: 0 <= i < |r| ==> Shown(fs, r[i])
    ensures "all" !in fs ==> forall l :: l in logs && Shown(fs, l) ==> l in r
    ensures "all" !in fs ==> forall l :: multiset(r)[l] == if Shown(fs, l) then multiset(logs)[l] else 0
  {
    if "all" in fs then
      IsSubsequenceRefl(logs);
      logs
    else
      var shown := (l: Log) => Shown(fs, l);
      FilterMultiset(logs, shown);
      Filter(logs, shown)
  }

  /** `filterLogs(filterType)`. */
  function FilterLogs(logs: seq<Log>, x: string): (r: seq<Log>)
    ensures x == "all" ==> r == logs
    ensures IsSubsequence(r, logs)
    ensures x == "errors" ==> forall i :: 0 <= i < |r| ==> r[i].status == "error"
    ensures x != "all" && x != "errors" ==> forall i :: 0 <= i < |r| ==> r[i].logType == x
    ensures x == "errors" ==> forall l :: l in logs && l.status == "error" ==> l in r
    ensures x != "all" && x != "errors" ==> forall l :: l in logs && l.logType == x ==> l in r
    ensures x == "errors" ==> forall l :: multiset(r)[l] == if l.status == "error" then multiset(logs)[l] else 0
    ensures x != "all" && x != "errors" ==>
              forall l :: multiset(r)[l] == if l.logType == x then multiset(logs)[l] else 0
  {
    if x == "all" then
      IsSubsequenceRefl(logs);
      logs
    else if x == "errors" then
      var failed := (l: Log) => l.status == "error";
      FilterMultiset(logs, failed);
      Filter(logs, failed)
    else
      var ofType := (l: Log) => l.logType == x;
      FilterMultiset(logs, ofType);
      Filter(logs, ofType)
  }

  /** With a single active filter the two filterings agree, as long as no
      log's type is literally `errors`. */
  lemma SingleFilterAgrees(logs: seq<Log>, x: string)
    requires x != "errors" || forall i :: 0 <= i < |logs| ==> logs[i].logType != "errors"
    ensures FilteredLogs(logs, {x}) == FilterLogs(logs, x)
  {
    if x == "errors" {
      FilterCongruent(logs, (l: Log) => Shown({x}, l), (l: Log) => l.status == "error");
    } else if x != "all" {
      FilterCongruent(logs, (l: Log) => Shown({x}, l), (l: Log) => l.logType == x);
    }
  }
}

=== FILE: formflow.dfy ===
/** The questionnaire flow: the step and question-index state machine, the
    answer-text mapping sent for analysis, and the submit payload with its
    fallback teaser. */
module FormFlow {
  import opened Wrappers
  import opened Text
  import opened Catalog
  import opened Scoring
  import opened LeadForm

  datatype Step = LandingStep | QuestionsStep | LeadCaptureStep | AnalyzingStep | ThankYouStep

  /** The navigation part of the component state. */
  datatype Flow = Flow(step: Step, index: int, answers: Answers)

  const InitialFlow := Flow(LandingStep, 0, map[])

  // ---------------------------------------------------------------------
  // Handlers

  /** `handleStart`. */
  function Start(f: Flow): (r: Flow)
    ensures r.step == QuestionsStep && r.index == 0 && r.answers == f.answers
  {
    Flow(QuestionsStep, 0, f.answers)
  }

  /** `handleAnswer(questionId, value)`: one key set, every other key kept. */
  function Answer(f: Flow, id: string, value: string): (r: Flow)
    ensures r.step == f.step && r.index == f.index
    ensures id in r.answers && r.answers[id] == value
    ensures forall k :: k != id ==> (k in r.answers <==> k in f.answers)
    ensures forall k :: k != id && k in f.answers ==> r.answers[k] == f.answers[k]
  {
    f.(answers := f.answers[id := value])
  }

  /** `handleNext` with `count` questions: advance, or leave the questions
      for the lead form after the last one. */
  function Next(f: Flow, count: int): (r: Flow)
    ensures r.answers == f.answers
    ensures f.index < count - 1 ==> r.step == f.step && r.index == f.index + 1
    ensures f.index >= count - 1 ==> r.step == LeadCaptureStep && r.index == f.index
  {
    if f.index < count - 1 then f.(index := f.index + 1) else f.(step := LeadCaptureStep)
  }

  /** `handlePrevious`: go back one question, or to the landing page from
      the first. */
  function Previous(f: Flow): (r: Flow)
    ensures r.answers == f.answers
    ensures f.index > 0 ==> r.step == f.step && r.index == f.index - 1
    ensures f.index <= 0 ==> r.step == LandingStep && r.index == f.index
  {
    if f.index > 0 then f.(index := f.index - 1) else f.(step := LandingStep)
  }

  /** Every handler keeps the index inside the question list. */
  lemma IndexStaysInRange(f: Flow, count: int, id: string, value: string)
    requires 0 <= f.index < count
    ensures 0 <= Start(f).index < count
    ensures 0 <= Answer(f, id, value).index < count
    ensures 0 <= Next(f, count).index < count
    ensures 0 <= Previous(f).index < count
  {
  }

  /** Next then Previous, away from the last question, is a round trip. */
  lemma NextThenPrevious(f: Flow, count: int)
    requires 0 <= f.index < count - 1
    ensures Previous(Next(f, count)) == f
  {
  }

  /** Previous then Next, away from the first question, is a round trip. */
  lemma PreviousThenNext(f: Flow, count: int)
    requires 0 < f.index < count
    ensures Next(Previous(f), count) == f
  {
  }

  // ---------------------------------------------------------------------
  // The navigation as driven by the question card

  /** What the user can do: start, pick an option, or press a button. */
  datatype Event = StartEvent | AnswerEvent(value: string) | NextEvent | PreviousEvent

  /** The question card only offers option values, disables Next until the
      current question is answered and disables Previous on the first
      question; only the landing page offers Start. */
  predicate Enabled(qs: seq<Question>, f: Flow, e: Event) {
    match e
    case StartEvent => f.step == LandingStep
    case AnswerEvent(v) =>
      && f.step == QuestionsStep && 0 <= f.index < |qs|
      && exists j :: 0 <= j < |qs[f.index].options| && qs[f.index].options[j].value == v
    case NextEvent => f.step == QuestionsStep && 0 <= f.index < |qs| && Answered(f.answers, qs[f.index].id)
    case PreviousEvent => f.step == QuestionsStep && f.index > 0
  }

  function Apply(qs: seq<Question>, f: Flow, e: Event): Flow
    requires Enabled(qs, f, e)
  {
    match e
    case StartEvent => Start(f)
    case AnswerEvent(v) => Answer(f, qs[f.index].id, v)
    case NextEvent => Next(f, |qs|)
    case PreviousEvent => Previous(f)
  }

  /** The state after a sequence of events, or None if one is not offered. */
  function Run(qs: seq<Question>, f: Flow, es: seq<Event>): Option<Flow>
    decreases es
  {
    if es == [] then Some(f)
    else if Enabled(qs, f, es[0]) then Run(qs, Apply(qs, f, es[0]), es[1..])
    else None
  }

  /** What holds in every state the question card can lead to: the index is
      in range, every question before the current one is answered, every
      question is answered once the lead form shows, and no stored answer
      is empty. */
  predicate FlowInvariant(qs: seq<Question>, f: Flow) {
    && 0 <= f.index < |qs|
    && (f.step == QuestionsStep ==> forall j :: 0 <= j < f.index ==> Answered(f.answers, qs[j].id))
    && (f.step == LeadCaptureStep ==> forall j :: 0 <= j < |qs| ==> Answered(f.answers, qs[j].id))
    && (f.step == LandingStep || f.step == QuestionsStep || f.step == LeadCaptureStep)
    && forall k :: k in f.answers ==> f.answers[k] != ""
  }

  lemma InitialInvariant(qs: seq<Question>)
    requires |qs| > 0
    ensures FlowInvariant(qs, InitialFlow)
  {
  }

  lemma AnswerKeepsInvariant(qs: seq<Question>, secs: seq<Section>, f: Flow, v: string)
    requires WellFormed(qs, secs) && FlowInvariant(qs, f)
    requires Enabled(qs, f, AnswerEvent(v))
    ensures FlowInvariant(qs, Apply(qs, f, AnswerEvent(v)))
  {
    var q := qs[f.index];
    var j :| 0 <= j < |q.options| && q.options[j].value == v;
    assert ValidQuestion(q, SectionIds(secs));
    assert ValidOption(q.options[j]);
    var g := Apply(qs, f, AnswerEvent(v));
    forall k | k in g.answers ensures g.answers[k] != "" {
      if k != q.id { assert k in f.answers; }
    }
  }

  lemma NextKeepsInvariant(qs: seq<Question>, f: Flow)
    requires FlowInvariant(qs, f) && Enabled(qs, f, NextEvent)
    ensures FlowInvariant(qs, Apply(qs, f, NextEvent))
  {
    var g := Apply(qs, f, NextEvent);
    assert forall j :: 0 <= j < f.index + 1 ==> Answered(f.answers, qs[j].id) by {
      assert Answered(f.answers, qs[f.index].id);
    }
    if g.step == LeadCaptureStep {
      assert f.index + 1 == |qs|;
    }
  }

  /** Every enabled event keeps the invariant. */
  lemma StepKeepsInvariant(qs: seq<Question>, secs: seq<Section>, f: Flow, e: Event)
    requires WellFormed(qs, secs) && FlowInvariant(qs, f)
    requires Enabled(qs, f, e)
    ensures FlowInvariant(qs, Apply(qs, f, e))
  {
    match e
    case AnswerEvent(v) => AnswerKeepsInvariant(qs, secs, f, v);
    case NextEvent => NextKeepsInvariant(qs, f);
    case StartEvent =>
    case PreviousEvent =>
  }

  lemma {:induction false} RunKeepsInvariant(qs: seq<Question>, secs: seq<Section>, f: Flow, es: seq<Event>)
    requires WellFormed(qs, secs) && FlowInvariant(qs, f)
    requires Run(qs, f, es).Some?
    ensures FlowInvariant(qs, Run(qs, f, es).value)
    decreases es
  {
    if es != [] {
      StepKeepsInvariant(qs, secs, f, es[0]);
      RunKeepsInvariant(qs, secs, Apply(qs, f, es[0]), es[1..]);
    }
  }

  /** Answers are never removed: a question answered before a run is still
      answered after it. */
  lemma {:induction false} RunKeepsAnswers(qs: seq<Question>, secs: seq<Section>, f: Flow, es: seq<Event>, id: string)
    requires WellFormed(qs, secs) && FlowInvariant(qs, f)
    requires Run(qs, f, es).Some? && Answered(f.answers, id)
    ensures Answered(Run(qs, f, es).value.answers, id)
    decreases es
  {
    if es != [] {
      StepKeepsInvariant(qs, secs, f, es[0]);
      var g := Apply(qs, f, es[0]);
      assert Answered(g.answers, id) by {
        if es[0].AnswerEvent? && id == qs[f.index].id {
          assert g.answers[id] in g.answers.Values;
        }
      }
      RunKeepsAnswers(qs, secs, g, es[1..], id);
    }
  }

  /** Whatever the user does, the lead form shows only once every catalog
      question has an answer. */
  lemma LeadCaptureAllAnswered(es: seq<Event>)
    requires Run(Questions, InitialFlow, es).Some?
    requires Run(Questions, InitialFlow, es).value.step == LeadCaptureStep
    ensures forall j :: 0 <= j < |Questions| ==> Answered(Run(Questions, InitialFlow, es).value.answers, Questions[j].id)
  {
    CatalogWellFormed();
    InitialInvariant(Questions);
    RunKeepsInvariant(Questions, Sections, InitialFlow, es);
  }

  // ---------------------------------------------------------------------
  // Answer texts

  /** The text sent for one answered question: the selected option's label,
      or the stored value itself when it matches no option. */
  function AnswerText(q: Question, answers: Answers): (t: string)
    requires Answered(answers, q.id)
    ensures Selected(q, answers).Some? ==> t == Selected(q, answers).value.caption
    ensures Selected(q, answers).None? ==> t == answers[q.id]
  {
    match FindOption(q.options, answers[q.id])
    case Some(o) => o.caption
    case None => answers[q.id]
  }

  /** `buildAnswerTexts()`: one entry per question of `qs` with a truthy
      answer, later questions overwriting earlier ones with the same id. */
  function AnswerTexts(qs: seq<Question>, answers: Answers): (r: map<string, string>)
    ensures forall k :: k in r <==> exists i :: 0 <= i < |qs| && qs[i].id == k && Answered(answers, k)
  {
    if qs == [] then map[]
    else
      var init := qs[..|qs| - 1];
      var q := qs[|qs| - 1];
      var m := AnswerTexts(init, answers);
      assert forall k :: k in m <==> exists i :: 0 <= i < |init| && init[i].id == k && Answered(answers, k);
      assert forall i :: 0 <= i < |init| ==> init[i] == qs[i];
      if Answered(answers, q.id) then m[q.id := AnswerText(q, answers)] else m
  }

  /** The entry of a question whose id no later question repeats is its own
      answer text. */
  lemma {:induction false} AnswerTextsValue(qs: seq<Question>, answers: Answers, i: int)
    requires 0 <= i < |qs| && Answered(answers, qs[i].id)
    requires forall j :: i < j < |qs| ==> qs[j].id != qs[i].id
    ensures qs[i].id in AnswerTexts(qs, answers)
    ensures AnswerTexts(qs, answers)[qs[i].id] == AnswerText(qs[i], answers)
  {
    var init := qs[..|qs| - 1];
    if i < |qs| - 1 {
      assert init[i] == qs[i];
      AnswerTextsValue(init, answers, i);
    }
  }

  /** Over the catalog (distinct ids), the map holds, for every answered
      question, the label of the selected option or the raw value. */
  lemma CatalogAnswerTexts(answers: Answers, i: int)
    requires 0 <= i < |Questions| && Answered(answers, Questions[i].id)
    ensures Questions[i].id in AnswerTexts(Questions, answers)
    ensures AnswerTexts(Questions, answers)[Questions[i].id] == AnswerText(Questions[i], answers)
  {
    CatalogWellFormed();
    forall j | i < j < |Questions| ensures Questions[j].id != Questions[i].id {
      QuestionIdsDistinct(Questions, Sections, i, j);
    }
    AnswerTextsValue(Questions, answers, i);
  }

  // ---------------------------------------------------------------------
  // Submit payload and fallback teaser

  datatype UserInfo = UserInfo(firstName: string, lastName: string, email: Option<string>, company: string,
                               size: Option<string>, industry: Option<string>, canton: Option<string>)

  /** `score: { value, normalized, level }`, normalized in tenths. */
  datatype ScoreInfo = ScoreInfo(value: int, normalizedTenths: int, level: string)

  datatype Payload = Payload(user: UserInfo, answers: map<string, string>, score: ScoreInfo, hasEmail: bool)

  /** `s || null` for a text field. */
  function OrNull(s: string): (r: Option<string>)
    ensures r.None? <==> s == ""
    ensures r.Some? ==> r.value == s
  {
    if s == "" then None else Some(s)
  }

  /** The payload `handleSubmit` builds for the analysis. */
  function BuildPayload(form: FormData, answers: Answers): (p: Payload)
    ensures p.score.value == Score(answers).raw
    ensures p.score.normalizedTenths == Score(answers).normalizedTenths
    ensures p.score.level == LevelName(Score(answers).riskLevel)
    ensures p.answers == AnswerTexts(Questions, answers)
    ensures p.hasEmail <==> form.email != ""
    ensures p.user.email.None? <==> form.email == ""
    ensures p.user.firstName == form.firstName && p.user.lastName == form.lastName
    ensures p.user.company == form.companyName
    ensures p.user.email == OrNull(form.email) && p.user.size == OrNull(form.companySize)
    ensures p.user.industry == OrNull(form.industry) && p.user.canton == OrNull(form.canton)
  {
    var s := Score(answers);
    Payload(UserInfo(form.firstName, form.lastName, OrNull(form.email), form.companyName,
                     OrNull(form.companySize), OrNull(form.industry), OrNull(form.canton)),
            AnswerTexts(Questions, answers),
            ScoreInfo(s.raw, s.normalizedTenths, LevelName(s.riskLevel)),
            form.email != "")
  }

  /** The payload's level agrees with its raw value: red iff at least 28,
      orange iff 14 to 27, green iff at most 13; has_email agrees with the
      email field. */
  lemma PayloadConsistent(form: FormData, answers: Answers)
    ensures var p := BuildPayload(form, answers);
            && 0 <= p.score.value <= 45 && 0 <= p.score.normalizedTenths <= 100
            && (p.score.level == "red" <==> p.score.value >= 28)
            && (p.score.level == "orange" <==> 14 <= p.score.value <= 27)
            && (p.score.level == "green" <==> p.score.value <= 13)
            && (p.hasEmail <==> p.user.email.Some?)
  {
  }

  const TeaserPrefix := "Votre score est de "
  const TeaserSuffix := " Consultez votre email pour le rapport complet."

  function FallbackMessage(level: RiskLevel): string {
    match level
    case Green => "Vous êtes sur la bonne voie!"
    case Orange => "Des améliorations sont nécessaires."
    case Red => "Action urgente requise."
  }

  /** The teaser shown when the analysis fails: the score out of 10, the
      message of its level right after it, and a pointer to the email. */
  function FallbackTeaser(score: ScoreResult): (t: string)
    ensures TeaserPrefix + NumberText(score.normalizedTenths) + "/10. " <= t
    ensures OccursAt(t, match score.riskLevel
                        case Green => "Vous êtes sur la bonne voie!"
                        case Orange => "Des améliorations sont nécessaires."
                        case Red => "Action urgente requise.",
                     |TeaserPrefix + NumberText(score.normalizedTenths) + "/10. "|)
    ensures |t| >= |TeaserSuffix| && t[|t| - |TeaserSuffix|..] == TeaserSuffix
  {
    var head := TeaserPrefix + NumberText(score.normalizedTenths) + "/10. ";
    var t := head + FallbackMessage(score.riskLevel) + TeaserSuffix;
    assert t == head + (FallbackMessage(score.riskLevel) + TeaserSuffix);
    OccursBetween(head, FallbackMessage(score.riskLevel), TeaserSuffix);
    t
  }

  /** The three messages differ from their first letter on, so the teaser
      tells the levels apart for the same score. */
  lemma FallbackTeaserSeparatesLevels(a: ScoreResult, b: ScoreResult)
    requires a.normalizedTenths == b.normalizedTenths
    requires a.riskLevel != b.riskLevel
    ensures FallbackTeaser(a) != FallbackTeaser(b)
  {
  }

  /** The analysis record handed to `saveSubmission`; `None` is `null` or
      a missing field. */
  datatype SavedAnalysis = SavedAnalysis(teaser: string, leadTemperature: string,
                                         emailUser: Option<string>, emailSales: Option<string>)

  /** The record stored when the analysis fails: the fallback teaser and a
      fixed `WARM` temperature, whatever the level, and no emails. */
  function FallbackSave(score: ScoreResult): (r: SavedAnalysis)
    ensures r.teaser == FallbackTeaser(score)
    ensures r.leadTemperature == "WARM"
    ensures r.emailUser.None? && r.emailSales.None?
  {
    SavedAnalysis(FallbackTeaser(score), "WARM", None, None)
  }

  /** What `handleSubmit` leaves behind: the flow at the thank-you page, the
      score and priorities shown there, the payload and the teaser.
      `analysis` is the record the analysis resolved to, or None if it
      threw; `Analysis.SubmitWith` runs it on the built payload. */
  datatype Submission = Submission(flow: Flow, score: ScoreResult, priorities: seq<Priority>,
                                   payload: Payload, teaser: string, saved: SavedAnalysis)

  function Submit(f: Flow, form: FormData, analysis: Option<SavedAnalysis>): (s: Submission)
    ensures s.flow.step == ThankYouStep && s.flow.answers == f.answers
    ensures s.score == Score(f.answers) && s.priorities == TopPriorities(f.answers)
    ensures s.payload == BuildPayload(form, f.answers)
    ensures analysis.Some? ==> s.teaser == analysis.value.teaser && s.saved == analysis.value
    ensures analysis.None? ==> s.teaser == FallbackTeaser(s.score) && s.saved == FallbackSave(s.score)
  {
    var score := Score(f.answers);
    var saved := if analysis.Some? then analysis.value else FallbackSave(score);
    Submission(f.(step := ThankYouStep), score, TopPriorities(f.answers), BuildPayload(form, f.answers),
               saved.teaser, saved)
  }

  /** The score sent for analysis is the score shown on the thank-you page. */
  lemma SubmitScoreAgrees(f: Flow, form: FormData, analysis: Option<SavedAnalysis>)
    ensures var s := Submit(f, form, analysis);
            && s.payload.score.value == s.score.raw
            && s.payload.score.normalizedTenths == s.score.normalizedTenths
            && s.payload.score.level == LevelName(s.score.riskLevel)
  {
  }
}

=== FILE: json.dfy ===
/** JSON values as the program handles them after `JSON.parse`, with
    JavaScript truthiness and property lookup. Numbers are integers. */
module Json {
  datatype JsonValue =
    | JNull
    | JBool(b: bool)
    | JNumber(n: int)
    | JString(s: string)
    | JArray(items: seq<JsonValue>)
    | JObject(fields: map<string, JsonValue>)

  type Object = map<string, JsonValue>

  /** JavaScript truthiness: `null`, `false`, `0` and `""` are falsy. */
  predicate Truthy(v: JsonValue) {
    match v
    case JNull => false
    case JBool(b) => b
    case JNumber(n) => n != 0
    case JString(s) => s != ""
    case _ => true
  }

  /** `obj[key]`, a missing key reading as `null` (undefined and null are
      not told apart). */
  function Get(obj: Object, key: string): (v: JsonValue)
    ensures key !in obj ==> v == JNull
  {
    if key in obj then obj[key] else JNull
  }

  /** `a || b`. */
  function Or(a: JsonValue, b: JsonValue): (v: JsonValue)
    ensures Truthy(a) ==> v == a
    ensures !Truthy(a) ==> v == b
  {
    if Truthy(a) then a else b
  }
}

=== FILE: leadform.dfy ===
/** The lead-capture form: its data, the validation rules run on submit,
    and the field-change handler. */
module LeadForm {
  import opened Wrappers
  import opened Text

  /** The form's state object; every field but the consent box is text. */
  datatype FormData = FormData(firstName: string, lastName: string, email: string, companyName: string,
                               companySize: string, industry: string, canton: string,
                               consentMarketing: bool)

  const EmptyForm := FormData("", "", "", "", "", "", "", false)

  datatype Field = FirstName | LastName | Email | CompanyName | CompanySize | Industry | Canton
                 | ConsentMarketing

  /** What an input hands to `handleChange`: text, or the checkbox state. */
  datatype FieldValue = TextValue(text: string) | FlagValue(flag: bool)

  const FirstNameRequired := "Prénom requis"
  const EmailRequired := "Email requis"
  const EmailInvalid := "Email invalide"
  const ConsentRequired := "Vous devez accepter pour recevoir vos résultats"

  // ---------------------------------------------------------------------
  // The email pattern `^[^\s@]+@[^\s@]+\.[^\s@]+$`

  predicate NoSpace(s: string) {
    forall i :: 0 <= i < |s| ==> !IsJsSpace(s[i])
  }

  /** Positions `lo..hi-1` of `s` form a run matched by `[^\s@]*`. */
  predicate Plain(s: string, lo: int, hi: int)
    requires 0 <= lo <= hi <= |s|
  {
    forall i :: lo <= i < hi ==> !IsJsSpace(s[i]) && s[i] != '@'
  }

  /** `s` splits as three non-empty plain runs separated by an `@` at `at`
      and a `.` at `dot`. */
  predicate RegexSplit(s: string, at: int, dot: int) {
    && 0 < at && at + 1 < dot && dot + 1 < |s| && s[at] == '@' && s[dot] == '.'
    && Plain(s, 0, at) && Plain(s, at + 1, dot) && Plain(s, dot + 1, |s|)
  }

  /** The pattern read directly: some split exists (anchored at both ends). */
  predicate EmailRegex(s: string) {
    exists at, dot :: 0 < at < |s| && 0 < dot < |s| && RegexSplit(s, at, dot)
  }

  function CountChar(s: string, c: char): nat {
    if s == [] then 0 else CountChar(s[..|s| - 1], c) + (if s[|s| - 1] == c then 1 else 0)
  }

  /** The pattern described by shape: no whitespace, exactly one `@`, a
      non-empty local part, and a domain holding a `.` that is neither its
      first nor its last character. */
  predicate EmailShape(s: string) {
    && NoSpace(s)
    && CountChar(s, '@') == 1
    && exists at, dot :: 0 < at < |s| && 0 < dot < |s| && ShapeAt(s, at, dot)
  }

  /** An `@` at `at > 0` and a `.` strictly inside the domain after it. */
  predicate ShapeAt(s: string, at: int, dot: int) {
    0 < at && at + 1 < dot < |s| - 1 && s[at] == '@' && s[dot] == '.'
  }

  lemma {:induction false} CountAppend(a: string, b: string, c: char)
    ensures CountChar(a + b, c) == CountChar(a, c) + CountChar(b, c)
  {
    if b != [] {
      assert (a + b)[..|a + b| - 1] == a + b[..|b| - 1];
      CountAppend(a, b[..|b| - 1], c);
    } else {
      assert a + b == a;
    }
  }

  lemma {:induction false} CountZeroIff(s: string, c: char)
    ensures CountChar(s, c) == 0 <==> forall i :: 0 <= i < |s| ==> s[i] != c
  {
    if s != [] {
      CountZeroIff(s[..|s| - 1], c);
      if CountChar(s, c) == 0 {
        forall i | 0 <= i < |s| ensures s[i] != c {
          if i < |s| - 1 { assert s[i] == s[..|s| - 1][i]; }
        }
      }
    }
  }

  /** Two occurrences at different positions count at least twice. */
  lemma CountTwo(s: string, c: char, i: int, j: int)
    requires 0 <= i < j < |s| && s[i] == c && s[j] == c
    ensures CountChar(s, c) >= 2
  {
    assert s == s[..j] + s[j..];
    CountAppend(s[..j], s[j..], c);
    assert s[j..] == [c] + s[j + 1..];
    CountAppend([c], s[j + 1..], c);
    assert [c][..0] == [];
    assert s[..j][i] == c;
    CountZeroIff(s[..j], c);
  }

  lemma PlainNoCount(s: string, lo: int, hi: int)
    requires 0 <= lo <= hi <= |s| && Plain(s, lo, hi)
    ensures CountChar(s[lo..hi], '@') == 0
  {
    forall i | 0 <= i < hi - lo ensures s[lo..hi][i] != '@' {
      assert s[lo..hi][i] == s[lo + i];
    }
    CountZeroIff(s[lo..hi], '@');
  }

  /** Splitting the range `lo..hi` at `mid` splits its count. */
  lemma CountRange(s: string, lo: int, mid: int, hi: int, c: char)
    requires 0 <= lo <= mid <= hi <= |s|
    ensures CountChar(s[lo..hi], c) == CountChar(s[lo..mid], c) + CountChar(s[mid..hi], c)
  {
    assert s[lo..hi] == s[lo..mid] + s[mid..hi];
    CountAppend(s[lo..mid], s[mid..hi], c);
  }

  lemma CountOne(s: string, k: int, c: char)
    requires 0 <= k < |s|
    ensures CountChar(s[k..k + 1], c) == if s[k] == c then 1 else 0
  {
    assert s[k..k + 1][..0] == [];
  }

  lemma RegexCount(s: string, at: int, dot: int)
    requires RegexSplit(s, at, dot)
    ensures CountChar(s, '@') == 1
  {
    var n := |s|;
    assert CountChar(s[dot..n], '@') == 0 by {
      CountRange(s, dot, dot + 1, n, '@');
      CountOne(s, dot, '@');
      PlainNoCount(s, dot + 1, n);
    }
    assert CountChar(s[at + 1..n], '@') == 0 by {
      CountRange(s, at + 1, dot, n, '@');
      PlainNoCount(s, at + 1, dot);
    }
    assert CountChar(s[at..n], '@') == 1 by {
      CountRange(s, at, at + 1, n, '@');
      CountOne(s, at, '@');
    }
    assert CountChar(s[0..n], '@') == 1 by {
      CountRange(s, 0, at, n, '@');
      PlainNoCount(s, 0, at);
    }
    assert s[0..n] == s;
  }

  lemma RegexGivesShape(s: string)
    requires EmailRegex(s)
    ensures EmailShape(s)
  {
    var at, dot :| RegexSplit(s, at, dot);
    assert RegexSplit(s, at, dot);
    RegexCount(s, at, dot);
    assert ShapeAt(s, at, dot);
  }

  lemma ShapeGivesRegex(s: string)
    requires EmailShape(s)
    ensures EmailRegex(s)
  {
    var at, dot :| ShapeAt(s, at, dot);
    assert ShapeAt(s, at, dot);
    forall i | 0 <= i < |s| && i != at ensures s[i] != '@' {
      if s[i] == '@' {
        if i < at { CountTwo(s, '@', i, at); } else { CountTwo(s, '@', at, i); }
      }
    }
    assert RegexSplit(s, at, dot);
  }

  /** The pattern and the shape description accept the same strings. */
  lemma EmailRegexIff(s: string)
    ensures EmailRegex(s) <==> EmailShape(s)
  {
    if EmailRegex(s) { RegexGivesShape(s); }
    if EmailShape(s) { ShapeGivesRegex(s); }
  }

  /** A scan deciding the pattern: one pass for whitespace and `@`, one for
      a `.` inside the domain. */
  method TestEmail(s: string) returns (ok: bool)
    ensures ok <==> EmailRegex(s)
  {
    var ats := 0;
    var at := 0;
    var spaced := false;
    var i := 0;
    while i < |s|
      invariant 0 <= i <= |s|
      invariant spaced <==> !NoSpace(s[..i])
      invariant ats == CountChar(s[..i], '@')
      invariant ats > 0 ==> 0 <= at < i && s[at] == '@'
    {
      assert s[..i + 1][..i] == s[..i];
      if IsJsSpace(s[i]) {
        spaced := true;
      }
      if s[i] == '@' {
        ats := ats + 1;
        at := i;
      }
      i := i + 1;
    }
    assert s[..i] == s;
    EmailRegexIff(s);
    if spaced || ats != 1 || at == 0 {
      if ats == 1 && at == 0 && !spaced {
        forall a | 0 < a < |s| ensures s[a] != '@' {
          if s[a] == '@' { CountTwo(s, '@', 0, a); }
        }
      }
      return false;
    }
    var found := false;
    var j := at + 2;
    while j < |s| - 1 && !found
      invariant at + 2 <= j
      invariant found ==> ShapeAt(s, at, j)
      invariant !found ==> forall d :: at + 1 < d < j && d < |s| - 1 ==> s[d] != '.'
      decreases |s| - j, if found then 0 else 1
    {
      if s[j] == '.' {
        found := true;
      } else {
        j := j + 1;
      }
    }
    if !found {
      forall a, d | ShapeAt(s, a, d) ensures false {
        if a != at {
          if a < at { CountTwo(s, '@', a, at); } else { CountTwo(s, '@', at, a); }
        }
      }
    }
    ok := found;
  }

  /** A string the pattern accepts is never blank, so `Email requis` and
      `Email invalide` are the only outcomes for a bad email. */
  lemma RegexNotBlank(s: string)
    requires EmailRegex(s)
    ensures !AllSpace(s)
  {
    var at, dot :| RegexSplit(s, at, dot);
    assert RegexSplit(s, at, dot);
    assert !IsJsSpace(s[at]);
  }

  /** The pattern is tested on the untrimmed text: whitespace at either end
      is rejected even though the blank check trims. */
  lemma PaddedEmailRejected(s: string)
    requires |s| > 0 && (IsJsSpace(s[0]) || IsJsSpace(s[|s| - 1]))
    ensures !EmailRegex(s)
  {
    if EmailRegex(s) {
      RegexGivesShape(s);
    }
  }

  // ---------------------------------------------------------------------
  // Validation

  /** The first-name rule: required, blank counting as missing. */
  function FirstNameError(name: string): (r: Option<string>)
    ensures r.Some? <==> AllSpace(name)
    ensures r.Some? ==> r.value == FirstNameRequired
  {
    TrimEmptyIff(name);
    if Trim(name) == [] then Some(FirstNameRequired) else None
  }

  /** The email rule: blank is `Email requis`; otherwise the untrimmed text
      must match the pattern or it is `Email invalide`. */
  function EmailError(email: string): (r: Option<string>)
    ensures r.Some? <==> AllSpace(email) || !EmailRegex(email)
    ensures r == Some(EmailRequired) <==> AllSpace(email)
    ensures r.Some? ==> r.value in {EmailRequired, EmailInvalid}
  {
    TrimEmptyIff(email);
    if Trim(email) == [] then Some(EmailRequired)
    else if !EmailRegex(email) then Some(EmailInvalid)
    else None
  }

  function ConsentError(consent: bool): (r: Option<string>)
    ensures r.Some? <==> !consent
    ensures r.Some? ==> r.value == ConsentRequired
  {
    if consent then None else Some(ConsentRequired)
  }

  /** Records `e` under `field` when it is present. */
  function AddError(errors: map<Field, string>, field: Field, e: Option<string>): map<Field, string> {
    match e
    case Some(m) => errors[field := m]
    case None => errors
  }

  /** `validateForm`'s error map: exactly the three rules' errors; the other
      fields never produce one. */
  function Validate(f: FormData): (errors: map<Field, string>)
    ensures FirstName in errors <==> FirstNameError(f.firstName).Some?
    ensures Email in errors <==> EmailError(f.email).Some?
    ensures ConsentMarketing in errors <==> ConsentError(f.consentMarketing).Some?
    ensures forall k :: k in errors ==> k in {FirstName, Email, ConsentMarketing}
    ensures FirstName in errors ==> errors[FirstName] == FirstNameError(f.firstName).value
    ensures Email in errors ==> errors[Email] == EmailError(f.email).value
    ensures ConsentMarketing in errors ==> errors[ConsentMarketing] == ConsentError(f.consentMarketing).value
  {
    var e1 := AddError(map[], FirstName, FirstNameError(f.firstName));
    var e2 := AddError(e1, Email, EmailError(f.email));
    AddError(e2, ConsentMarketing, ConsentError(f.consentMarketing))
  }

  /** `validateForm()`'s result: no key in the error map. */
  predicate Valid(f: FormData) {
    Validate(f) == map[]
  }

  /** A form is valid exactly when the first name is not blank, the email
      has the accepted shape, and consent is given. */
  lemma ValidIff(f: FormData)
    ensures Valid(f) <==> !AllSpace(f.firstName) && EmailShape(f.email) && f.consentMarketing
  {
    EmailRegexIff(f.email);
    var e := Validate(f);
    if !AllSpace(f.firstName) && EmailShape(f.email) && f.consentMarketing {
      RegexNotBlank(f.email);
      assert e.Keys == {};
    } else if !Valid(f) {
      assert e.Keys != {};
    }
  }

  /** Last name, company, size, industry and canton never produce errors. */
  lemma OptionalFieldsIgnored(f: FormData, g: FormData)
    requires f.firstName == g.firstName && f.email == g.email && f.consentMarketing == g.consentMarketing
    ensures Validate(f) == Validate(g)
  {
  }

  // ---------------------------------------------------------------------
  // Component state

  /** The form and its displayed errors; `handleChange` sets a cleared
      error to `undefined`, which is `None` here. */
  datatype LeadState = LeadState(form: FormData, errors: map<Field, Option<string>>)

  const InitialLead := LeadState(EmptyForm, map[])

  /** Whether `v` is the kind of value `field`'s input produces. */
  predicate Fits(field: Field, v: FieldValue) {
    if field == ConsentMarketing then v.FlagValue? else v.TextValue?
  }

  function Get(f: FormData, field: Field): (v: FieldValue)
    ensures Fits(field, v)
  {
    match field
    case FirstName => TextValue(f.firstName)
    case LastName => TextValue(f.lastName)
    case Email => TextValue(f.email)
    case CompanyName => TextValue(f.companyName)
    case CompanySize => TextValue(f.companySize)
    case Industry => TextValue(f.industry)
    case Canton => TextValue(f.canton)
    case ConsentMarketing => FlagValue(f.consentMarketing)
  }

  /** `{ ...prev, [field]: value }`. */
  function Set(f: FormData, field: Field, v: FieldValue): (r: FormData)
    requires Fits(field, v)
    ensures Get(r, field) == v
    ensures forall g :: g != field ==> Get(r, g) == Get(f, g)
  {
    match field
    case FirstName => f.(firstName := v.text)
    case LastName => f.(lastName := v.text)
    case Email => f.(email := v.text)
    case CompanyName => f.(companyName := v.text)
    case CompanySize => f.(companySize := v.text)
    case Industry => f.(industry := v.text)
    case Canton => f.(canton := v.text)
    case ConsentMarketing => f.(consentMarketing := v.flag)
  }

  /** `errors[field]` is truthy: a non-empty message is shown. */
  predicate HasError(errors: map<Field, Option<string>>, field: Field) {
    field in errors && errors[field].Some? && errors[field].value != ""
  }

  /** `handleChange(field, value)`: the field takes the value, and its error,
      if one is shown, is cleared; nothing else changes. */
  function HandleChange(st: LeadState, field: Field, v: FieldValue): (r: LeadState)
    requires Fits(field, v)
    ensures Get(r.form, field) == v
    ensures forall g :: g != field ==> Get(r.form, g) == Get(st.form, g)
    ensures !HasError(r.errors, field)
    ensures HasError(st.errors, field) ==> field in r.errors && r.errors[field] == None
    ensures !HasError(st.errors, field) ==> r.errors == st.errors
    ensures forall g :: g != field ==> (g in r.errors <==> g in st.errors)
    ensures forall g :: g != field && g in st.errors ==> r.errors[g] == st.errors[g]
  {
    var form := Set(st.form, field, v);
    if HasError(st.errors, field) then LeadState(form, st.errors[field := None])
    else LeadState(form, st.errors)
  }

  /** The errors `setErrors(newErrors)` displays. */
  function Displayed(errors: map<Field, string>): map<Field, Option<string>> {
    map k | k in errors :: Some(errors[k])
  }

  datatype SubmitResult = SubmitResult(state: LeadState, submitted: Option<FormData>)

  /** `handleSubmit`: validation replaces the shown errors, and the form is
      handed on only when there are none. */
  function HandleSubmit(st: LeadState): (r: SubmitResult)
    ensures r.state.form == st.form
    ensures r.submitted.Some? <==> Valid(st.form)
    ensures r.submitted.Some? ==> r.submitted.value == st.form
    ensures forall g :: HasError(r.state.errors, g) <==> g in Validate(st.form)
  {
    var errors := Validate(st.form);
    var shown := LeadState(st.form, Displayed(errors));
    if errors == map[] then SubmitResult(shown, Some(st.form)) else SubmitResult(shown, None)
  }

  /** A submitted form has a non-blank first name, an email of the accepted
      shape (with no surrounding whitespace) and consent given. */
  lemma SubmittedFormValid(st: LeadState)
    requires HandleSubmit(st).submitted.Some?
    ensures var f := HandleSubmit(st).submitted.value;
            !AllSpace(f.firstName) && EmailShape(f.email) && NoSpace(f.email) && f.consentMarketing
  {
    ValidIff(st.form);
  }
}

=== FILE: progressbar.dfy ===
/** The section indicators of the questionnaire's progress bar: which question
    numbers belong to a section, how many of them are answered, whether the
    section is complete and whether it holds the current question. */
module ProgressBar {
  import opened Seqs
  import opened Catalog
  import Scoring

  /** The hard-wired band of 0-based question indices a section id covers;
      an id the bar does not know covers nothing. */
  predicate InBand(sectionId: string, index: int) {
    if sectionId == "access" then index < 3
    else if sectionId == "protection" then 3 <= index < 6
    else if sectionId == "subcontractors" then 6 <= index < 8
    else if sectionId == "rights" then 8 <= index < 11
    else if sectionId == "incidents" then index >= 11
    else false
  }

  /** The question numbers `1 .. total`. */
  function Numbers(total: nat): (r: seq<nat>)
    ensures |r| == total
    ensures forall i :: 0 <= i < total ==> r[i] == i + 1
  {
    seq(total, i => i + 1)
  }

  /** The numbers of the questions whose 0-based index lies in the section's band. */
  function SectionQuestions(sectionId: string, total: nat): seq<nat> {
    Filter(Numbers(total), (n: nat) => InBand(sectionId, n - 1))
  }

  /** First index of a known section's band. */
  function BandStart(sectionId: string): nat {
    if sectionId == "access" then 0
    else if sectionId == "protection" then 3
    else if sectionId == "subcontractors" then 6
    else if sectionId == "rights" then 8
    else 11
  }

  /** One past the last index of a known section's band, cut at `total`. */
  function BandEnd(sectionId: string, total: nat): nat {
    var end := if sectionId == "access" then 3
      else if sectionId == "protection" then 6
      else if sectionId == "subcontractors" then 8
      else if sectionId == "rights" then 11
      else total;
    if end < total then end else total
  }

  /** The consecutive numbers `lo + 1 .. hi` (empty when `hi <= lo`). */
  function Consecutive(lo: nat, hi: nat): (r: seq<nat>)
    ensures |r| == if hi <= lo then 0 else hi - lo
  {
    if hi <= lo then [] else seq(hi - lo, i => lo + 1 + i)
  }

  /** Filtering `1 .. total` with a test that, up to `total`, accepts exactly
      `lo + 1 .. hi` leaves those consecutive numbers. */
  lemma {:induction false} FilterInterval(lo: nat, hi: nat, total: nat, p: nat -> bool)
    requires forall n: nat :: 1 <= n <= total ==> (p(n) <==> lo < n <= hi)
    ensures Filter(Numbers(total), p) == Consecutive(lo, if hi < total then hi else total)
  {
    if total == 0 {
      assert Numbers(0) == [];
    } else {
      var t := total - 1;
      FilterInterval(lo, hi, t, p);
      assert Numbers(total) == Numbers(t) + [total];
      FilterAppend(Numbers(t), [total], p);
      assert Filter([total], p) == if p(total) then [total] else [] by {
        assert [total][1..] == [];
      }
      if p(total) {
        ConsecutiveSnoc(lo, t);
      } else if lo < total {
        assert hi <= t;
      }
    }
  }

  lemma ConsecutiveSnoc(lo: nat, hi: nat)
    requires lo <= hi
    ensures Consecutive(lo, hi + 1) == Consecutive(lo, hi) + [hi + 1]
  {
  }

  /** A known section's questions are exactly the consecutive numbers of its band. */
  lemma SectionQuestionsConsecutive(sectionId: string, total: nat)
    requires sectionId in CatalogSectionIds
    ensures SectionQuestions(sectionId, total) == Consecutive(BandStart(sectionId), BandEnd(sectionId, total))
  {
    var p := (n: nat) => InBand(sectionId, n - 1);
    if sectionId == "access" { FilterInterval(0, 3, total, p); }
    else if sectionId == "protection" { FilterInterval(3, 6, total, p); }
    else if sectionId == "subcontractors" { FilterInterval(6, 8, total, p); }
    else if sectionId == "rights" { FilterInterval(8, 11, total, p); }
    else { FilterInterval(11, total, total, p); }
  }

  /** An id the bar does not know has no questions. */
  lemma UnknownSectionEmpty(sectionId: string, total: nat)
    requires sectionId !in CatalogSectionIds
    ensures SectionQuestions(sectionId, total) == []
  {
  }

  /** Every index belongs to the band of exactly one known section. */
  lemma BandsPartition(index: nat)
    ensures exists s :: s in CatalogSectionIds && InBand(s, index)
    ensures forall a, b :: a in CatalogSectionIds && b in CatalogSectionIds && InBand(a, index) && InBand(b, index) ==> a == b
  {
    if index < 3 { assert InBand("access", index); }
    else if index < 6 { assert InBand("protection", index); }
    else if index < 8 { assert InBand("subcontractors", index); }
    else if index < 11 { assert InBand("rights", index); }
    else { assert InBand("incidents", index); }
  }

  /** With the fifteen questions of the catalog the five indicators show 3, 3,
      2, 3 and 4 questions. */
  lemma CatalogSectionSizes()
    ensures |SectionQuestions("access", 15)| == 3
    ensures |SectionQuestions("protection", 15)| == 3
    ensures |SectionQuestions("subcontractors", 15)| == 2
    ensures |SectionQuestions("rights", 15)| == 3
    ensures |SectionQuestions("incidents", 15)| == 4
  {
    SectionQuestionsConsecutive("access", 15);
    SectionQuestionsConsecutive("protection", 15);
    SectionQuestionsConsecutive("subcontractors", 15);
    SectionQuestionsConsecutive("rights", 15);
    SectionQuestionsConsecutive("incidents", 15);
  }

  /** Whatever the number of questions, the five indicators together count each
      question once. */
  lemma SectionTotalsSum(total: nat)
    ensures |SectionQuestions("access", total)| + |SectionQuestions("protection", total)|
          + |SectionQuestions("subcontractors", total)| + |SectionQuestions("rights", total)|
          + |SectionQuestions("incidents", total)| == total
  {
    SectionQuestionsConsecutive("access", total);
    SectionQuestionsConsecutive("protection", total);
    SectionQuestionsConsecutive("subcontractors", total);
    SectionQuestionsConsecutive("rights", total);
    SectionQuestionsConsecutive("incidents", total);
  }

  /** The hard-wired bands agree with the section each catalog question names. */
  lemma BandsMatchCatalog()
    ensures forall i :: 0 <= i < |Questions| ==> InBand(Questions[i].sectionId, i)
  {
    forall i | 0 <= i < |Questions|
      ensures InBand(Questions[i].sectionId, i)
    {
      if i < 8 { BandsMatchCatalogLow(i); } else { BandsMatchCatalogHigh(i); }
    }
  }

  lemma BandsMatchCatalogLow(i: nat)
    requires i < 8
    ensures InBand(Questions[i].sectionId, i)
  {
    if i == 0 { assert Questions[i] == Q1; }
    else if i == 1 { assert Questions[i] == Q2; }
    else if i == 2 { assert Questions[i] == Q3; }
    else if i == 3 { assert Questions[i] == Q4; }
    else if i == 4 { assert Questions[i] == Q5; }
    else if i == 5 { assert Questions[i] == Q6; }
    else if i == 6 { assert Questions[i] == Q7; }
    else { assert Questions[i] == Q8; }
  }

  lemma BandsMatchCatalogHigh(i: nat)
    requires 8 <= i < 15
    ensures InBand(Questions[i].sectionId, i)
  {
    if i == 8 { assert Questions[i] == Q9; }
    else if i == 9 { assert Questions[i] == Q10; }
    else if i == 10 { assert Questions[i] == Q11; }
    else if i == 11 { assert Questions[i] == Q12; }
    else if i == 12 { assert Questions[i] == Q13; }
    else if i == 13 { assert Questions[i] == Q14; }
    else { assert Questions[i] == Q15; }
  }

  /** Upper bound of the current-question test; unknown ids share the last band's. */
  function CurrentUpper(sectionId: string): int {
    if sectionId == "access" then 3
    else if sectionId == "protection" then 6
    else if sectionId == "subcontractors" then 8
    else if sectionId == "rights" then 11
    else 15
  }

  /** Lower bound (exclusive) of the current-question test. */
  function CurrentLower(sectionId: string): int {
    if sectionId == "access" then 0
    else if sectionId == "protection" then 3
    else if sectionId == "subcontractors" then 6
    else if sectionId == "rights" then 8
    else 11
  }

  /** What one indicator shows. */
  datatype SectionProgress = SectionProgress(total: nat, answered: nat, isComplete: bool, isCurrent: bool)

  /** The questions of a list that carry a truthy answer. */
  function AnsweredAmong(numbers: seq<nat>, answers: Answers): seq<nat> {
    Filter(numbers, (n: nat) => Scoring.Answered(answers, QuestionId(n)))
  }

  /** `getSectionProgress(sectionId)` for a bar showing question `current` of `total`. */
  function GetSectionProgress(sectionId: string, current: int, total: nat, answers: Answers): (r: SectionProgress)
    ensures r.total == |SectionQuestions(sectionId, total)|
    ensures r.answered <= r.total
    ensures r.answered == |Filter(SectionQuestions(sectionId, total), (n: nat) => Scoring.Answered(answers, QuestionId(n)))|
    ensures r.isComplete <==> forall n :: n in SectionQuestions(sectionId, total) ==> Scoring.Answered(answers, QuestionId(n))
    ensures sectionId in CatalogSectionIds && 1 <= current <= 15 ==> (r.isCurrent <==> InBand(sectionId, current - 1))
    ensures current <= 0 || current > 15 ==> !r.isCurrent
    ensures sectionId !in CatalogSectionIds ==> (r.isCurrent <==> 11 < current <= 15)
  {
    var questions := SectionQuestions(sectionId, total);
    var answered := AnsweredAmong(questions, answers);
    FilterKeepsAllIff(questions, (n: nat) => Scoring.Answered(answers, QuestionId(n)));
    SectionProgress(
      |questions|,
      |answered|,
      |answered| == |questions|,
      current > 0 && current <= CurrentUpper(sectionId) && current > CurrentLower(sectionId))
  }

  /** For a question number of the catalog exactly one known section is
      highlighted: the one the question belongs to. */
  lemma CurrentSectionIsQuestionsSection(current: int, total: nat, answers: Answers)
    requires 1 <= current <= |Questions|
    ensures GetSectionProgress(Questions[current - 1].sectionId, current, total, answers).isCurrent
    ensures forall s :: s in CatalogSectionIds && GetSectionProgress(s, current, total, answers).isCurrent ==>
              s == Questions[current - 1].sectionId
  {
    BandsMatchCatalog();
    BandsPartition(current - 1);
    var own := Questions[current - 1].sectionId;
    assert InBand(own, current - 1);
    assert own in CatalogSectionIds;
  }

  /** An id the bar does not know shows 0 of 0 and therefore counts as
      complete; it falls into the last band of the current-question test,
      so it is marked current on questions 12 to 15. */
  lemma UnknownSectionShowsComplete(sectionId: string, current: int, total: nat, answers: Answers)
    requires sectionId !in CatalogSectionIds
    ensures GetSectionProgress(sectionId, current, total, answers).total == 0
    ensures GetSectionProgress(sectionId, current, total, answers).isComplete
    ensures GetSectionProgress(sectionId, current, total, answers).isCurrent <==> 11 < current <= 15
  {
    UnknownSectionEmpty(sectionId, total);
  }
}

=== FILE: resultspreview.dfy ===
/** The results preview: the score message chosen by percentage band and
    greeting the user by first name, the risk card chosen by level, the
    teaser shown, and the value handed to the gauge. */
module ResultsPreview {
  import opened Text
  import Scoring
  import Analysis
  import opened ScoreGauge

  /** `Math.round(normalized * 10)` for a score with one decimal, given as
      its count of tenths. */
  function Percentage(normalizedTenths: int): (p: int)
    ensures p == normalizedTenths
  {
    JsRound((normalizedTenths as real / 10.0) * 10.0)
  }

  /** The three score messages. */
  datatype Band = Congratulate | Caution | Alarm

  /** The message band of a percentage. */
  function MessageBand(percentage: int): (b: Band)
    ensures b == Congratulate <==> percentage >= 70
    ensures b == Caution <==> 31 <= percentage < 70
    ensures b == Alarm <==> percentage < 31
  {
    if percentage >= 70 then Congratulate else if percentage >= 31 then Caution else Alarm
  }

  /** The name as the message shows it: a space and the first name, or
      nothing for an empty first name. */
  function NameSuffix(firstName: string): (s: string)
    ensures s == "" <==> firstName == ""
    ensures s != "" ==> s[0] == ' ' && s[1..] == firstName
  {
    if firstName != "" then " " + firstName else ""
  }

  /** An integer as a template literal renders it. */
  function IntText(n: int): string {
    if n < 0 then "-" + NatToString(-n) else NatToString(n)
  }

  /** The word that opens each message. */
  function Lead(b: Band): string {
    match b
    case Congratulate => "Bravo"
    case Caution => ""
    case Alarm => "Attention"
  }

  /** The text between the name and the percentage. */
  function Middle(b: Band): string {
    match b
    case Congratulate => "! Votre organisation obtient un score de "
    case Caution => "Votre organisation obtient un score de "
    case Alarm => "! Votre organisation présente un score de "
  }

  const CongratulateTail := ", ce qui indique une bonne maîtrise des aspects fondamentaux de la protection des données. Toutefois, quelques améliorations peuvent encore être apportées pour atteindre une conformité optimale."
  const CautionTail := ". Des lacunes significatives ont été identifiées dans votre dispositif de conformité nLPD. Des mesures correctives prioritaires sont nécessaires pour réduire les risques juridiques et protéger vos données sensibles."
  const AlarmTail := ", révélant des failles critiques dans votre conformité nLPD. Sans action rapide, vous vous exposez à des sanctions pouvant atteindre CHF 250'000, ainsi qu'à des risques majeurs pour vos données et votre réputation."

  /** The text after the percent sign. */
  function Tail(b: Band): string {
    match b
    case Congratulate => CongratulateTail
    case Caution => CautionTail
    case Alarm => AlarmTail
  }

  /** Every message reads: lead, name, middle, percentage, percent sign, tail. */
  function Filled(lead: string, name: string, middle: string, percentage: string, tail: string): string {
    lead + name + middle + percentage + "%" + tail
  }

  /** The message for a score and a first name, with the text after the
      percent sign given per band. */
  function MessageWith(normalizedTenths: int, firstName: string, tails: Band -> string): string {
    var p := Percentage(normalizedTenths);
    var b := MessageBand(p);
    Filled(Lead(b), if b == Caution then "" else NameSuffix(firstName), Middle(b), IntText(p), tails(b))
  }

  /** `getScoreMessage(score, firstName)`; the middle message never names
      the user. */
  function ScoreMessage(normalizedTenths: int, firstName: string): string {
    MessageWith(normalizedTenths, firstName, Tail)
  }

  /** A filled message starts with its lead, the name and the first
      character of the middle, and shows the percentage followed by the
      percent sign. */
  lemma FilledShows(lead: string, name: string, middle: string, percentage: string, tail: string)
    requires middle != ""
    ensures var m := Filled(lead, name, middle, percentage, tail);
            && lead + name + [middle[0]] <= m
            && OccursAt(m, percentage + "%", |lead| + |name| + |middle|)
  {
    var m := Filled(lead, name, middle, percentage, tail);
    assert m == (lead + name + [middle[0]]) + (middle[1..] + percentage + "%" + tail);
    assert m == (lead + name + middle) + (percentage + "%") + tail;
    OccursBetween(lead + name + middle, percentage + "%", tail);
  }

  /** How a message starts: its lead, the name where it shows one, and the
      first character after them; and it shows the percentage. */
  lemma MessageStart(normalizedTenths: int, firstName: string, tails: Band -> string)
    ensures var b := MessageBand(normalizedTenths);
            var name := if b == Caution then "" else NameSuffix(firstName);
            && Lead(b) + name + [Middle(b)[0]] <= MessageWith(normalizedTenths, firstName, tails)
            && Contains(MessageWith(normalizedTenths, firstName, tails), IntText(normalizedTenths) + "%")
  {
    var b := MessageBand(normalizedTenths);
    var name := if b == Caution then "" else NameSuffix(firstName);
    FilledShows(Lead(b), name, Middle(b), IntText(normalizedTenths), tails(b));
  }

  /** Whatever follows the percent sign, the message shows the percentage;
      the first and last bands greet the user by first name, preceded by a
      space, and the middle one does not depend on the name. */
  lemma MessageWithShows(normalizedTenths: int, firstName: string, tails: Band -> string)
    ensures Contains(MessageWith(normalizedTenths, firstName, tails), IntText(normalizedTenths) + "%")
    ensures MessageBand(normalizedTenths) == Congratulate ==>
              "Bravo" + NameSuffix(firstName) + "!" <= MessageWith(normalizedTenths, firstName, tails)
    ensures MessageBand(normalizedTenths) == Alarm ==>
              "Attention" + NameSuffix(firstName) + "!" <= MessageWith(normalizedTenths, firstName, tails)
    ensures MessageBand(normalizedTenths) == Caution ==>
              MessageWith(normalizedTenths, firstName, tails) == MessageWith(normalizedTenths, "", tails)
  {
    MessageStart(normalizedTenths, firstName, tails);
  }

  /** `getScoreMessage` shows the percentage, names the user in the first
      and last bands only, and then with a leading space. */
  lemma ScoreMessageShows(normalizedTenths: int, firstName: string)
    ensures Contains(ScoreMessage(normalizedTenths, firstName), IntText(normalizedTenths) + "%")
    ensures MessageBand(normalizedTenths) == Congratulate ==>
              "Bravo" + NameSuffix(firstName) + "!" <= ScoreMessage(normalizedTenths, firstName)
    ensures MessageBand(normalizedTenths) == Alarm ==>
              "Attention" + NameSuffix(firstName) + "!" <= ScoreMessage(normalizedTenths, firstName)
    ensures MessageBand(normalizedTenths) == Caution ==>
              ScoreMessage(normalizedTenths, firstName) == ScoreMessage(normalizedTenths, "")
  {
    MessageWithShows(normalizedTenths, firstName, Tail);
  }

  /** The band a message belongs to, read off its first word. */
  function BandOfMessage(m: string): Band {
    if "Bravo" <= m then Congratulate else if "Attention" <= m then Alarm else Caution
  }

  /** Whatever follows the percent sign, the message tells its band. */
  lemma MessageWithTellsBand(normalizedTenths: int, firstName: string, tails: Band -> string)
    ensures BandOfMessage(MessageWith(normalizedTenths, firstName, tails)) == MessageBand(normalizedTenths)
  {
    MessageStart(normalizedTenths, firstName, tails);
    var b := MessageBand(normalizedTenths);
    var m := MessageWith(normalizedTenths, firstName, tails);
    if b == Caution {
      assert m[0] == 'V';
    } else if b == Alarm {
      assert m[0] == 'A';
    }
  }

  /** The message tells its band. */
  lemma MessageTellsBand(normalizedTenths: int, firstName: string)
    ensures BandOfMessage(ScoreMessage(normalizedTenths, firstName)) == MessageBand(normalizedTenths)
  {
    MessageWithTellsBand(normalizedTenths, firstName, Tail);
  }

  // ---------------------------------------------------------------------
  // The risk card

  /** One entry of `scoreConfig`. */
  datatype Config = Config(color: string, title: string, bgColor: string, borderColor: string, textColor: string)

  const GreenConfig := Config("success", "Bonne conformité", "bg-success/10", "border-success/30", "text-success")
  const OrangeConfig := Config("warning", "Vigilance requise", "bg-warning/10", "border-warning/30", "text-warning")
  const RedConfig := Config("danger", "Attention requise", "bg-danger/10", "border-danger/30", "text-danger")

  /** `scoreConfig[score.riskLevel] || scoreConfig.orange`. */
  function ConfigFor(riskLevel: string): (c: Config)
    ensures c in {GreenConfig, OrangeConfig, RedConfig}
  {
    if riskLevel == "green" then GreenConfig
    else if riskLevel == "red" then RedConfig
    else OrangeConfig
  }

  /** Each of the three levels gets its own card, and any other level falls
      back to the orange card, as the fallback teaser falls back to the
      orange text. */
  lemma ConfigMatchesLevel(level: Scoring.RiskLevel, other: string)
    ensures ConfigFor(Scoring.LevelName(level)).color ==
              match level case Green => "success" case Orange => "warning" case Red => "danger"
    ensures other !in {"green", "orange", "red"} ==> ConfigFor(other) == ConfigFor("orange")
    ensures ConfigFor(other) == ConfigFor(Analysis.TeaserLevel(other))
  {
  }

  /** The risk card tells the level apart: two levels with the same card are
      the same level. */
  lemma ConfigDistinguishesLevels(a: Scoring.RiskLevel, b: Scoring.RiskLevel)
    ensures ConfigFor(Scoring.LevelName(a)) == ConfigFor(Scoring.LevelName(b)) ==> a == b
  {
  }

  const DefaultTeaser := "Votre diagnostic révèle plusieurs points d'attention. La bonne nouvelle : des solutions existent pour sécuriser votre conformité nLPD."

  /** What the teaser card shows: the teaser, or a default for an empty one. */
  function ShownTeaser(teaser: string): (s: string)
    ensures s != ""
    ensures teaser != "" ==> s == teaser
  {
    if teaser != "" then teaser else DefaultTeaser
  }

  // ---------------------------------------------------------------------
  // The gauge

  /** `score.normalized * 10`, the value handed to the gauge. */
  function GaugeInput(normalizedTenths: int): (x: real)
    ensures x == normalizedTenths as real
  {
    (normalizedTenths as real / 10.0) * 10.0
  }

  /** The gauge and the message agree: the gauge shows the percentage
      (clamped to [0, 100]) in the colour of the message band. */
  lemma GaugeAgreesWithMessage(normalizedTenths: int)
    ensures var p := Percentage(normalizedTenths);
            DisplayedValue(GaugeInput(normalizedTenths)) == if p < 0 then 0 else if p > 100 then 100 else p
    ensures GaugeColour(GaugeInput(normalizedTenths)) ==
              match MessageBand(Percentage(normalizedTenths))
              case Congratulate => Success
              case Caution => Warning
              case Alarm => Danger
  {
    IntegerInputShown(normalizedTenths);
  }

  /** Over the catalog's maximum raw sum of 45, the green level is exactly
      the congratulating message, and the alarming message only comes with
      the red level. */
  lemma LevelAndMessageBands(raw: int)
    requires 0 <= raw <= 45
    ensures var r := Scoring.ResultFor(raw, 45);
            r.riskLevel == Scoring.Green <==> MessageBand(Percentage(r.normalizedTenths)) == Congratulate
    ensures var r := Scoring.ResultFor(raw, 45);
            MessageBand(Percentage(r.normalizedTenths)) == Alarm ==> r.riskLevel == Scoring.Red
  {
    assert Scoring.ResultFor(13, 45).normalizedTenths == 71;
    assert Scoring.ResultFor(14, 45).normalizedTenths == 69;
    assert Scoring.ResultFor(31, 45).normalizedTenths == 31;
    if raw <= 13 {
      Scoring.ResultMonotone(raw, 13, 45);
    } else {
      Scoring.ResultMonotone(14, raw, 45);
    }
    if raw <= 31 {
      Scoring.ResultMonotone(raw, 31, 45);
    }
  }

  /** The converse fails: a raw sum of 28 is red, yet its message and gauge
      are the orange ones, since those bands start at 31 percent while the
      red level ends at 40. */
  lemma RedLevelWithCautionMessage()
    ensures var r := Scoring.ResultFor(28, 45);
            && r.riskLevel == Scoring.Red && r.normalizedTenths == 38
            && MessageBand(Percentage(r.normalizedTenths)) == Caution
            && GaugeColour(GaugeInput(r.normalizedTenths)) == Warning
  {
    assert Scoring.ResultFor(28, 45).normalizedTenths == 38;
  }
}

=== FILE: scoregauge.dfy ===
/** The score gauge: the clamp of its input to [0, 100], the colour band
    and the rounded number it displays. Numbers are exact reals. */
module ScoreGauge {

  /** `Math.round(x)`: the nearest integer, halves rounded up. */
  function JsRound(x: real): (n: int)
    ensures n as real - 0.5 <= x < n as real + 0.5
  {
    (x + 0.5).Floor
  }

  /** Rounding never moves a number past an integer it lies above or below. */
  lemma JsRoundMonotone(x: real, y: real)
    requires x <= y
    ensures JsRound(x) <= JsRound(y)
  {
  }

  /** `Math.min(Math.max(score, 0), 100)`. */
  function Clamp(x: real): (c: real)
    ensures 0.0 <= c <= 100.0
    ensures 0.0 <= x <= 100.0 ==> c == x
    ensures x < 0.0 ==> c == 0.0
    ensures x > 100.0 ==> c == 100.0
  {
    var atLeastZero := if x > 0.0 then x else 0.0;
    if atLeastZero < 100.0 then atLeastZero else 100.0
  }

  /** Clamping a clamped value changes nothing. */
  lemma ClampIdempotent(x: real)
    ensures Clamp(Clamp(x)) == Clamp(x)
  {
  }

  /** A larger input is never clamped to a smaller value. */
  lemma ClampMonotone(x: real, y: real)
    requires x <= y
    ensures Clamp(x) <= Clamp(y)
  {
  }

  /** The three gauge colours. */
  datatype Colour = Success | Warning | Danger

  /** The colour's CSS value. */
  function Hex(c: Colour): string {
    match c
    case Success => "#10b981"
    case Warning => "#f59e0b"
    case Danger => "#ef4444"
  }

  /** `getScoreColor(score)`. */
  function ScoreColour(x: real): (c: Colour)
    ensures c == Success <==> x >= 70.0
    ensures c == Warning <==> 31.0 <= x < 70.0
    ensures c == Danger <==> x < 31.0
  {
    if x >= 70.0 then Success else if x >= 31.0 then Warning else Danger
  }

  /** How good a colour is: red 0, orange 1, green 2. */
  function Rank(c: Colour): nat {
    match c
    case Danger => 0
    case Warning => 1
    case Success => 2
  }

  /** The colour of the gauge for an input. */
  function GaugeColour(score: real): Colour {
    ScoreColour(Clamp(score))
  }

  /** Different colours have different CSS values. */
  lemma HexInjective(a: Colour, b: Colour)
    ensures Hex(a) == Hex(b) ==> a == b
  {
  }

  /** A higher input never gets a worse colour. */
  lemma ColourMonotone(x: real, y: real)
    requires x <= y
    ensures Rank(GaugeColour(x)) <= Rank(GaugeColour(y))
  {
    ClampMonotone(x, y);
  }

  /** Clamping never changes the colour band: the bands of the raw input
      and of the clamped one agree. */
  lemma ClampKeepsColour(x: real)
    ensures GaugeColour(x) == ScoreColour(x)
  {
  }

  /** The number shown under the gauge, `Math.round(normalizedScore)`. */
  function DisplayedValue(score: real): (n: int)
    ensures 0 <= n <= 100
    ensures n as real - 0.5 <= Clamp(score) < n as real + 0.5
  {
    JsRound(Clamp(score))
  }

  /** For an integer input the shown number is the input clamped to
      [0, 100], and its colour band is that of the shown number. */
  lemma IntegerInputShown(k: int)
    ensures DisplayedValue(k as real) == if k < 0 then 0 else if k > 100 then 100 else k
    ensures GaugeColour(k as real) == ScoreColour(DisplayedValue(k as real) as real)
  {
  }

  /** For fractional inputs the shown number and the colour can disagree:
      69.5 shows as 70 but is drawn orange. */
  lemma RoundedNumberCanCrossBand()
    ensures DisplayedValue(69.5) == 70 && GaugeColour(69.5) == Warning
    ensures ScoreColour(DisplayedValue(69.5) as real) == Success
  {
  }
}

=== FILE: scoring.dfy ===
/** The scoring engine: `calculateScore` turns a partial answer map into a
    raw penalty sum, a 0..10 compliance score with one decimal, and a risk
    level; `getTopPriorities` lists the three most severe answered items. */
module Scoring {
  import opened Wrappers
  import opened Catalog
  import Seqs

  datatype RiskLevel = Red | Orange | Green

  /** The string the rest of the program sees (`score.level`). */
  function LevelName(level: RiskLevel): (s: string)
    ensures s in {"red", "orange", "green"}
  {
    match level
    case Red => "red"
    case Orange => "orange"
    case Green => "green"
  }

  lemma LevelNameInjective(a: RiskLevel, b: RiskLevel)
    ensures LevelName(a) == LevelName(b) ==> a == b
  {
  }

  /** `normalizedTenths` is `normalized * 10`: the score 9.1 is 91. */
  datatype ScoreResult = ScoreResult(raw: int, normalizedTenths: int, riskLevel: RiskLevel)

  /** `if (answer)`: the key is present and its value is not the empty string. */
  predicate Answered(answers: Answers, id: string) {
    id in answers && answers[id] != ""
  }

  /** `options.find(opt => opt.value === value)`: the first option with that value. */
  function FindOption(opts: seq<AnswerOption>, value: string): (r: Option<AnswerOption>)
    ensures r.None? <==> forall i :: 0 <= i < |opts| ==> opts[i].value != value
    ensures r.Some? ==> exists i :: 0 <= i < |opts| && opts[i] == r.value && opts[i].value == value
                                   && forall j :: 0 <= j < i ==> opts[j].value != value
  {
    if opts == [] then None
    else if opts[0].value == value then Some(opts[0])
    else
      var r := FindOption(opts[1..], value);
      assert r.Some? ==> exists i :: 0 <= i < |opts| && opts[i] == r.value && opts[i].value == value
                                     && forall j :: 0 <= j < i ==> opts[j].value != value by {
        if r.Some? {
          var i :| 0 <= i < |opts[1..]| && opts[1..][i] == r.value && opts[1..][i].value == value
                   && forall j :: 0 <= j < i ==> opts[1..][j].value != value;
          assert opts[i + 1] == r.value;
          forall j | 0 <= j < i + 1 ensures opts[j].value != value {
            if j > 0 { assert opts[j] == opts[1..][j - 1]; }
          }
        }
      }
      r
  }

  /** With distinct option values, the option found for `o.value` is `o`. */
  lemma FindDistinct(opts: seq<AnswerOption>, i: int)
    requires DistinctValues(opts)
    requires 0 <= i < |opts|
    ensures FindOption(opts, opts[i].value) == Some(opts[i])
  {
  }

  /** The option the answer map selects for `q`, if any: missing and empty
      answers and values matching no option select nothing. */
  function Selected(q: Question, answers: Answers): (r: Option<AnswerOption>)
    ensures r.Some? <==> Answered(answers, q.id)
                         && exists i :: 0 <= i < |q.options| && q.options[i].value == answers[q.id]
    ensures r.Some? ==> r.value in q.options && r.value.value == answers[q.id]
  {
    if Answered(answers, q.id) then FindOption(q.options, answers[q.id]) else None
  }

  /** What one question adds to the raw score. */
  function Contribution(q: Question, answers: Answers): int {
    match Selected(q, answers)
    case Some(o) => o.score
    case None => 0
  }

  predicate ScoresInRange(qs: seq<Question>) {
    forall i, j :: 0 <= i < |qs| && 0 <= j < |qs[i].options| ==>
      0 <= qs[i].options[j].score <= MaxOptionScore
  }

  lemma WellFormedScoresInRange(qs: seq<Question>, secs: seq<Section>)
    requires WellFormed(qs, secs)
    ensures ScoresInRange(qs)
  {
    forall i, j | 0 <= i < |qs| && 0 <= j < |qs[i].options|
      ensures 0 <= qs[i].options[j].score <= MaxOptionScore
    {
      assert ValidQuestion(qs[i], SectionIds(secs));
      assert ValidOption(qs[i].options[j]);
    }
  }

  /** The raw score: the sum of the contributions of the questions. */
  function RawScore(qs: seq<Question>, answers: Answers): (r: int)
    ensures ScoresInRange(qs) ==> 0 <= r <= MaxOptionScore * |qs|
  {
    if qs == [] then 0
    else
      var init := qs[..|qs| - 1];
      assert ScoresInRange(qs) ==> ScoresInRange(init) by {
        forall i | 0 <= i < |init| ensures init[i] == qs[i] { }
      }
      RawScore(init, answers) + Contribution(qs[|qs| - 1], answers)
  }

  /** The unrounded compliance score `((max - raw) / max) * 10`. */
  function Unrounded(raw: int, maxScore: int): real
    requires maxScore > 0
  {
    ((maxScore - raw) as real / maxScore as real) * 10.0
  }

  /** The risk level of an unrounded score. */
  function RiskFor(x: real): (level: RiskLevel)
    ensures level == Red <==> x < 4.0
    ensures level == Orange <==> 4.0 <= x < 7.0
    ensures level == Green <==> 7.0 <= x
  {
    if x < 4.0 then Red else if x < 7.0 then Orange else Green
  }

  /** `Math.round(x * 10)`, in tenths: the nearest integer, halves rounded up. */
  function RoundToTenths(x: real): (t: int)
    ensures t as real <= x * 10.0 + 0.5 < t as real + 1.0
  {
    (x * 10.0 + 0.5).Floor
  }

  /** The score result for a raw sum out of `maxScore`; risk uses the
      unrounded score. */
  function ResultFor(raw: int, maxScore: int): ScoreResult
    requires maxScore > 0
  {
    var x := Unrounded(raw, maxScore);
    ScoreResult(raw, RoundToTenths(x), RiskFor(x))
  }

  /** A raw sum between 0 and the maximum gives a score between 0 and 10. */
  lemma ResultBounds(raw: int, maxScore: int)
    requires 0 <= raw <= maxScore && maxScore > 0
    ensures 0 <= ResultFor(raw, maxScore).normalizedTenths <= 100
  {
    var q := (maxScore - raw) as real / maxScore as real;
    assert q * maxScore as real == (maxScore - raw) as real;
    assert 0.0 <= q <= 1.0;
  }

  /** A higher raw sum never gives a higher compliance score nor a better
      risk level. */
  lemma ResultMonotone(raw1: int, raw2: int, maxScore: int)
    requires maxScore > 0 && raw1 <= raw2
    ensures ResultFor(raw2, maxScore).normalizedTenths <= ResultFor(raw1, maxScore).normalizedTenths
    ensures ResultFor(raw1, maxScore).riskLevel == Red ==> ResultFor(raw2, maxScore).riskLevel == Red
    ensures ResultFor(raw2, maxScore).riskLevel == Green ==> ResultFor(raw1, maxScore).riskLevel == Green
  {
    var m := maxScore as real;
    var q1 := (maxScore - raw1) as real / m;
    var q2 := (maxScore - raw2) as real / m;
    assert q1 * m == (maxScore - raw1) as real;
    assert q2 * m == (maxScore - raw2) as real;
    assert q2 <= q1;
  }

  /** The score over any non-empty question list: `maxScore` is three per
      question, answered or not. */
  function ScoreWith(qs: seq<Question>, answers: Answers): (r: ScoreResult)
    requires |qs| > 0
    ensures r.raw == RawScore(qs, answers)
    ensures ScoresInRange(qs) ==> 0 <= r.normalizedTenths <= 100
  {
    var raw := RawScore(qs, answers);
    assert ScoresInRange(qs) ==> 0 <= ResultFor(raw, MaxOptionScore * |qs|).normalizedTenths <= 100 by {
      if ScoresInRange(qs) {
        ResultBounds(raw, MaxOptionScore * |qs|);
      }
    }
    ResultFor(raw, MaxOptionScore * |qs|)
  }

  /** `calculateScore(answers)` over the shipped catalog. For its 15 questions
      (maximum 45) the bands are: red iff raw >= 28, orange iff
      14 <= raw <= 27 (raw 27 is exactly 4.0), green iff raw <= 13. */
  function Score(answers: Answers): (r: ScoreResult)
    ensures r.raw == RawScore(Questions, answers)
    ensures 0 <= r.raw <= 45
    ensures 0 <= r.normalizedTenths <= 100
    ensures r.riskLevel == Red <==> r.raw >= 28
    ensures r.riskLevel == Orange <==> 14 <= r.raw <= 27
    ensures r.riskLevel == Green <==> r.raw <= 13
  {
    CatalogWellFormed();
    WellFormedScoresInRange(Questions, Sections);
    ScoreWith(Questions, answers)
  }

  /** The loop of `calculateScore` over any non-empty question list: one
      pass accumulating the total and the maximum, then normalisation and
      banding. */
  method CalculateScoreOver(qs: seq<Question>, answers: Answers) returns (r: ScoreResult)
    requires |qs| > 0
    ensures r == ScoreWith(qs, answers)
  {
    var totalScore := 0;
    var maxScore := 0;
    var i := 0;
    while i < |qs|
      invariant 0 <= i <= |qs|
      invariant totalScore == RawScore(qs[..i], answers)
      invariant maxScore == MaxOptionScore * i
    {
      assert qs[..i + 1][..i] == qs[..i];
      totalScore := totalScore + Contribution(qs[i], answers);
      maxScore := maxScore + MaxOptionScore;
      i := i + 1;
    }
    assert qs[..i] == qs;
    var normalized := Unrounded(totalScore, maxScore);
    var riskLevel := Green;
    if normalized < 4.0 {
      riskLevel := Red;
    } else if normalized < 7.0 {
      riskLevel := Orange;
    }
    r := ScoreResult(totalScore, RoundToTenths(normalized), riskLevel);
  }

  /** `calculateScore(answers)` over the shipped catalog. */
  method CalculateScore(answers: Answers) returns (r: ScoreResult)
    ensures r == Score(answers)
    ensures r.normalizedTenths == RoundToTenths(((45 - r.raw) as real / 45.0) * 10.0)
  {
    CatalogWellFormed();
    r := CalculateScoreOver(Questions, answers);
  }

  // ---------------------------------------------------------------------
  // Properties of the raw sum

  /** The raw sum depends only on what each question selects. */
  lemma {:induction false} RawScoreCongruent(qs: seq<Question>, a: Answers, b: Answers)
    requires forall i :: 0 <= i < |qs| ==> Selected(qs[i], a) == Selected(qs[i], b)
    ensures RawScore(qs, a) == RawScore(qs, b)
  {
    if qs != [] {
      var init := qs[..|qs| - 1];
      forall i | 0 <= i < |init| ensures Selected(init[i], a) == Selected(init[i], b) {
        assert init[i] == qs[i];
      }
      RawScoreCongruent(init, a, b);
    }
  }

  /** Raising contributions pointwise never lowers the raw sum. */
  lemma {:induction false} RawScoreMonotone(qs: seq<Question>, a: Answers, b: Answers)
    requires forall i :: 0 <= i < |qs| ==> Contribution(qs[i], a) <= Contribution(qs[i], b)
    ensures RawScore(qs, a) <= RawScore(qs, b)
  {
    if qs != [] {
      var init := qs[..|qs| - 1];
      forall i | 0 <= i < |init| ensures Contribution(init[i], a) <= Contribution(init[i], b) {
        assert init[i] == qs[i];
      }
      RawScoreMonotone(init, a, b);
    }
  }

  /** When no question contributes, the raw sum is 0. */
  lemma {:induction false} RawScoreNone(qs: seq<Question>, a: Answers)
    requires forall i :: 0 <= i < |qs| ==> Contribution(qs[i], a) == 0
    ensures RawScore(qs, a) == 0
  {
    if qs != [] {
      var init := qs[..|qs| - 1];
      forall i | 0 <= i < |init| ensures Contribution(init[i], a) == 0 {
        assert init[i] == qs[i];
      }
      RawScoreNone(init, a);
    }
  }

  /** When every question contributes the maximum 3, the raw sum is the maximum. */
  lemma {:induction false} RawScoreFull(qs: seq<Question>, a: Answers)
    requires forall i :: 0 <= i < |qs| ==> Contribution(qs[i], a) == MaxOptionScore
    ensures RawScore(qs, a) == MaxOptionScore * |qs|
  {
    if qs != [] {
      var init := qs[..|qs| - 1];
      forall i | 0 <= i < |init| ensures Contribution(init[i], a) == MaxOptionScore {
        assert init[i] == qs[i];
      }
      RawScoreFull(init, a);
    }
  }

  /** A key that is no question's id, whatever its value, changes nothing. */
  lemma ForeignKeyIgnoredWith(qs: seq<Question>, answers: Answers, key: string, value: string)
    requires forall i :: 0 <= i < |qs| ==> qs[i].id != key
    ensures RawScore(qs, answers[key := value]) == RawScore(qs, answers)
    ensures RawScore(qs, answers - {key}) == RawScore(qs, answers)
  {
    RawScoreCongruent(qs, answers[key := value], answers);
    RawScoreCongruent(qs, answers - {key}, answers);
  }

  lemma ForeignKeyIgnored(answers: Answers, key: string, value: string)
    requires forall i :: 0 <= i < |Questions| ==> Questions[i].id != key
    ensures Score(answers[key := value]) == Score(answers)
    ensures Score(answers - {key}) == Score(answers)
  {
    ForeignKeyIgnoredWith(Questions, answers, key, value);
  }

  /** The empty answer map scores as fully compliant: raw 0, 10.0, green. */
  lemma EmptyAnswersScoreGreen()
    ensures Score(map[]) == ScoreResult(0, 100, Green)
  {
    RawScoreNone(Questions, map[]);
  }

  /** Answering every question with a score-0 option gives the same result
      as answering nothing. */
  lemma AllCompliantScoresGreen(answers: Answers)
    requires forall i :: 0 <= i < |Questions| ==> Contribution(Questions[i], answers) == 0
    ensures Score(answers) == ScoreResult(0, 100, Green)
  {
    RawScoreNone(Questions, answers);
  }

  /** Answering every question with a score-3 option gives raw 45, 0.0, red. */
  lemma AllSevereScoresRed(answers: Answers)
    requires forall i :: 0 <= i < |Questions| ==> Contribution(Questions[i], answers) == MaxOptionScore
    ensures Score(answers) == ScoreResult(45, 0, Red)
  {
    RawScoreFull(Questions, answers);
  }

  /** Replacing the answer to question `i` by an option scoring at least as
      much as the current contribution never lowers the raw sum. */
  lemma RaiseOneAnswerWith(qs: seq<Question>, secs: seq<Section>, answers: Answers, i: int, j: int)
    requires WellFormed(qs, secs)
    requires 0 <= i < |qs| && 0 <= j < |qs[i].options|
    requires qs[i].options[j].score >= Contribution(qs[i], answers)
    ensures RawScore(qs, answers[qs[i].id := qs[i].options[j].value]) >= RawScore(qs, answers)
  {
    var q := qs[i];
    var o := q.options[j];
    var b := answers[q.id := o.value];
    forall k | 0 <= k < |qs|
      ensures Contribution(qs[k], answers) <= Contribution(qs[k], b)
    {
      if k == i {
        assert ValidQuestion(q, SectionIds(secs));
        FindDistinct(q.options, j);
      } else {
        QuestionIdsDistinct(qs, secs, i, k);
        assert Selected(qs[k], b) == Selected(qs[k], answers);
      }
    }
    RawScoreMonotone(qs, answers, b);
  }

  /** Over the catalog: raising one answer never lowers `raw`, never raises
      `normalized`, and a red result stays red. */
  lemma RaiseOneAnswer(answers: Answers, i: int, j: int)
    requires 0 <= i < |Questions| && 0 <= j < |Questions[i].options|
    requires Questions[i].options[j].score >= Contribution(Questions[i], answers)
    ensures var after := Score(answers[Questions[i].id := Questions[i].options[j].value]);
            && after.raw >= Score(answers).raw
            && after.normalizedTenths <= Score(answers).normalizedTenths
            && (Score(answers).riskLevel == Red ==> after.riskLevel == Red)
  {
    CatalogWellFormed();
    var b := answers[Questions[i].id := Questions[i].options[j].value];
    RaiseOneAnswerWith(Questions, Sections, answers, i, j);
    ResultMonotone(RawScore(Questions, answers), RawScore(Questions, b), 45);
  }

  // ---------------------------------------------------------------------
  // Priorities

  /** One flagged item: the question text, its section's title (absent if
      the section id is unknown), the selected score and its feedback. */
  datatype Priority = Priority(question: string, section: Option<string>, score: int, feedback: Feedback)

  const PriorityThreshold := 2
  const PriorityLimit := 3

  function PriorityFor(q: Question, secs: seq<Section>, o: AnswerOption): Priority {
    Priority(q.text, SectionTitle(secs, q.sectionId), o.score, o.feedback)
  }

  /** `p` is the priority that question `q` yields under `answers`. */
  predicate FromQuestion(p: Priority, q: Question, secs: seq<Section>, answers: Answers) {
    && Selected(q, answers).Some?
    && Selected(q, answers).value.score >= PriorityThreshold
    && p == PriorityFor(q, secs, Selected(q, answers).value)
  }

  /** What one question pushes: its priority if answered with a score of 2
      or more, nothing otherwise. */
  function PushedBy(q: Question, secs: seq<Section>, answers: Answers): (r: seq<Priority>)
    ensures |r| <= 1
    ensures r != [] <==> Selected(q, answers).Some? && Selected(q, answers).value.score >= PriorityThreshold
    ensures r != [] ==> FromQuestion(r[0], q, secs, answers)
  {
    match Selected(q, answers)
    case Some(o) => if o.score >= PriorityThreshold then [PriorityFor(q, secs, o)] else []
    case None => []
  }

  /** The `forEach`/`push` pass: one priority per answered question whose
      selected option scores at least 2, in catalog order. */
  function Qualifying(qs: seq<Question>, secs: seq<Section>, answers: Answers): (r: seq<Priority>)
    ensures |r| <= |qs|
  {
    if qs == [] then [] else PushedBy(qs[0], secs, answers) + Qualifying(qs[1..], secs, answers)
  }

  /** `p` is yielded by some question of `qs`. */
  predicate FromSome(p: Priority, qs: seq<Question>, secs: seq<Section>, answers: Answers) {
    exists i :: 0 <= i < |qs| && FromQuestion(p, qs[i], secs, answers)
  }

  /** Every pushed priority comes from a question that yields it. */
  lemma {:induction false} QualifyingSound(qs: seq<Question>, secs: seq<Section>, answers: Answers)
    ensures forall p :: p in Qualifying(qs, secs, answers) ==> FromSome(p, qs, secs, answers)
  {
    if qs != [] {
      QualifyingSound(qs[1..], secs, answers);
      var head := PushedBy(qs[0], secs, answers);
      var rest := Qualifying(qs[1..], secs, answers);
      assert Qualifying(qs, secs, answers) == head + rest;
      forall p | p in head + rest ensures FromSome(p, qs, secs, answers) {
        if p in head {
          assert FromQuestion(p, qs[0], secs, answers);
        } else {
          var i :| 0 <= i < |qs[1..]| && FromQuestion(p, qs[1..][i], secs, answers);
          assert FromQuestion(p, qs[i + 1], secs, answers);
        }
      }
    } else {
      assert Qualifying(qs, secs, answers) == [];
    }
  }

  /** Every question that yields a priority has it pushed. */
  lemma {:induction false} QualifyingComplete(qs: seq<Question>, secs: seq<Section>, answers: Answers, i: int)
    requires 0 <= i < |qs|
    requires Selected(qs[i], answers).Some? && Selected(qs[i], answers).value.score >= PriorityThreshold
    ensures PriorityFor(qs[i], secs, Selected(qs[i], answers).value) in Qualifying(qs, secs, answers)
  {
    if i > 0 {
      assert qs[i] == qs[1..][i - 1];
      QualifyingComplete(qs[1..], secs, answers, i - 1);
    }
  }

  predicate SortedByScore(ps: seq<Priority>) {
    forall i, j :: 0 <= i < j < |ps| ==> ps[i].score >= ps[j].score
  }

  /** Inserts `p` before the first element scoring no more than it, which
      keeps equal scores in their original order. */
  function Insert(p: Priority, s: seq<Priority>): (r: seq<Priority>)
    ensures multiset(r) == multiset(s) + multiset{p}
  {
    if s == [] || s[0].score <= p.score then [p] + s
    else
      assert s == [s[0]] + s[1..];
      [s[0]] + Insert(p, s[1..])
  }

  lemma {:induction false} InsertKeepsSorted(p: Priority, s: seq<Priority>)
    requires SortedByScore(s)
    ensures SortedByScore(Insert(p, s))
  {
    if s != [] && s[0].score > p.score {
      var rest := Insert(p, s[1..]);
      InsertKeepsSorted(p, s[1..]);
      forall j | 0 <= j < |rest| ensures rest[j].score <= s[0].score {
        assert rest[j] in multiset(rest);
        if rest[j] != p {
          assert rest[j] in multiset(s[1..]);
          var k :| 0 <= k < |s[1..]| && s[1..][k] == rest[j];
          assert s[k + 1] == rest[j];
        }
      }
      var r := [s[0]] + rest;
      forall i, j | 0 <= i < j < |r| ensures r[i].score >= r[j].score {
        assert r[j] == rest[j - 1];
        if i > 0 { assert r[i] == rest[i - 1]; }
      }
    }
  }

  /** `priorities.sort((a, b) => b.score - a.score)`: a stable sort by
      decreasing score (ECMAScript 2019 requires `sort` to be stable). */
  function SortByScore(ps: seq<Priority>): (r: seq<Priority>)
    ensures multiset(r) == multiset(ps)
    ensures SortedByScore(r)
  {
    if ps == [] then []
    else
      assert ps == [ps[0]] + ps[1..];
      InsertKeepsSorted(ps[0], SortByScore(ps[1..]));
      Insert(ps[0], SortByScore(ps[1..]))
  }

  /** The elements of `ps` scoring exactly `k`, in order. */
  function WithScore(ps: seq<Priority>, k: int): (r: seq<Priority>)
    ensures forall i :: 0 <= i < |r| ==> r[i].score == k
  {
    if ps == [] then []
    else if ps[0].score == k then [ps[0]] + WithScore(ps[1..], k)
    else WithScore(ps[1..], k)
  }

  lemma {:induction false} InsertWithScore(p: Priority, s: seq<Priority>, k: int)
    requires SortedByScore(s)
    ensures WithScore(Insert(p, s), k) == if p.score == k then [p] + WithScore(s, k) else WithScore(s, k)
  {
    if s == [] || s[0].score <= p.score {
      assert Insert(p, s)[1..] == s;
    } else {
      InsertWithScore(p, s[1..], k);
      assert Insert(p, s)[1..] == Insert(p, s[1..]);
    }
  }

  /** Stability: for every score, the items with that score appear in the
      sorted list in exactly their original order. */
  lemma {:induction false} SortIsStable(ps: seq<Priority>, k: int)
    ensures WithScore(SortByScore(ps), k) == WithScore(ps, k)
  {
    if ps != [] {
      SortIsStable(ps[1..], k);
      InsertWithScore(ps[0], SortByScore(ps[1..]), k);
    }
  }

  lemma {:induction false} InsertAfterHigher(p: Priority, hi: seq<Priority>, lo: seq<Priority>)
    requires forall i :: 0 <= i < |hi| ==> hi[i].score > p.score
    requires lo == [] || lo[0].score <= p.score
    ensures Insert(p, hi + lo) == hi + [p] + lo
  {
    if hi != [] {
      assert (hi + lo)[1..] == hi[1..] + lo;
      InsertAfterHigher(p, hi[1..], lo);
    }
  }

  /** When every score is 2 or 3, the stable sort is: all 3s in original
      order, then all 2s in original order. */
  lemma {:induction false} SortTwoBands(ps: seq<Priority>)
    requires forall i :: 0 <= i < |ps| ==> ps[i].score == 2 || ps[i].score == 3
    ensures SortByScore(ps) == WithScore(ps, 3) + WithScore(ps, 2)
  {
    if ps != [] {
      SortTwoBands(ps[1..]);
      InsertIntoBands(ps[0], WithScore(ps[1..], 3), WithScore(ps[1..], 2));
    }
  }

  /** Inserting a 3 or a 2 into "3s then 2s" puts it at the head of its band. */
  lemma InsertIntoBands(p: Priority, threes: seq<Priority>, twos: seq<Priority>)
    requires p.score == 2 || p.score == 3
    requires forall i :: 0 <= i < |threes| ==> threes[i].score == 3
    requires forall i :: 0 <= i < |twos| ==> twos[i].score == 2
    ensures Insert(p, threes + twos) == (if p.score == 3 then [p] + threes else threes)
                                        + (if p.score == 2 then [p] + twos else twos)
  {
    if p.score == 3 {
      if threes != [] { assert (threes + twos)[0] == threes[0]; }
      else if twos != [] { assert (threes + twos)[0] == twos[0]; }
    } else {
      InsertAfterHigher(p, threes, twos);
    }
  }

  /** The first `n` items of the sorted list: min(n, |all|) of them, still
      sorted, each an item of the input. */
  lemma TakeSorted(all: seq<Priority>, n: nat)
    ensures |Seqs.Take(SortByScore(all), n)| == if |all| < n then |all| else n
    ensures SortedByScore(Seqs.Take(SortByScore(all), n))
    ensures forall k :: 0 <= k < |Seqs.Take(SortByScore(all), n)| ==> Seqs.Take(SortByScore(all), n)[k] in all
  {
    var sorted := SortByScore(all);
    var r := Seqs.Take(sorted, n);
    assert |sorted| == |all| by {
      assert |multiset(sorted)| == |multiset(all)|;
    }
    forall k | 0 <= k < |r| ensures r[k] in all {
      assert r[k] == sorted[k];
      assert sorted[k] in multiset(sorted);
    }
    forall i, j | 0 <= i < j < |r| ensures r[i].score >= r[j].score {
      assert r[i] == sorted[i] && r[j] == sorted[j];
    }
  }

  /** `getTopPriorities` over any question and section lists: at most three
      items, sorted by decreasing score, each yielded by some question. */
  function TopPrioritiesWith(qs: seq<Question>, secs: seq<Section>, answers: Answers): (r: seq<Priority>)
    ensures |r| <= PriorityLimit
    ensures |r| == if |Qualifying(qs, secs, answers)| < PriorityLimit
                   then |Qualifying(qs, secs, answers)| else PriorityLimit
    ensures SortedByScore(r)
    ensures forall k :: 0 <= k < |r| ==> r[k].score >= PriorityThreshold && FromSome(r[k], qs, secs, answers)
  {
    var all := Qualifying(qs, secs, answers);
    QualifyingSound(qs, secs, answers);
    TakeSorted(all, PriorityLimit);
    Seqs.Take(SortByScore(all), PriorityLimit)
  }

  /** What a well-formed catalog guarantees of a yielded priority: a score of
      2 or 3, feedback that is not `success`, and a known section. */
  lemma YieldedValid(p: Priority, qs: seq<Question>, secs: seq<Section>, answers: Answers)
    requires WellFormed(qs, secs)
    requires FromSome(p, qs, secs, answers)
    ensures p.score == 2 || p.score == 3
    ensures p.feedback.kind != Success && p.section.Some?
  {
    var i :| 0 <= i < |qs| && FromQuestion(p, qs[i], secs, answers);
    var o := Selected(qs[i], answers).value;
    assert ValidQuestion(qs[i], SectionIds(secs));
    var j :| 0 <= j < |qs[i].options| && qs[i].options[j] == o;
    assert ValidOption(qs[i].options[j]);
  }

  /** `getTopPriorities(answers)` over the shipped catalog. */
  function TopPriorities(answers: Answers): (r: seq<Priority>)
    ensures |r| <= PriorityLimit
    ensures SortedByScore(r)
    ensures forall k :: 0 <= k < |r| ==> FromSome(r[k], Questions, Sections, answers)
    ensures forall k :: 0 <= k < |r| ==> r[k].score >= PriorityThreshold && r[k].feedback.kind != Success
    ensures forall k :: 0 <= k < |r| ==> r[k].section.Some?
  {
    var r := TopPrioritiesWith(Questions, Sections, answers);
    CatalogWellFormed();
    forall k | 0 <= k < |r| ensures r[k].feedback.kind != Success && r[k].section.Some? {
      YieldedValid(r[k], Questions, Sections, answers);
    }
    r
  }

  /** The top priorities are the first min(3, n) of: the score-3 items in
      catalog order followed by the score-2 items in catalog order. */
  lemma TopPrioritiesReferenceWith(qs: seq<Question>, secs: seq<Section>, answers: Answers)
    requires WellFormed(qs, secs)
    ensures var q := Qualifying(qs, secs, answers);
            TopPrioritiesWith(qs, secs, answers) == Seqs.Take(WithScore(q, 3) + WithScore(q, 2), PriorityLimit)
  {
    var q := Qualifying(qs, secs, answers);
    QualifyingSound(qs, secs, answers);
    forall k | 0 <= k < |q| ensures q[k].score == 2 || q[k].score == 3 {
      YieldedValid(q[k], qs, secs, answers);
    }
    SortTwoBands(q);
  }

  lemma TopPrioritiesReference(answers: Answers)
    ensures var q := Qualifying(Questions, Sections, answers);
            TopPriorities(answers) == Seqs.Take(WithScore(q, 3) + WithScore(q, 2), PriorityLimit)
  {
    CatalogWellFormed();
    TopPrioritiesReferenceWith(Questions, Sections, answers);
  }

  /** Section weights never matter: two section lists with the same ids and
      titles give the same priorities (and the score never reads sections). */
  lemma {:induction false} SectionWeightsIgnored(qs: seq<Question>, s1: seq<Section>, s2: seq<Section>, answers: Answers)
    requires |s1| == |s2|
    requires forall i :: 0 <= i < |s1| ==> s1[i].id == s2[i].id && s1[i].title == s2[i].title
    ensures TopPrioritiesWith(qs, s1, answers) == TopPrioritiesWith(qs, s2, answers)
  {
    forall id: string ensures SectionTitle(s1, id) == SectionTitle(s2, id) {
      SameTitles(s1, s2, id);
    }
    QualifyingSameTitles(qs, s1, s2, answers);
  }

  lemma {:induction false} SameTitles(s1: seq<Section>, s2: seq<Section>, id: string)
    requires |s1| == |s2|
    requires forall i :: 0 <= i < |s1| ==> s1[i].id == s2[i].id && s1[i].title == s2[i].title
    ensures SectionTitle(s1, id) == SectionTitle(s2, id)
  {
    if s1 != [] {
      SameTitles(s1[1..], s2[1..], id);
    }
  }

  lemma {:induction false} QualifyingSameTitles(qs: seq<Question>, s1: seq<Section>, s2: seq<Section>, answers: Answers)
    requires forall id: string :: SectionTitle(s1, id) == SectionTitle(s2, id)
    ensures Qualifying(qs, s1, answers) == Qualifying(qs, s2, answers)
  {
    if qs != [] {
      QualifyingSameTitles(qs[1..], s1, s2, answers);
    }
  }
}

=== FILE: seqs.dfy ===
/** Order-preserving filtering, as `Array.prototype.filter` does it. */
module Seqs {

  /** `sub` can be obtained from `s` by deleting elements, keeping order. */
  predicate IsSubsequence<T(==)>(sub: seq<T>, s: seq<T>)
    decreases |s|
  {
    if sub == [] then true
    else if s == [] then false
    else (sub[0] == s[0] && IsSubsequence(sub[1..], s[1..])) || IsSubsequence(sub, s[1..])
  }

  lemma {:induction false} IsSubsequenceRefl<T>(s: seq<T>)
    ensures IsSubsequence(s, s)
  {
    if s != [] {
      IsSubsequenceRefl(s[1..]);
    }
  }

  /** `s.filter(p)`. */
  function Filter<T(==)>(s: seq<T>, p: T -> bool): (r: seq<T>)
    ensures |r| <= |s|
    ensures forall i :: 0 <= i < |r| ==> r[i] in s && p(r[i])
    ensures forall i :: 0 <= i < |s| && p(s[i]) ==> s[i] in r
    ensures IsSubsequence(r, s)
  {
    if s == [] then []
    else
      var rest := Filter(s[1..], p);
      if p(s[0]) then [s[0]] + rest else rest
  }

  /** Filtering with a predicate that holds everywhere on `s` keeps all of `s`. */
  lemma {:induction false} FilterAll<T>(s: seq<T>, p: T -> bool)
    requires forall i :: 0 <= i < |s| ==> p(s[i])
    ensures Filter(s, p) == s
  {
    if s != [] {
      FilterAll(s[1..], p);
    }
  }

  /** Filtering keeps every copy of a passing element and no copy of a
      failing one. */
  lemma {:induction false} FilterMultiset<T>(s: seq<T>, p: T -> bool)
    ensures forall x :: multiset(Filter(s, p))[x] == if p(x) then multiset(s)[x] else 0
  {
    if s != [] {
      FilterMultiset(s[1..], p);
      assert s == [s[0]] + s[1..];
      assert multiset(s) == multiset{s[0]} + multiset(s[1..]);
    }
  }

  /** `s.slice(0, n)`: the first `min(n, |s|)` elements. */
  function Take<T>(s: seq<T>, n: nat): (r: seq<T>)
    ensures |r| == if |s| < n then |s| else n
    ensures forall i :: 0 <= i < |r| ==> r[i] == s[i]
  {
    if |s| <= n then s else s[..n]
  }

  /** Filtering distributes over concatenation. */
  lemma {:induction false} FilterAppend<T>(s: seq<T>, t: seq<T>, p: T -> bool)
    ensures Filter(s + t, p) == Filter(s, p) + Filter(t, p)
  {
    if s == [] {
      assert s + t == t;
    } else {
      assert (s + t)[1..] == s[1..] + t;
      FilterAppend(s[1..], t, p);
    }
  }

  /** The filter keeps every element exactly when it keeps as many elements
      as there are. */
  lemma {:induction false} FilterKeepsAllIff<T>(s: seq<T>, p: T -> bool)
    ensures |Filter(s, p)| == |s| <==> forall i :: 0 <= i < |s| ==> p(s[i])
  {
    if s != [] {
      FilterKeepsAllIff(s[1..], p);
      if |Filter(s, p)| == |s| {
        assert p(s[0]);
        forall i | 0 <= i < |s| ensures p(s[i]) {
          if i > 0 { assert s[i] == s[1..][i - 1]; }
        }
      }
      if forall i :: 0 <= i < |s| ==> p(s[i]) {
        assert p(s[0]);
        assert forall i :: 0 <= i < |s[1..]| ==> p(s[1..][i]);
      }
    }
  }

  /** Filters that agree on every element of `s` give the same result. */
  lemma {:induction false} FilterCongruent<T>(s: seq<T>, p: T -> bool, q: T -> bool)
    requires forall i :: 0 <= i < |s| ==> p(s[i]) == q(s[i])
    ensures Filter(s, p) == Filter(s, q)
  {
    if s != [] {
      assert forall i :: 0 <= i < |s[1..]| ==> s[1..][i] == s[i + 1];
      FilterCongruent(s[1..], p, q);
    }
  }
}

=== FILE: text.dfy ===
/** String helpers shared by the model: JavaScript whitespace and `trim`,
    and the decimal rendering of numbers in template literals. */
module Text {

  /** The characters matched by `\s` in a JavaScript regular expression and
      removed by `String.prototype.trim` (the two use the same set). */
  predicate IsJsSpace(c: char) {
    var n := c as int;
    n == 0x09 || n == 0x0A || n == 0x0B || n == 0x0C || n == 0x0D || n == 0x20
    || n == 0xA0 || n == 0x1680 || (0x2000 <= n <= 0x200A)
    || n == 0x2028 || n == 0x2029 || n == 0x202F || n == 0x205F
    || n == 0x3000 || n == 0xFEFF
  }

  predicate AllSpace(s: string) {
    forall i :: 0 <= i < |s| ==> IsJsSpace(s[i])
  }

  /** `s` with its leading whitespace removed. */
  function TrimStart(s: string): string {
    if s != [] && IsJsSpace(s[0]) then TrimStart(s[1..]) else s
  }

  /** `s` with its trailing whitespace removed. */
  function TrimEnd(s: string): string {
    if s != [] && IsJsSpace(s[|s| - 1]) then TrimEnd(s[..|s| - 1]) else s
  }

  /** `s.trim()`. */
  function Trim(s: string): string {
    TrimEnd(TrimStart(s))
  }

  /** TrimStart removes exactly a whitespace prefix: the rest is a suffix of
      `s` that does not start with whitespace. */
  lemma {:induction false} TrimStartSpec(s: string)
    ensures |TrimStart(s)| <= |s| && TrimStart(s) == s[|s| - |TrimStart(s)|..]
    ensures AllSpace(s[..|s| - |TrimStart(s)|])
    ensures TrimStart(s) != [] ==> !IsJsSpace(TrimStart(s)[0])
  {
    if s != [] && IsJsSpace(s[0]) {
      TrimStartSpec(s[1..]);
      var k := |s| - |TrimStart(s)|;
      assert s[1..][..k - 1] == s[1..k];
      forall i | 0 <= i < k ensures IsJsSpace(s[..k][i]) {
        if i > 0 { assert s[..k][i] == s[1..][..k - 1][i - 1]; }
      }
    }
  }

  /** TrimEnd removes exactly a whitespace suffix: the rest is a prefix of
      `s` that does not end with whitespace. */
  lemma {:induction false} TrimEndSpec(s: string)
    ensures |TrimEnd(s)| <= |s| && TrimEnd(s) == s[..|TrimEnd(s)|]
    ensures AllSpace(s[|TrimEnd(s)|..])
    ensures TrimEnd(s) != [] ==> !IsJsSpace(TrimEnd(s)[|TrimEnd(s)| - 1])
  {
    if s != [] && IsJsSpace(s[|s| - 1]) {
      var init := s[..|s| - 1];
      TrimEndSpec(init);
      var k := |TrimEnd(s)|;
      assert init[..k] == s[..k];
      forall i | k <= i < |s| ensures IsJsSpace(s[i]) {
        if i < |s| - 1 { assert init[k..][i - k] == s[i]; }
      }
      assert forall i :: 0 <= i < |s[k..]| ==> s[k..][i] == s[k + i];
    }
  }

  /** `s.trim()` is empty exactly when `s` is all whitespace, so `!s.trim()`
      is the source's test for a blank field. */
  lemma TrimEmptyIff(s: string)
    ensures Trim(s) == [] <==> AllSpace(s)
  {
    TrimStartSpec(s);
    var t := TrimStart(s);
    TrimEndSpec(t);
    if Trim(s) == [] {
      assert AllSpace(t[0..]);
      assert s == s[..|s| - |t|] + t;
    } else {
      var r := Trim(s);
      assert !IsJsSpace(r[0]);
      assert r[0] == t[0] == s[|s| - |t|];
    }
  }

  /** `s.trim()` is a contiguous piece of `s`. */
  lemma TrimSlice(s: string) returns (lo: nat, hi: nat)
    ensures lo <= hi <= |s| && Trim(s) == s[lo..hi]
  {
    TrimStartSpec(s);
    var t := TrimStart(s);
    TrimEndSpec(t);
    lo, hi := |s| - |t|, |s| - |t| + |TrimEnd(t)|;
    assert t[..|TrimEnd(t)|] == s[lo..hi];
  }

  /** Trimming never produces a string with whitespace at either end. */
  lemma TrimEnds(s: string)
    ensures Trim(s) != [] ==> !IsJsSpace(Trim(s)[0]) && !IsJsSpace(Trim(s)[|Trim(s)| - 1])
  {
    TrimStartSpec(s);
    var t := TrimStart(s);
    TrimEndSpec(t);
    var r := TrimEnd(t);
    if r != [] {
      assert r[0] == t[0];
    }
  }

  function DigitChar(d: nat): (c: char)
    requires d < 10
  {
    "0123456789"[d]
  }

  function DigitValue(c: char): int {
    c as int - '0' as int
  }

  predicate IsDigit(c: char) {
    '0' <= c <= '9'
  }

  /** The decimal rendering of a natural number, as `${n}` prints it. */
  function NatToString(n: nat): (s: string)
    ensures |s| > 0
    ensures forall i :: 0 <= i < |s| ==> IsDigit(s[i])
    ensures s[0] == '0' ==> n == 0
  {
    if n < 10 then [DigitChar(n)] else NatToString(n / 10) + [DigitChar(n % 10)]
  }

  /** The value of a string of decimal digits: the inverse of NatToString. */
  function DigitsValue(s: string): int {
    if s == [] then 0 else DigitsValue(s[..|s| - 1]) * 10 + DigitValue(s[|s| - 1])
  }

  lemma {:induction false} NatToStringRoundTrip(n: nat)
    ensures DigitsValue(NatToString(n)) == n
  {
    if n >= 10 {
      var s := NatToString(n / 10);
      var t := s + [DigitChar(n % 10)];
      assert t[..|t| - 1] == s;
      NatToStringRoundTrip(n / 10);
    }
  }

  /** Distinct numbers print differently (so `q1` ... `q15` are distinct ids). */
  lemma NatToStringInjective(m: nat, n: nat)
    ensures NatToString(m) == NatToString(n) ==> m == n
  {
    NatToStringRoundTrip(m);
    NatToStringRoundTrip(n);
  }

  /** The rendering of the number `tenths / 10` by a template literal, for a
      number that carries at most one decimal: `9.1`, `10`, `0`. */
  function TenthsToString(tenths: nat): (s: string)
    ensures '.' in s <==> tenths % 10 != 0
    ensures NatToString(tenths / 10) <= s
  {
    var whole := NatToString(tenths / 10);
    if tenths % 10 == 0 then whole else whole + "." + [DigitChar(tenths % 10)]
  }

  /** A JavaScript number with at most one decimal, as a template literal
      renders it: `9.1`, `10`, `-0.5`. */
  function NumberText(tenths: int): string {
    if tenths < 0 then "-" + TenthsToString(-tenths) else TenthsToString(tenths)
  }

  /** `t` occurs in `s` starting at `i`. */
  predicate OccursAt(s: string, t: string, i: int) {
    0 <= i && i + |t| <= |s| && s[i..i + |t|] == t
  }

  /** `t` occurs somewhere in `s`. */
  ghost predicate Contains(s: string, t: string) {
    exists i :: OccursAt(s, t, i)
  }

  /** A piece sits right after what precedes it. */
  lemma OccursBetween(a: string, t: string, c: string)
    ensures OccursAt(a + t + c, t, |a|)
  {
    assert (a + t + c)[|a|..|a| + |t|] == t;
  }
}

=== FILE: wrappers.dfy ===
/** The optional value used wherever the source writes `x || null`,
    `array.find(...)` or an absent object key. */
module Wrappers {

  datatype Option<+T> = None | Some(value: T) {

    /** The value, or `default` when absent (`x ?? default`). */
    function GetOr(default: T): T {
      match this
      case Some(v) => v
      case None => default
    }
  }
}
